=== FILE: README.md ===
# Scope extraction and graph lowering for JavaScript files

This project models the core of a tool that reads one JavaScript file and
records its structure in a graph database. It has two halves.

The **scope builder** (`backend/parseCode/JStoGraphCL.node.ts`,
`backend/parseCode/utilities.ts`) scans the parsed file and builds a
*scope*, which has four parts:

- `functions`: every function, keyed by name, with its source text, its
  documentation comment, the functions and classes nested in its body
  (`methods`), and the call chains it contains (`calls`);
- `classes`: every class, with one record per method definition;
- `exported`: the export table, filled from ES module `export` forms and
  from CommonJS `exports.x =` and `module.exports = { … }` assignments;
- `source`: the file's path.

Anonymous functions and classes get names from one shared counter.

The **lowering** (`backend/parseCode/scopeToGraph.ts`,
`backend/parseCode/model.ts`) turns a scope into graph queries. It builds a
chain of folder nodes from the path and a file node under the last one. It
then adds one node per function and class, contained in the file, and one
node per method record, hung from its parent by name and path. All queries
run in a single transaction on a store connection.

The model describes this behaviour with pure functions over immutable data:

- the syntax tree is a closed datatype (`Ast`);
- the JavaScript objects that keep keys in insertion order are sequences of
  entries (`OrderedMaps`);
- the module-level mutable state (the containers, the export table, the
  counter) is threaded through every step;
- queries are structured values (`Queries`), not Cypher text;
- the database driver is a log of calls, with a parameter that says which
  calls fail (`Store`).

Dafny modules and their sources:

| module | file | models |
|---|---|---|
| `Wrappers` | wrappers.dfy | the `Option` and `Result` types used for missing values and errors |
| `Strings` | strings.dfy | `split`, `join`, `trim`, the default string order of `sort`, decimal rendering |
| `OrderedMaps` | orderedmaps.dfy | object property assignment and key order |
| `Ast` | ast.dfy | the node kinds the builder inspects and the walker's child order |
| `Types` | types.dfy | the scope, descriptor and export-table shapes |
| `Utilities` | utilities.dfy | `uniqueArrays`, `readCodeFromFile` |
| `CallChains` | callchain.dfy | `extractCalleePath`, `extractCallChain` |
| `JsDocs` | jsdoc.dfy | `extractJsDoc` |
| `Exports` | exports.dfy | `extractExport` |
| `Extract` | extract.dfy | `handleFunctionDeclaration`, `handleClassDeclaration`, `parseAST` |
| `Queries` | queries.dfy | the shape of the queries the lowering sends |
| `Store` | store.dfy | the `Model` connection class |
| `Lowering` | lowering.dfy | `ScopeToGraph`, and the artifact files the driver writes |

The code and its description disagree in several places; the model follows
the code:

- `a.b().c()` records the paths `["c"]` and `["a","b"]`. The inner call
  gives its callee nothing, so `["a","b","c"]` is never recorded.
- The walk of a function body uses the default walker, so it enters nested
  functions and classes. A nested function's calls are therefore recorded
  on the outer function as well. Only the call-chain walk skips nested
  bodies.
- A nested anonymous declaration is handled once for every enclosing walk
  that reaches it, and takes a new counter value each time. In
  `function f(){ () => { () => {} } }` the counter ends at 3. `f`'s methods
  hold the inner arrow as `anonymous_function_0` and the outer arrow as
  `anonymous_function_1`. The outer arrow's methods hold the inner arrow
  again, as `anonymous_function_2`.
- A class record's `calls` is always empty.
- Declarations inside a method body are stored as extra properties of the
  method record and never reach the graph.
- The graph stores the locator `/output/<path>:<name>.js`. The driver writes
  the file `./output/<path>.<name>.js`.

## Model

| member | source | states |
|---|---|---|
| Strings.Split | backend/parseCode/scopeToGraph.ts:34 | `split` gives at least one piece, and no piece contains the separator |
| Strings.SplitJoinsBack | backend/parseCode/scopeToGraph.ts:34 | the pieces of `split`, joined with the separator, give back the input |
| Strings.SplitJoin | backend/parseCode/scopeToGraph.ts:34 | splitting undoes joining, when no part contains the separator |
| Strings.SplitConcat | backend/parseCode/scopeToGraph.ts:34 | splitting `a + sep + b` gives the pieces of `a` followed by the pieces of `b` |
| Strings.Trim | backend/parseCode/scopeToGraph.ts:36-37 | `trim` gives a slice of its input that starts where the leading white space ends |
| Strings.TrimSpec | backend/parseCode/scopeToGraph.ts:36-37 | `trim` gives the slice of its input left after removing a prefix and a suffix of JavaScript white space, with ends that are not white space; it is empty exactly when the input is all white space |
| Strings.TrimUnique | backend/parseCode/scopeToGraph.ts:36-37 | any slice with white space only around it and non-space ends is the trimmed string, so `trim` is the one such slice |
| Strings.SplitJoinEmptyDeletes | backend/parseCode/scopeToGraph.ts:37 | `split(" ").join("")` removes every space and keeps everything else in order |
| Strings.Sort | backend/parseCode/utilities.ts:10 | `sort()` on strings gives an ordered permutation of its input |
| Strings.SortedUnique | backend/parseCode/utilities.ts:10 | two sorted arrangements of the same strings are equal, so the sort key of an array does not depend on its order |
| Strings.DecimalInjective | backend/parseCode/JStoGraphCL.node.ts:253 | distinct counter values render as distinct decimal strings |
| OrderedMaps.Put | backend/parseCode/JStoGraphCL.node.ts:254 | assigning a property stores the value under the key, leaves every other key's value unchanged, keeps the key order when the key exists and appends the key otherwise |
| OrderedMaps.PutUnique | backend/parseCode/JStoGraphCL.node.ts:254 | assignment never creates a duplicate key |
| OrderedMaps.PutPut | backend/parseCode/JStoGraphCL.node.ts:254 | assigning a key twice is the same as assigning only the second value |
| Utilities.ArrayKeyPermutation | backend/parseCode/utilities.ts:10 | two arrays that are permutations of each other have the same key |
| Utilities.UniqueArrays | backend/parseCode/utilities.ts:4-20 | the result keeps, in input order, exactly the first array of each key; no two kept arrays share a key, and the first array of every key is kept |
| Utilities.UniqueArraysCovers | backend/parseCode/utilities.ts:4-20 | every key of the input has an array in the result |
| Utilities.FirstIndicesDistinct | backend/parseCode/utilities.ts:8-17 | when all keys differ, the loop keeps every position |
| Utilities.UniqueArraysIdempotent | backend/parseCode/utilities.ts:4-20 | deduplicating a deduplicated list changes nothing |
| Utilities.ReadCode | backend/parseCode/utilities.ts:62-66 | the text is the content between the node's offsets, clamped the way `slice` clamps, and empty when the offsets are crossed |
| CallChains.MemberParts | backend/parseCode/JStoGraphCL.node.ts:514-517 | unwrapping member accesses reaches a non-member expression, from which the property names, applied in order, rebuild the callee; the last name is the outermost property |
| CallChains.MemberPartsOfWrap | backend/parseCode/JStoGraphCL.node.ts:514-517 | unwrapping a base wrapped in member accesses gives back the base and the property names |
| CallChains.CalleePath | backend/parseCode/JStoGraphCL.node.ts:510-555 | a plain callee gives its name, `this` gives `"this"`, a member callee ends with its property, and a call callee gives nothing |
| CallChains.CalleePathByBase | backend/parseCode/JStoGraphCL.node.ts:510-555 | for a callee `base.p1…pn`: an identifier or `this` heads the path; a function or arrow expression gives its name or `anonymous`; a sequence expression is named by its last expression, an identifier or a member chain on one; any other base gives only `p1…pn` |
| CallChains.CalleePathOfChain | backend/parseCode/JStoGraphCL.node.ts:510-555 | the path of a call on `base.p1…pn` is the base's names followed by `p1…pn` |
| CallChains.CalleePathLoop | backend/parseCode/JStoGraphCL.node.ts:510-555 | the loop-and-switch version computes the same path as the recursive one |
| CallChains.CallChain | backend/parseCode/JStoGraphCL.node.ts:564-591 | every path a call chain records is non-empty |
| CallChains.RootCallFirst | backend/parseCode/JStoGraphCL.node.ts:564-591 | after the reversal, the chain's first path is the path of the call itself |
| CallChains.CallChainComplete | backend/parseCode/JStoGraphCL.node.ts:564-591 | a path is in the chain exactly when some call reached without entering a nested function or class has it as a non-empty callee path |
| CallChains.ChainedCallExample | backend/parseCode/JStoGraphCL.node.ts:564-591 | `a.b().c()` records `[["c"],["a","b"]]` |
| CallChains.CallbackExample | backend/parseCode/JStoGraphCL.node.ts:564-591 | in `f(function(){ g() })` the call of `g` is not part of `f`'s chain |
| JsDocs.ClosestIn | backend/parseCode/JStoGraphCL.node.ts:388-393 | the result is a doc-comment candidate ending no later than the node's start; no candidate ends later, and none before it ends as late |
| JsDocs.ClosestUnique | backend/parseCode/JStoGraphCL.node.ts:393-396 | there is only one closest candidate |
| JsDocs.ExtractJsDoc | backend/parseCode/JStoGraphCL.node.ts:387-404 | there is a doc comment exactly when the closest candidate ends on the line before the node, and it is that comment re-wrapped in `/**` and `*/` |
| JsDocs.NoCandidateNoDoc | backend/parseCode/JStoGraphCL.node.ts:395-403 | with no candidate comment there is no documentation |
| JsDocs.AdjacentCommentExample | backend/parseCode/JStoGraphCL.node.ts:387-404 | of two doc comments only the closest is considered, even when an earlier one ends on the line above |
| Exports.BindAll | backend/parseCode/JStoGraphCL.node.ts:423-436 | a run of assignments adds exactly the written keys, leaves the other keys alone, and the last write of each key wins |
| Exports.ExtractExport | backend/parseCode/JStoGraphCL.node.ts:411-501 | the keys are the old keys plus those written; other entries and other node kinds leave the table unchanged; `export default` sets `default`; a declaration with an id exports it under its own name; `exports.x = v` sets `x` |
| Exports.ExportDeclarators | backend/parseCode/JStoGraphCL.node.ts:421-428 | every declarator of `export const …` is exported under its own name |
| Exports.ExportSpecifiers | backend/parseCode/JStoGraphCL.node.ts:430-437 | each exported name of `export { … }` maps to the local name of its last specifier |
| Exports.ExportModuleObject | backend/parseCode/JStoGraphCL.node.ts:480-500 | every keyed property of `module.exports = { … }` is exported, is the default export exactly when named `default`, and the last such property of a name decides its entry |
| Exports.SpecifierExample | backend/parseCode/JStoGraphCL.node.ts:430-437 | `export { parse as default, parse }` gives two entries for the same local |
| Exports.CommonJsDefaultExample | backend/parseCode/JStoGraphCL.node.ts:459-477 | `exports.default = parseAST` is a default export of `parseAST` |
| Exports.ModuleExportsExample | backend/parseCode/JStoGraphCL.node.ts:480-500 | a property whose value has no name is recorded with the value's node kind |
| Extract.AnonymousNamesDistinct | backend/parseCode/JStoGraphCL.node.ts:253 | different counter values give different anonymous names, and an anonymous function's name never equals an anonymous class's |
| Extract.HandleFunction | backend/parseCode/JStoGraphCL.node.ts:249-285 | the record stored under the function's name has the function's path, text, doc comment and the deduplicated calls of its body, and a nested entry for every named function and class anywhere in its body; no other key changes; the counter moves by exactly `FunctionUses(n)`, one value for the function if it is anonymous plus the values the walk of its body hands out |
| Extract.FunctionCallsDeduplicated | backend/parseCode/JStoGraphCL.node.ts:263-284 | no two recorded calls share a key, and every call in the body has a recorded call with its key |
| Extract.HandleClass | backend/parseCode/JStoGraphCL.node.ts:287-321 | the record stored under the class's name has no calls; under the key of each method definition that no later element overrides it holds that method's record (name, path, text, doc comment, no calls); no key no element writes is present; no other key of the parent changes; the counter moves by exactly `ClassUses(n)`, one value for the class if it is anonymous plus the values the scans of its elements hand out |
| Extract.ClassElements | backend/parseCode/JStoGraphCL.node.ts:301-318 | every method definition of the class body is a key of the method table; the last definition of a key stores its method record; keys no element writes keep their entries, and no earlier key is lost; the counter moves by exactly `ElementsUses(elems)` |
| Extract.ClassElement | backend/parseCode/JStoGraphCL.node.ts:302-317 | a method definition stores its method record under its key; a key the element cannot write keeps its entry |
| Extract.Visit | backend/parseCode/JStoGraphCL.node.ts:330-358 | a node that is not a function or class only updates the export table; declarations go to the same kind of container; the counter moves by exactly `VisitUses(n)` |
| Extract.ParseQueue | backend/parseCode/JStoGraphCL.node.ts:324-360 | the worklist loop keeps the kind of container, drops no export, and moves the counter by exactly `ScanUses(q)`, the values the handlers of the dequeued declarations hand out |
| Extract.SimpleWalk | backend/parseCode/JStoGraphCL.node.ts:263-282 | walking a body appends one call record per call expression in it, nested functions and classes included, and stores every named function and class in it, again nested ones included, without losing a key; the counter moves by exactly `WalkUses(n)`, which counts a nested anonymous declaration once per enclosing walk |
| Extract.WalkHandle | backend/parseCode/JStoGraphCL.node.ts:264-278 | a function or class met by the walk is stored under its name, and no key is lost |
| Extract.ParseQueueVisitsDequeued | backend/parseCode/JStoGraphCL.node.ts:324-360 | the worklist loop is the visit of the nodes it dequeues, one after another |
| Extract.DequeuedIsReach | backend/parseCode/JStoGraphCL.node.ts:325-350 | the nodes dequeued are, counted with multiplicity, exactly the reachable nodes, where a function or class is reached but not entered |
| Extract.VisitAllKeepsKeys | backend/parseCode/JStoGraphCL.node.ts:324-360 | visiting nodes keeps every key already stored, and each named function or class visited is stored under its name |
| Extract.VisitAllStores | backend/parseCode/JStoGraphCL.node.ts:324-360 | the `i`-th node visited, if it is a function or class, is stored in the table of its kind under its own name or, if anonymous, under the name of `CounterAt(ns, i, c0)`: the start value plus what the earlier visits handed out |
| Extract.AnonymousKeysDistinct | backend/parseCode/JStoGraphCL.node.ts:253-291 | two anonymous declarations of the same kind visited at different positions get different keys, because an anonymous visit moves the counter past its own value |
| Extract.VisitAllExports | backend/parseCode/JStoGraphCL.node.ts:352-358 | every key an export statement among the visited nodes writes is in the final export table |
| Extract.ScanFinds | backend/parseCode/JStoGraphCL.node.ts:324-360 | every named function or class the top-level scan reaches ends up under its name, and every key a reached export statement writes is exported |
| Extract.ScanStores | backend/parseCode/JStoGraphCL.node.ts:324-360 | every reached node is dequeued, and the `i`-th node the top-level scan dequeues, if it is a function or class, is stored under its name or under the anonymous name of `CounterAt(d, i, 0)` |
| Extract.TopScan | backend/parseCode/JStoGraphCL.node.ts:324-360 | the top-level scan starts the counter at 0 and ends it at `ScanUses([program])` |
| Extract.NestedArrowsExample | backend/parseCode/JStoGraphCL.node.ts:249-285 | handling `function f(){ () => { () => {} } }` ends the counter at 3 |
| Extract.NestedArrowsUses | backend/parseCode/JStoGraphCL.node.ts:249-285 | in that example the inner arrow takes one counter value, the outer arrow two and `f` three |
| Extract.NestedArrowsNames | backend/parseCode/JStoGraphCL.node.ts:249-285 | in that example `f`'s methods are `anonymous_function_0` (the inner arrow) and `anonymous_function_1` (the outer arrow), and the outer arrow's methods are `anonymous_function_2` (the inner arrow again) |
| Extract.RunExtraction | backend/parseCode/JStoGraphCL.node.ts:205-216 | the scope of a file carries its path as the source, every named function or class the scan reaches under its name in `functions` or `classes`, every anonymous one it reaches under the anonymous name of the counter at its place in the dequeue order (`CounterAt`), and every key the reached export statements write in `exported` |
| Store.RunQuery | backend/parseCode/model.ts:16-31 | a query runs on the open transaction when there is one and on the session otherwise; the query's failure is passed on; the transaction flag still agrees with the log |
| Store.Begin | backend/parseCode/model.ts:33-39 | with a transaction open it only warns; otherwise it calls the driver, a transaction is open afterwards exactly when the call succeeds, and a failure is passed on; the flag still agrees with the log |
| Store.EndTransaction | backend/parseCode/model.ts:41-57 | without a transaction it only warns; otherwise it makes the call, and the transaction stays set exactly when the call fails |
| Store.Commit | backend/parseCode/model.ts:41-48 | committing keeps the transaction flag in agreement with the log |
| Store.Rollback | backend/parseCode/model.ts:50-57 | rolling back keeps the transaction flag in agreement with the log |
| Store.Close | backend/parseCode/model.ts:59-71 | an open transaction is rolled back first and nothing follows a failed rollback; then the session is closed, and the driver unless the session failed to close; the transaction stays set only if the rollback fails; the flag still agrees with the log |
| Store.RunAll | backend/parseCode/model.ts:16-31 | running queries in turn logs one call per query, in order, on the transaction or the session, and keeps the flag in agreement with the log |
| Lowering.FolderName | backend/parseCode/scopeToGraph.ts:36-37 | a folder name is the trimmed segment without spaces, non-empty when the trimmed segment is, and made of the segment's characters |
| Lowering.FoldersOfAppend | backend/parseCode/scopeToGraph.ts:33-38 | the folders of concatenated segment lists are the concatenated folders |
| Lowering.Folders | backend/parseCode/scopeToGraph.ts:33-38 | every folder name is non-empty and free of spaces, dots and slashes |
| Lowering.FilenameIsStem | backend/parseCode/scopeToGraph.ts:40 | the file name starts after the path's last `/` and runs up to the first dot after it, or to the end |
| Lowering.SourceUnder | backend/parseCode/scopeToGraph.ts:33-40 | below a directory, the folders are the directory's followed by the rest's, and the file name depends only on the rest |
| Lowering.FilenameOfStem | backend/parseCode/scopeToGraph.ts:40 | the name of `stem.ext` is `stem` |
| Lowering.RootChain | backend/parseCode/scopeToGraph.ts:32-68 | no query when the file name is empty; otherwise the first folder alone, each next folder linked from the one before, and the file contained in the last folder, or in an unconstrained node when there is none |
| Lowering.FileInFolder | backend/parseCode/scopeToGraph.ts:32-68 | a file `stem.ext` in one folder gives the folder and the file contained in it |
| Lowering.DotlessFileIsFolder | backend/parseCode/scopeToGraph.ts:33-40 | a last segment without a dot is also taken for a folder, so the file is put in a folder of its own name |
| Lowering.BareFile | backend/parseCode/scopeToGraph.ts:49-59 | a path `stem.ext` without a directory hangs the file, named `stem`, from an unconstrained node, with no folder merges |
| Lowering.BareFileExample | backend/parseCode/scopeToGraph.ts:49-59 | `main.js` gives one clause: the file `main` contained in an unconstrained node |
| Lowering.DotFileHasNoQuery | backend/parseCode/scopeToGraph.ts:40-44 | a file whose last segment starts with a dot has an empty name, so no query is made for it |
| Lowering.DotFileExample | backend/parseCode/scopeToGraph.ts:40-44 | `lib/.eslintrc` has an empty name, so no query is made |
| Lowering.MethodQueries | backend/parseCode/scopeToGraph.ts:105-131 | each method query matches the parent by name and path and merges one method node with a `parent` edge into it; there is exactly one query per record, counted at every depth (`Records`) |
| Lowering.MethodQueriesComplete | backend/parseCode/scopeToGraph.ts:105-131 | every record of a method table gets its query |
| Lowering.MethodQueriesNested | backend/parseCode/scopeToGraph.ts:129 | the queries of a nested method table are among those of the enclosing table |
| Lowering.TopQueries | backend/parseCode/scopeToGraph.ts:133-186 | every query either matches a file and merges one contained declaration node labelled with that file's name, or is a method query; there is exactly one query per record of the table, counted at every depth (`Records`) |
| Lowering.TopQueriesComplete | backend/parseCode/scopeToGraph.ts:133-186 | every top-level record gets its query, and so does every record below it |
| Lowering.AttachedNotLoweredExample | backend/parseCode/scopeToGraph.ts:105-106 | a function declared in a method body is not lowered: a class with one such method gives exactly two queries |
| Lowering.Artifacts | backend/parseCode/JStoGraphCL.node.ts:225-229 | at most two files per top-level function, each with non-empty contents, under `./output/` |
| Lowering.ArtifactsComplete | backend/parseCode/JStoGraphCL.node.ts:225-229 | every function with source text gets its `.js` file, and every non-empty doc comment its `.jsdoc` file |
| Lowering.LocatorMissesArtifact | backend/parseCode/scopeToGraph.ts:148-149 | the locator stored in the graph never names the file written for the declaration, with or without the leading `.` |
| Lowering.DropLast | backend/parseCode/scopeToGraph.ts:74 | `pop` leaves the path without its last name |
| Lowering.ParseCalls | backend/parseCode/scopeToGraph.ts:70-94 | the source, the export table and the keys of both tables are kept |
| Lowering.ParseCallsRecord | backend/parseCode/scopeToGraph.ts:70-94 | a record keeps everything but its calls, and each call path loses exactly its last name |
| Lowering.RootQueries | backend/parseCode/scopeToGraph.ts:40-44 | there is one root query exactly when the file name is non-empty |
| Lowering.Recover | backend/parseCode/scopeToGraph.ts:25-29 | after a failure the transaction is rolled back; if that fails too, the failure escapes with the transaction still set and nothing closed; otherwise the session and then the driver are closed, the driver only when the session closed |
| Lowering.ProcessScopeSucceeds | backend/parseCode/scopeToGraph.ts:14-30 | when begin, commit and session close succeed: begin, every query in order on the transaction, commit, then the session and driver closes |
| Lowering.ProcessScopeBeginFails | backend/parseCode/scopeToGraph.ts:14-30 | when the transaction cannot be opened no query is sent, the scope is unchanged, the rollback only warns, and the connection is closed |
| Lowering.ProcessScopeCommitFails | backend/parseCode/scopeToGraph.ts:24-29 | a failed commit is followed by a rollback; if the rollback fails too, the failure escapes and the session and driver stay open; otherwise the session and then the driver are closed |
| Lowering.ProcessScopeConsistent | backend/parseCode/scopeToGraph.ts:14-30 | whatever fails, the transaction flag left by `processScope` agrees with the calls it made |
| Lowering.TransactAlike | backend/parseCode/scopeToGraph.ts:14-30 | two transactions whose begin, commit, rollback and close calls fail alike end with the same outcome and scope, the same transaction state, and logs of the same length, whatever their queries do |
| Lowering.QueryFailuresIgnored | backend/parseCode/scopeToGraph.ts:17-22 | when begin, commit, rollback and the closes fail alike, the failure of a query changes neither the outcome, nor the final scope, nor whether a transaction is left set |

## Left out

- Reading the input file, the command-line arguments, the parser itself and
  the writing of files are not modelled. The file's content and its comment
  list are parameters (`Env`). `Lowering.Artifacts` lists the files the
  driver would write.
- Cypher text generation and its quoting are not modelled. Queries are
  structured values, so a name containing `"` cannot break a query here as
  it could in the source.
- Asynchronous timing is not modelled. The queries of `parseFunctions`,
  `parseClasses` and `parseMethods` are not awaited. They are modelled as
  sent in program order, before `parseCalls` and the commit. An unhandled
  rejection of one of them is not modelled.
- `postProcessScope` is never called, so it is not modelled.
- A member property is a name here, so `a[x]` is represented like `a.x`.
  That is what the source gives whenever the property is an identifier,
  computed or not, because it reads the property's `name`: `a[x]()` records
  `["a","x"]` and `exports[k] = v` writes the key `k`. A property that is
  not an identifier, such as `a["x"]` or `a[0]`, has no `name`; the source
  then records `undefined` in the callee path, and `exports["x"] = v` writes
  the key `undefined`. Such properties are not modelled. In
  `module.exports = { … }` a property without a key name is skipped, here
  as in the source.
- A method key that is not an identifier is not modelled. A method
  definition always carries its name.
- In the source, a method record's properties and the declarations attached
  to it share one object. A nested declaration named `name`, `path`, `js`,
  `jsdoc` or `calls` would overwrite a field. Here they are kept apart
  (`attached`).
- An empty sequence expression as a callee cannot come out of the parser,
  so it is not modelled.
- The superclass expression of a class is ignored by the class handler, and
  the top-level worklist does not enter it, here as in the source. The walk
  of an enclosing function body does enter it, in both: in
  `function f(){ class A extends m(g()) {} }` the call of `g` is recorded
  on `f`.
- The default `sort` compares UTF-16 code units. `Strings.StrLe` compares
  characters. The two differ only for characters outside the Basic
  Multilingual Plane.
- The child order of the syntax walker is given by `Ast.Children`, which
  lists the children in source order. The walker library is not part of
  this model.
- Destructuring patterns are not part of the syntax tree. A default value
  inside a pattern, such as the arrow in `const {cb = () => f()} = o`, is
  not walked here. In the source it is handled as a function, takes a
  counter value, and has its calls recorded.
- Node offsets are character positions here. The parser's offsets count
  UTF-16 code units, so a character outside the Basic Multilingual Plane
  before a node shifts the source's slice, and `Utilities.ReadCode` does not
  model that shift.
- Extract.RunExtraction: the export table is stated only by its keys, and
  only for the reached export statements. The scan of a method body also
  writes exports, and a later write of a key replaces its value.
- Extract.HandleClass: the declarations attached to a method record are not
  stated. They come from the scan of the method body, and their names
  depend on the counter. A nested class element may overwrite a method
  record of the same name, so only keys no later element may write are
  stated.
- Exports.ExportDeclarators: it is stated only for names other than
  `undefined`. A later destructuring declarator of the same statement also
  writes the key `undefined`, so for that name the statement's last
  declarator decides.
- OrderedMaps.Put: every key is an own property here. In the source,
  assigning `obj["__proto__"]` sets the object's prototype and adds no own
  key, so a function or class named `__proto__` gets no entry, no artifact
  and no graph node there, while here it is stored like any other name.
- Lowering.QueryFailuresIgnored: each driver call fails or succeeds on its
  own here. The driver fails the commit of a transaction in which a query
  failed, so the run this model allows, where a query fails and the commit
  still succeeds, cannot happen with the real driver.

=== FILE: ast.dfy ===
/**
 * The syntax tree the scope builder consumes: the ESTree node kinds the
 * builder distinguishes, plus `Other` for every other kind, which carries the
 * children the parser's generic walker would visit. Each node stands for one
 * occurrence in the tree, so equal subtrees at different places are distinct
 * occurrences.
 */
module Ast {
  import opened Wrappers

  datatype FunctionKind = FunctionDeclaration | FunctionExpression | ArrowFunctionExpression

  /** Character offsets `[start, end)` of a node and the line it starts on. */
  datatype Span = Span(start: nat, end: nat, line: int)

  /**
   * A comment as the parser reports it: block or line, its text without the
   * delimiters, its offsets and the line it ends on.
   */
  datatype Comment = Comment(isBlock: bool, value: string, start: nat, end: nat, endLine: int)

  /** One entry of `export { local as exported }`. */
  datatype Specifier = Specifier(local: string, exported: string)

  datatype Node =
    | Identifier(name: string)
    | ThisExpression
      /** `object.property`, with the property's identifier name */
    | MemberExpression(obj: Node, property: string)
    | CallExpression(callee: Node, arguments: seq<Node>)
    | SequenceExpression(expressions: seq<Node>)
      /** function declaration, function expression or arrow function */
    | FunctionNode(kind: FunctionKind, id: Option<string>, params: seq<Node>, body: Node, span: Span)
      /** class declaration or class expression; `elements` is the class body */
    | ClassNode(isDeclaration: bool, id: Option<string>, superClass: Option<Node>, elements: seq<Node>, span: Span)
    | MethodDefinition(key: string, value: Node, span: Span)
      /** object-literal property; `key` is the key's identifier name when it has one */
    | Property(keyName: Option<string>, value: Node)
    | ObjectExpression(properties: seq<Node>)
    | AssignmentExpression(left: Node, right: Node)
    | ExpressionStatement(expression: Node)
    | VariableDeclaration(declarations: seq<Node>)
      /** `id = init`; `id` is `None` when the declared target is a destructuring pattern */
    | VariableDeclarator(id: Option<string>, init: Option<Node>)
    | ExportNamedDeclaration(declared: Option<Node>, specifiers: seq<Specifier>)
    | ExportDefaultDeclaration(declaration: Node)
    | Other(typeName: string, children: seq<Node>)
  {
    predicate IsFunctionOrClass() {
      FunctionNode? || ClassNode?
    }
  }

  /** The node's ESTree `type` string. */
  function KindName(n: Node): string
  {
    match n
    case Identifier(_) => "Identifier"
    case ThisExpression => "ThisExpression"
    case MemberExpression(_, _) => "MemberExpression"
    case CallExpression(_, _) => "CallExpression"
    case SequenceExpression(_) => "SequenceExpression"
    case FunctionNode(kind, _, _, _, _) =>
      (match kind
       case FunctionDeclaration => "FunctionDeclaration"
       case FunctionExpression => "FunctionExpression"
       case ArrowFunctionExpression => "ArrowFunctionExpression")
    case ClassNode(isDecl, _, _, _, _) => if isDecl then "ClassDeclaration" else "ClassExpression"
    case MethodDefinition(_, _, _) => "MethodDefinition"
    case Property(_, _) => "Property"
    case ObjectExpression(_) => "ObjectExpression"
    case AssignmentExpression(_, _) => "AssignmentExpression"
    case ExpressionStatement(_) => "ExpressionStatement"
    case VariableDeclaration(_) => "VariableDeclaration"
    case VariableDeclarator(_, _) => "VariableDeclarator"
    case ExportNamedDeclaration(_, _) => "ExportNamedDeclaration"
    case ExportDefaultDeclaration(_) => "ExportDefaultDeclaration"
    case Other(kind, _) => kind
  }

  function OptionList(o: Option<Node>): seq<Node>
  {
    if o.Some? then [o.value] else []
  }

  /**
   * The children the parser's generic walker hands to its callback, in the
   * order it hands them over. Identifier patterns (declared names, parameter
   * names) are left out: no walker reacts to them.
   */
  function Children(n: Node): seq<Node>
  {
    match n
    case Identifier(_) => []
    case ThisExpression => []
    case MemberExpression(o, _) => [o]
    case CallExpression(c, args) => [c] + args
    case SequenceExpression(es) => es
    case FunctionNode(_, _, params, body, _) => params + [body]
    case ClassNode(_, _, sup, elems, _) => OptionList(sup) + elems
    case MethodDefinition(_, v, _) => [v]
    case Property(_, v) => [v]
    case ObjectExpression(ps) => ps
    case AssignmentExpression(l, r) => [l, r]
    case ExpressionStatement(e) => [e]
    case VariableDeclaration(ds) => ds
    case VariableDeclarator(_, init) => OptionList(init)
    case ExportNamedDeclaration(d, _) => OptionList(d)
    case ExportDefaultDeclaration(d) => [d]
    case Other(_, cs) => cs
  }

  /** Number of node occurrences in the tree; the termination measure of every walk. */
  function Size(n: Node): nat
  {
    match n
    case Identifier(_) => 1
    case ThisExpression => 1
    case MemberExpression(o, _) => 1 + Size(o)
    case CallExpression(c, args) => 1 + Size(c) + SizeOf(args)
    case SequenceExpression(es) => 1 + SizeOf(es)
    case FunctionNode(_, _, params, body, _) => 1 + SizeOf(params) + Size(body)
    case ClassNode(_, _, sup, elems, _) => 1 + SizeOfOption(sup) + SizeOf(elems)
    case MethodDefinition(_, v, _) => 1 + Size(v)
    case Property(_, v) => 1 + Size(v)
    case ObjectExpression(ps) => 1 + SizeOf(ps)
    case AssignmentExpression(l, r) => 1 + Size(l) + Size(r)
    case ExpressionStatement(e) => 1 + Size(e)
    case VariableDeclaration(ds) => 1 + SizeOf(ds)
    case VariableDeclarator(_, init) => 1 + SizeOfOption(init)
    case ExportNamedDeclaration(d, _) => 1 + SizeOfOption(d)
    case ExportDefaultDeclaration(d) => 1 + Size(d)
    case Other(_, cs) => 1 + SizeOf(cs)
  }

  function SizeOfOption(o: Option<Node>): nat
  {
    match o
    case None => 0
    case Some(n) => Size(n)
  }

  function SizeOf(ns: seq<Node>): nat
  {
    if |ns| == 0 then 0 else Size(ns[0]) + SizeOf(ns[1..])
  }

  lemma SizeOfAppend(a: seq<Node>, b: seq<Node>)
    ensures SizeOf(a + b) == SizeOf(a) + SizeOf(b)
  {
    if |a| == 0 {
      assert a + b == b;
    } else {
      assert (a + b)[1..] == a[1..] + b;
      SizeOfAppend(a[1..], b);
    }
  }

  lemma SizeOfElement(ns: seq<Node>, i: nat)
    requires i < |ns|
    ensures Size(ns[i]) <= SizeOf(ns)
  {
    if i > 0 { SizeOfElement(ns[1..], i - 1); }
  }

  /** The children of a node are, together, exactly one node smaller than it. */
  lemma SizeOfSingle(n: Node)
    ensures SizeOf([n]) == Size(n)
  {
    assert [n][1..] == [];
  }

  lemma SizeOfPair(l: Node, r: Node)
    ensures SizeOf([l, r]) == Size(l) + Size(r)
  {
    assert [l, r][1..] == [r];
    SizeOfSingle(r);
  }

  lemma SizeOfOptionList(o: Option<Node>)
    ensures SizeOf(OptionList(o)) == SizeOfOption(o)
  {
    if o.Some? { SizeOfSingle(o.value); }
  }

  lemma ChildrenSize(n: Node)
    ensures SizeOf(Children(n)) == Size(n) - 1
  {
    match n
    case CallExpression(_, _) => ChildrenSizeJoined(n);
    case FunctionNode(_, _, _, _, _) => ChildrenSizeJoined(n);
    case ClassNode(_, _, _, _, _) => ChildrenSizeJoined(n);
    case MemberExpression(o, _) => SizeOfSingle(o);
    case MethodDefinition(_, v, _) => SizeOfSingle(v);
    case Property(_, v) => SizeOfSingle(v);
    case AssignmentExpression(l, r) => SizeOfPair(l, r);
    case ExpressionStatement(e) => SizeOfSingle(e);
    case VariableDeclarator(_, init) => SizeOfOptionList(init);
    case ExportNamedDeclaration(d, _) => SizeOfOptionList(d);
    case ExportDefaultDeclaration(d) => SizeOfSingle(d);
    case _ =>
  }

  /** The nodes whose children are two lists joined together. */
  lemma ChildrenSizeJoined(n: Node)
    requires n.CallExpression? || n.FunctionNode? || n.ClassNode?
    ensures SizeOf(Children(n)) == Size(n) - 1
  {
    match n
    case CallExpression(c, args) => SizeOfAppend([c], args); SizeOfSingle(c);
    case FunctionNode(_, _, params, body, _) => SizeOfAppend(params, [body]); SizeOfSingle(body);
    case ClassNode(_, _, sup, elems, _) => SizeOfAppend(OptionList(sup), elems); SizeOfOptionList(sup);
  }
}

=== FILE: callchain.dfy ===
/**
 * What a call expression records about the calls it is made of:
 * `extractCalleePath`, which names the function a call invokes, and
 * `extractCallChain`, which collects those names for every call of an
 * expression that is not inside a nested function or class.
 */
module CallChains {
  import opened Wrappers
  import opened Ast
  import opened Types

  // ---------------------------------------------------------------- callee path

  /** The member chain `root.p1.p2…pn` for `props == [p1, …, pn]`. */
  function Wrap(root: Node, props: seq<string>): Node
  {
    if |props| == 0 then root
    else MemberExpression(Wrap(root, props[..|props| - 1]), props[|props| - 1])
  }

  /**
   * The root below a chain of member accesses `root.p1.p2…pn`, and the
   * property names `[p1, …, pn]`, in source order.
   */
  function MemberParts(e: Node): (r: (Node, seq<string>))
    ensures !r.0.MemberExpression?
    ensures Wrap(r.0, r.1) == e
    ensures !e.MemberExpression? ==> r == (e, [])
    ensures e.MemberExpression? ==> |r.1| > 0 && r.1[|r.1| - 1] == e.property
    ensures Size(r.0) <= Size(e)
  {
    match e
    case MemberExpression(o, p) =>
      var (root, props) := MemberParts(o);
      assert (props + [p])[..|props|] == props;
      (root, props + [p])
    case _ => (e, [])
  }

  /** Taking a member chain apart gives back its root and its names. */
  lemma {:induction false} MemberPartsOfWrap(root: Node, props: seq<string>)
    requires !root.MemberExpression?
    ensures MemberParts(Wrap(root, props)) == (root, props)
  {
    if |props| > 0 {
      MemberPartsOfWrap(root, props[..|props| - 1]);
      assert props[..|props| - 1] + [props[|props| - 1]] == props;
    }
  }

  /** The names the innermost callee contributes, ahead of the member names. */
  function BaseNames(b: Node): seq<string>
  {
    match b
    case Identifier(x) => [x]
    case ThisExpression => ["this"]
    case FunctionNode(kind, id, _, _, _) =>
      if kind == FunctionDeclaration then [] else [id.GetOr("anonymous")]
    case SequenceExpression(es) =>
      if |es| == 0 then []
      else
        var last := es[|es| - 1];
        if last.Identifier? then [last.name]
        else if last.MemberExpression? then
          var (root, props) := MemberParts(last);
          (if root.Identifier? then [root.name] else []) + props
        else []
    case _ => []
  }

  /**
   * `extractCalleePath`: the callee's base name(s) followed by the names of
   * the member accesses leading to the called function.
   */
  function CalleePath(call: Node): (r: CallPath)
    requires call.CallExpression?
    ensures call.callee.Identifier? ==> r == [call.callee.name]
    ensures call.callee.ThisExpression? ==> r == ["this"]
    ensures call.callee.MemberExpression? ==> |r| > 0 && r[|r| - 1] == call.callee.property
    ensures call.callee.CallExpression? ==> r == []
  {
    var (root, props) := MemberParts(call.callee);
    BaseNames(root) + props
  }

  /** The bases that contribute a name of their own. */
  predicate NamedBase(root: Node)
  {
    || root.Identifier? || root.ThisExpression?
    || (root.FunctionNode? && root.kind != FunctionDeclaration)
    || (root.SequenceExpression? && |root.expressions| > 0)
  }

  /** The path of a call, case by case on the base of its callee `root.p1…pn` (`n` may be 0). */
  lemma CalleePathByBase(call: Node)
    requires call.CallExpression?
    ensures var (root, props) := MemberParts(call.callee);
            var r := CalleePath(call);
            && Wrap(root, props) == call.callee && !root.MemberExpression?
            // an identifier or `this` heads the path
            && (root.Identifier? ==> r == [root.name] + props)
            && (root.ThisExpression? ==> r == ["this"] + props)
            // a function or arrow expression gives its name, or `anonymous`
            && (root.FunctionNode? && root.kind != FunctionDeclaration ==> r == [root.id.GetOr("anonymous")] + props)
            // a sequence expression is named by its last expression: an identifier, or a member chain on one
            && (root.SequenceExpression? && |root.expressions| > 0 ==>
                  var last := root.expressions[|root.expressions| - 1];
                  && (last.Identifier? ==> r == [last.name] + props)
                  && (last.MemberExpression? ==>
                        var (base, inner) := MemberParts(last);
                        r == (if base.Identifier? then [base.name] else []) + inner + props)
                  && (!last.Identifier? && !last.MemberExpression? ==> r == props))
            // any other base adds nothing
            && (!NamedBase(root) ==> r == props)
  {
    var (root, props) := MemberParts(call.callee);
    assert CalleePath(call) == BaseNames(root) + props;
    if root.SequenceExpression? && |root.expressions| > 0 {
      var last := root.expressions[|root.expressions| - 1];
      if !last.Identifier? && !last.MemberExpression? {
        assert BaseNames(root) == [];
      }
    } else if !NamedBase(root) {
      assert BaseNames(root) == [];
    }
  }

  /** The path of a call on the member chain `root.p1…pn`: the root's names, then `p1, …, pn`. */
  lemma CalleePathOfChain(root: Node, props: seq<string>, args: seq<Node>)
    requires !root.MemberExpression?
    ensures CalleePath(CallExpression(Wrap(root, props), args)) == BaseNames(root) + props
  {
    MemberPartsOfWrap(root, props);
  }

  /**
   * The member loop of `extractCalleePath`, used both on the callee and on
   * the last expression of a sequence: each step puts the property name in
   * front of `parts` and moves to the accessed object.
   */
  method UnwrapMembers(e: Node, parts0: seq<string>) returns (root: Node, parts: seq<string>)
    ensures root == MemberParts(e).0
    ensures parts == MemberParts(e).1 + parts0
  {
    root := e;
    parts := parts0;
    while root.MemberExpression?
      invariant MemberParts(root).0 == MemberParts(e).0
      invariant MemberParts(root).1 + parts == MemberParts(e).1 + parts0
      decreases Size(root)
    {
      parts := [root.property] + parts;
      root := root.obj;
    }
    assert MemberParts(root) == (root, []);
    assert [] + parts == parts;
  }

  /** The switch of `extractCalleePath` on the callee left after the member loop. */
  method PrependBase(b: Node, parts0: seq<string>) returns (parts: seq<string>)
    ensures parts == BaseNames(b) + parts0
  {
    parts := parts0;
    match b {
      case Identifier(x) =>
        parts := [x] + parts;
      case ThisExpression =>
        parts := ["this"] + parts;
      case FunctionNode(kind, id, _, _, _) =>
        if kind != FunctionDeclaration {
          if id.Some? {
            parts := [id.value] + parts;
          } else {
            parts := ["anonymous"] + parts;
          }
        }
      case SequenceExpression(es) =>
        parts := PrependLastOfSequence(es, parts0);
      case _ =>
    }
  }

  /** The sequence-expression case of the switch: the last expression names the base. */
  method PrependLastOfSequence(es: seq<Node>, parts0: seq<string>) returns (parts: seq<string>)
    ensures parts == BaseNames(SequenceExpression(es)) + parts0
  {
    var b := SequenceExpression(es);
    parts := parts0;
    if |es| > 0 {
      var last := es[|es| - 1];
      if last.Identifier? {
        assert BaseNames(b) == [last.name];
        parts := [last.name] + parts;
      } else if last.MemberExpression? {
        var member;
        member, parts := UnwrapMembers(last, parts);
        var root, props := MemberParts(last).0, MemberParts(last).1;
        assert BaseNames(b) == (if root.Identifier? then [root.name] else []) + props;
        if member.Identifier? {
          parts := [member.name] + parts;
          assert parts == ([root.name] + props) + parts0;
        } else {
          assert parts == [] + props + parts0;
        }
      } else {
        assert BaseNames(b) == [];
      }
    }
  }

  /** `extractCalleePath` as written: the member loop, then the switch on what is left. */
  method CalleePathLoop(call: Node) returns (parts: seq<string>)
    requires call.CallExpression?
    ensures parts == CalleePath(call)
  {
    var callee;
    callee, parts := UnwrapMembers(call.callee, []);
    parts := PrependBase(callee, parts);
  }

  // ---------------------------------------------------------------- call chain

  /** The path a call contributes to a chain: none when its path is empty. */
  function OwnPath(n: Node): seq<CallPath>
  {
    if n.CallExpression? && |CalleePath(n)| > 0 then [CalleePath(n)] else []
  }

  /**
   * The walk `extractCallChain` performs: post-order over the expression,
   * not entering functions or classes, one path per call with a non-empty
   * callee path.
   */
  function ChainWalk(n: Node): seq<CallPath>
    decreases Size(n), 1
  {
    if n.IsFunctionOrClass() then [] else ChildrenSize(n); ChainWalkSeq(Children(n)) + OwnPath(n)
  }

  function ChainWalkSeq(ns: seq<Node>): seq<CallPath>
    decreases SizeOf(ns), 2
  {
    if |ns| == 0 then []
    else
      assert SizeOf(ns) == Size(ns[0]) + SizeOf(ns[1..]);
      ChainWalk(ns[0]) + ChainWalkSeq(ns[1..])
  }

  function Reverse<T>(s: seq<T>): (r: seq<T>)
    ensures |r| == |s|
    ensures forall i :: 0 <= i < |s| ==> r[i] == s[|s| - 1 - i]
  {
    seq(|s|, i requires 0 <= i < |s| => s[|s| - 1 - i])
  }

  /** `extractCallChain`: the walk's paths, last-visited first. */
  function CallChain(call: Node): (r: CallRecord)
    requires call.CallExpression?
    ensures forall i :: 0 <= i < |r| ==> |r[i]| > 0
  {
    ChainPathsNonEmpty(call);
    Reverse(ChainWalk(call))
  }

  lemma {:induction false} ChainPathsNonEmpty(n: Node)
    ensures forall i :: 0 <= i < |ChainWalk(n)| ==> |ChainWalk(n)[i]| > 0
    decreases Size(n), 1
  {
    if !n.IsFunctionOrClass() {
      ChildrenSize(n);
      ChainSeqPathsNonEmpty(Children(n));
    }
  }

  lemma {:induction false} ChainSeqPathsNonEmpty(ns: seq<Node>)
    ensures forall i :: 0 <= i < |ChainWalkSeq(ns)| ==> |ChainWalkSeq(ns)[i]| > 0
    decreases SizeOf(ns), 2
  {
    if |ns| > 0 {
      ChainPathsNonEmpty(ns[0]);
      ChainSeqPathsNonEmpty(ns[1..]);
    }
  }

  /** A call whose own path is non-empty heads its chain. */
  lemma RootCallFirst(call: Node)
    requires call.CallExpression? && |CalleePath(call)| > 0
    ensures |CallChain(call)| > 0 && CallChain(call)[0] == CalleePath(call)
  {
    var w := ChainWalk(call);
    assert w[|w| - 1] == CalleePath(call);
  }

  // ---------------------------------------------------------------- reference

  /** The call expressions of `n` that are outside every nested function and class. */
  function ScopeCalls(n: Node): set<Node>
    decreases Size(n), 1
  {
    if n.IsFunctionOrClass() then {}
    else ChildrenSize(n); (if n.CallExpression? then {n} else {}) + ScopeCallsSeq(Children(n))
  }

  function ScopeCallsSeq(ns: seq<Node>): set<Node>
    decreases SizeOf(ns), 2
  {
    if |ns| == 0 then {}
    else
      assert SizeOf(ns) == Size(ns[0]) + SizeOf(ns[1..]);
      ScopeCalls(ns[0]) + ScopeCallsSeq(ns[1..])
  }

  /** The paths a set of calls would contribute. */
  ghost predicate PathOfSome(p: CallPath, calls: set<Node>)
  {
    exists c :: c in calls && c.CallExpression? && |CalleePath(c)| > 0 && CalleePath(c) == p
  }

  /**
   * A path is in the chain exactly when some call outside nested functions and
   * classes has it as its non-empty callee path.
   */
  lemma {:induction false} ChainWalkComplete(n: Node, p: CallPath)
    ensures p in ChainWalk(n) <==> PathOfSome(p, ScopeCalls(n))
    decreases Size(n), 1
  {
    if !n.IsFunctionOrClass() {
      ChildrenSize(n);
      ChainWalkSeqComplete(Children(n), p);
      var own := if n.CallExpression? then {n} else {};
      assert PathOfSome(p, ScopeCalls(n)) <==> PathOfSome(p, own) || PathOfSome(p, ScopeCallsSeq(Children(n))) by {
        if PathOfSome(p, ScopeCalls(n)) {
          var c :| c in ScopeCalls(n) && c.CallExpression? && |CalleePath(c)| > 0 && CalleePath(c) == p;
          if c in own { assert PathOfSome(p, own); } else { assert PathOfSome(p, ScopeCallsSeq(Children(n))); }
        }
      }
      assert p in OwnPath(n) <==> PathOfSome(p, own);
    }
  }

  lemma {:induction false} ChainWalkSeqComplete(ns: seq<Node>, p: CallPath)
    ensures p in ChainWalkSeq(ns) <==> PathOfSome(p, ScopeCallsSeq(ns))
    decreases SizeOf(ns), 2
  {
    if |ns| > 0 {
      ChainWalkComplete(ns[0], p);
      ChainWalkSeqComplete(ns[1..], p);
      assert PathOfSome(p, ScopeCallsSeq(ns)) <==> PathOfSome(p, ScopeCalls(ns[0])) || PathOfSome(p, ScopeCallsSeq(ns[1..])) by {
        if PathOfSome(p, ScopeCallsSeq(ns)) {
          var c :| c in ScopeCallsSeq(ns) && c.CallExpression? && |CalleePath(c)| > 0 && CalleePath(c) == p;
          if c in ScopeCalls(ns[0]) { assert PathOfSome(p, ScopeCalls(ns[0])); }
          else { assert PathOfSome(p, ScopeCallsSeq(ns[1..])); }
        }
      }
    }
  }

  /** Reversing a sequence keeps its elements. */
  lemma ReverseHas<T>(s: seq<T>, x: T)
    ensures x in Reverse(s) <==> x in s
  {
    var r := Reverse(s);
    if x in s {
      var i :| 0 <= i < |s| && s[i] == x;
      assert r[|s| - 1 - i] == x;
    }
  }

  /** The chain of a call lists exactly the paths of the calls in its scope. */
  lemma CallChainComplete(call: Node, p: CallPath)
    requires call.CallExpression?
    ensures p in CallChain(call) <==> PathOfSome(p, ScopeCalls(call))
  {
    ChainWalkComplete(call, p);
    assert CallChain(call) == Reverse(ChainWalk(call));
    ReverseHas(ChainWalk(call), p);
  }

  // ---------------------------------------------------------------- examples

  /** `a.b().c()` records `[["c"], ["a", "b"]]`: the outer call's base is a call, which names nothing. */
  lemma ChainedCallExample()
    ensures var inner := CallExpression(MemberExpression(Identifier("a"), "b"), []);
            var outer := CallExpression(MemberExpression(inner, "c"), []);
            CallChain(outer) == [["c"], ["a", "b"]]
  {
    var inner := CallExpression(MemberExpression(Identifier("a"), "b"), []);
    var outer := CallExpression(MemberExpression(inner, "c"), []);
    PathOfMemberCall(Identifier("a"), "b");
    assert CalleePath(inner) == ["a", "b"];
    PathOfMemberCall(inner, "c");
    assert CalleePath(outer) == ["c"];
    assert OwnPath(inner) == [["a", "b"]] && OwnPath(outer) == [["c"]];
    assert ChainWalk(Identifier("a")) == [];
    WalkOfMember(Identifier("a"), "b");
    WalkOfCall(MemberExpression(Identifier("a"), "b"));
    assert ChainWalk(inner) == [["a", "b"]];
    WalkOfMember(inner, "c");
    WalkOfCall(MemberExpression(inner, "c"));
    assert ChainWalk(outer) == [["a", "b"], ["c"]];
  }

  /** `o.p()` with `o` not a member access: `o`'s base names, then `p`. */
  lemma PathOfMemberCall(o: Node, p: string)
    requires !o.MemberExpression?
    ensures CalleePath(CallExpression(MemberExpression(o, p), [])) == BaseNames(o) + [p]
  {
    assert Wrap(o, [p]) == MemberExpression(o, p);
    CalleePathOfChain(o, [p], []);
  }

  /** A call without arguments: the callee's paths, then the call's own. */
  lemma WalkOfCall(c: Node)
    ensures ChainWalk(CallExpression(c, [])) == ChainWalk(c) + OwnPath(CallExpression(c, []))
  {
    assert Children(CallExpression(c, [])) == [c];
    WalkOfSingle(c);
  }

  lemma WalkOfSingle(n: Node)
    ensures ChainWalkSeq([n]) == ChainWalk(n)
  {
    assert [n][1..] == [];
  }

  /** A member access: the object's paths. */
  lemma WalkOfMember(o: Node, p: string)
    ensures ChainWalk(MemberExpression(o, p)) == ChainWalk(o)
  {
    WalkOfSingle(o);
  }

  /** A call inside a function passed as an argument is not part of the chain. */
  lemma CallbackExample()
    ensures var g := CallExpression(Identifier("g"), []);
            var cb := FunctionNode(FunctionExpression, None, [], Other("BlockStatement", [ExpressionStatement(g)]), Span(0, 0, 1));
            CallChain(CallExpression(Identifier("f"), [cb])) == [["f"]]
  {
    var g := CallExpression(Identifier("g"), []);
    var cb := FunctionNode(FunctionExpression, None, [], Other("BlockStatement", [ExpressionStatement(g)]), Span(0, 0, 1));
    var call := CallExpression(Identifier("f"), [cb]);
    assert ChainWalk(Identifier("f")) == [];
    assert ChainWalk(cb) == [];
    assert ChainWalkSeq([cb]) == [];
    assert Children(call) == [Identifier("f"), cb];
    assert ChainWalkSeq(Children(call)) == [];
  }
}

=== FILE: exports.dfy ===
/**
 * `extractExport`: the entries an export statement adds to the export table.
 * Each form of export the scanner recognises is turned into a list of writes
 * `name := { default, identifier }`, applied in order, so a later write to
 * the same name replaces an earlier one.
 */
module Exports {
  import opened Wrappers
  import opened Ast
  import opened Types

  /** One write to the table, or nothing (a skipped entry). */
  type Write = Option<(string, Binding)>

  /** The names a list of writes assigns. */
  function WrittenKeys(ws: seq<Write>): set<string>
  {
    set i | 0 <= i < |ws| && ws[i].Some? :: ws[i].value.0
  }

  /** Write `i` is the last one to its name. */
  ghost predicate LastWrite(ws: seq<Write>, i: nat)
    requires i < |ws| && ws[i].Some?
  {
    forall j :: i < j < |ws| && ws[j].Some? ==> ws[j].value.0 != ws[i].value.0
  }

  /** Apply the writes in order. */
  function BindAll(t: ExportTable, ws: seq<Write>): (r: ExportTable)
    ensures r.Keys == t.Keys + WrittenKeys(ws)
    ensures forall k :: k in t && k !in WrittenKeys(ws) ==> r[k] == t[k]
    ensures forall i :: 0 <= i < |ws| && ws[i].Some? && LastWrite(ws, i) ==> r[ws[i].value.0] == ws[i].value.1
    decreases |ws|
  {
    if |ws| == 0 then t
    else
      var t' := if ws[0].Some? then t[ws[0].value.0 := ws[0].value.1] else t;
      var r := BindAll(t', ws[1..]);
      WrittenKeysCons(ws);
      assert forall i :: 0 <= i < |ws| && ws[i].Some? && LastWrite(ws, i) ==> r[ws[i].value.0] == ws[i].value.1 by {
        forall i | 0 <= i < |ws| && ws[i].Some? && LastWrite(ws, i) ensures r[ws[i].value.0] == ws[i].value.1 {
          if i == 0 {
            LastWriteUnwritten(ws);
          } else {
            LastWriteTail(ws, i);
          }
        }
      }
      r
  }

  lemma WrittenKeysCons(ws: seq<Write>)
    requires |ws| > 0
    ensures WrittenKeys(ws) == (if ws[0].Some? then {ws[0].value.0} else {}) + WrittenKeys(ws[1..])
  {
    forall k | k in WrittenKeys(ws) ensures k in (if ws[0].Some? then {ws[0].value.0} else {}) + WrittenKeys(ws[1..]) {
      var i :| 0 <= i < |ws| && ws[i].Some? && ws[i].value.0 == k;
      if i > 0 { assert ws[1..][i - 1] == ws[i]; }
    }
  }

  lemma LastWriteUnwritten(ws: seq<Write>)
    requires |ws| > 0 && ws[0].Some? && LastWrite(ws, 0)
    ensures ws[0].value.0 !in WrittenKeys(ws[1..])
  {
    forall j | 0 <= j < |ws[1..]| && ws[1..][j].Some? ensures ws[1..][j].value.0 != ws[0].value.0 {
      assert ws[1..][j] == ws[j + 1];
    }
  }

  lemma LastWriteTail(ws: seq<Write>, i: nat)
    requires 0 < i < |ws| && ws[i].Some? && LastWrite(ws, i)
    ensures ws[1..][i - 1] == ws[i] && LastWrite(ws[1..], i - 1)
  {
    forall j | i - 1 < j < |ws[1..]| && ws[1..][j].Some? ensures ws[1..][j].value.0 != ws[i].value.0 {
      assert ws[1..][j] == ws[j + 1];
    }
  }

  /** `value.name || value.type`: an identifier's name, or the node's kind. */
  function NameOrKind(n: Node): (r: string)
    ensures n.Identifier? && n.name != "" ==> r == n.name
    ensures !n.Identifier? ==> r == KindName(n)
  {
    if n.Identifier? && n.name != "" then n.name else KindName(n)
  }

  /** `declaration.id.name` for a declaration that has an id. */
  function DeclaredId(d: Node): Option<string>
  {
    if d.FunctionNode? || d.ClassNode? then d.id else None
  }

  /**
   * The write for one declarator of `export const …`: a destructuring
   * pattern has no `name`, so it is written under the key `"undefined"`.
   */
  function DeclaratorWrite(d: Node): Write
  {
    if d.VariableDeclarator? && d.id.Some? then Some((d.id.value, Binding(false, d.id)))
    else Some(("undefined", Binding(false, None)))
  }

  function DeclaratorWrites(ds: seq<Node>): (ws: seq<Write>)
    ensures |ws| == |ds| && forall i :: 0 <= i < |ds| ==> ws[i] == DeclaratorWrite(ds[i])
  {
    seq(|ds|, i requires 0 <= i < |ds| => DeclaratorWrite(ds[i]))
  }

  /** `export { local as exported, … }` writes `exported := { false, local }` for each entry. */
  function SpecifierWrites(specs: seq<Specifier>): (ws: seq<Write>)
    ensures |ws| == |specs|
    ensures forall i :: 0 <= i < |specs| ==> ws[i] == Some((specs[i].exported, Binding(false, Some(specs[i].local))))
  {
    seq(|specs|, i requires 0 <= i < |specs| => Some((specs[i].exported, Binding(false, Some(specs[i].local)))))
  }

  /** The identifier `export default` records: an identifier's name or a declaration's id. */
  function DefaultIdentifier(d: Node): Option<string>
  {
    if d.Identifier? then Some(d.name) else DeclaredId(d)
  }

  /** The write for one property of `module.exports = { … }`: skipped without a key name. */
  function PropertyWrite(p: Node): Write
  {
    if p.Property? && p.keyName.Some? && p.keyName.value != "" then
      Some((p.keyName.value, Binding(p.keyName.value == "default", Some(NameOrKind(p.value)))))
    else None
  }

  /** `exports.<name> = <value>` */
  predicate IsExportsAssignment(n: Node)
  {
    && n.ExpressionStatement? && n.expression.AssignmentExpression?
    && n.expression.left.MemberExpression?
    && n.expression.left.obj == Identifier("exports")
  }

  /** `module.exports = { … }` */
  predicate IsModuleExportsObject(n: Node)
  {
    && n.ExpressionStatement? && n.expression.AssignmentExpression?
    && n.expression.left == MemberExpression(Identifier("module"), "exports")
    && n.expression.right.ObjectExpression?
  }

  /** The writes a node makes, in the order the scanner makes them. */
  function Writes(n: Node): seq<Write>
  {
    match n
    case ExportNamedDeclaration(Some(d), _) =>
      if DeclaredId(d).Some? then [Some((DeclaredId(d).value, Binding(false, DeclaredId(d))))]
      else if d.VariableDeclaration? then
        DeclaratorWrites(d.declarations)
      else []
    case ExportNamedDeclaration(None, specs) =>
      SpecifierWrites(specs)
    case ExportDefaultDeclaration(d) =>
      [Some(("default", Binding(true, DefaultIdentifier(d))))]
    case ExpressionStatement(_) =>
      if IsExportsAssignment(n) then
        var name := n.expression.left.property;
        [Some((name, Binding(name == "default", Some(NameOrKind(n.expression.right)))))]
      else if IsModuleExportsObject(n) then
        var props := n.expression.right.properties;
        seq(|props|, i requires 0 <= i < |props| => PropertyWrite(props[i]))
      else []
    case _ => []
  }

  /**
   * `extractExport`: the table after the node's writes. Names the node does
   * not write keep their entry; nodes other than export declarations and
   * expression statements change nothing.
   */
  function ExtractExport(n: Node, t: ExportTable): (r: ExportTable)
    ensures r.Keys == t.Keys + WrittenKeys(Writes(n))
    ensures forall k :: k in t && k !in WrittenKeys(Writes(n)) ==> r[k] == t[k]
    ensures !(n.ExportNamedDeclaration? || n.ExportDefaultDeclaration? || n.ExpressionStatement?) ==> r == t
    ensures n.ExportDefaultDeclaration? ==> r == t["default" := Binding(true, DefaultIdentifier(n.declaration))]
    ensures n.ExportNamedDeclaration? && n.declared.Some? && DeclaredId(n.declared.value).Some? ==>
              var x := DeclaredId(n.declared.value).value; r == t[x := Binding(false, Some(x))]
    ensures IsExportsAssignment(n) ==>
              var x := n.expression.left.property;
              r == t[x := Binding(x == "default", Some(NameOrKind(n.expression.right)))]
  {
    BindFew(t, Writes(n));
    BindAll(t, Writes(n))
  }

  /** No writes leave the table alone; a single write is one update. */
  lemma BindFew(t: ExportTable, ws: seq<Write>)
    ensures |ws| == 0 ==> BindAll(t, ws) == t
    ensures |ws| == 1 && ws[0].Some? ==> BindAll(t, ws) == t[ws[0].value.0 := ws[0].value.1]
  {
    if |ws| == 1 {
      assert ws[1..] == [];
    }
  }

  /**
   * `export const a = 1, b = 2`: every declared name is exported under its
   * own name (a name `undefined` can be taken over by a later destructuring
   * declarator, so it is excluded).
   */
  lemma ExportDeclarators(n: Node, t: ExportTable)
    requires n.ExportNamedDeclaration? && n.declared.Some? && n.declared.value.VariableDeclaration?
    ensures var ds := n.declared.value.declarations;
            forall i :: 0 <= i < |ds| && ds[i].VariableDeclarator? && ds[i].id.Some? && ds[i].id.value != "undefined" ==>
              var x := ds[i].id.value; x in ExtractExport(n, t) && ExtractExport(n, t)[x] == Binding(false, Some(x))
  {
    var ds := n.declared.value.declarations;
    assert Writes(n) == DeclaratorWrites(ds);
    assert ExtractExport(n, t) == BindAll(t, DeclaratorWrites(ds));
    DeclaratorsWritten(ds, t);
  }

  /** `export { local as exported, … }`: the last specifier of each exported name decides its entry. */
  lemma ExportSpecifiers(n: Node, t: ExportTable)
    requires n.ExportNamedDeclaration? && n.declared.None?
    ensures forall i :: 0 <= i < |n.specifiers| &&
                        (forall j :: i < j < |n.specifiers| ==> n.specifiers[j].exported != n.specifiers[i].exported) ==>
              ExtractExport(n, t)[n.specifiers[i].exported] == Binding(false, Some(n.specifiers[i].local))
  {
    assert ExtractExport(n, t) == BindAll(t, SpecifierWrites(n.specifiers));
    SpecifiersWritten(n.specifiers, t);
  }

  /**
   * `module.exports = { … }`: every property with a key name is exported
   * under it, the last such property of a name deciding its entry; the
   * entry is the default export exactly when the name is `default`.
   */
  lemma ExportModuleObject(n: Node, t: ExportTable)
    requires IsModuleExportsObject(n) && !IsExportsAssignment(n)
    ensures var ps := n.expression.right.properties;
            forall i :: 0 <= i < |ps| && PropertyWrite(ps[i]).Some? &&
                        (forall j :: i < j < |ps| && PropertyWrite(ps[j]).Some? ==> ps[j].keyName != ps[i].keyName) ==>
              var k := ps[i].keyName.value;
              ExtractExport(n, t)[k] == Binding(k == "default", Some(NameOrKind(ps[i].value)))
  {
    var ps := n.expression.right.properties;
    var ws := Writes(n);
    assert |ws| == |ps| && forall i :: 0 <= i < |ps| ==> ws[i] == PropertyWrite(ps[i]);
    forall i | 0 <= i < |ps| && PropertyWrite(ps[i]).Some? &&
               (forall j :: i < j < |ps| && PropertyWrite(ps[j]).Some? ==> ps[j].keyName != ps[i].keyName)
      ensures ExtractExport(n, t)[ps[i].keyName.value] == Binding(ps[i].keyName.value == "default", Some(NameOrKind(ps[i].value)))
    {
      assert LastWrite(ws, i);
    }
  }

  lemma DeclaratorsWritten(ds: seq<Node>, t: ExportTable)
    ensures forall i :: 0 <= i < |ds| && ds[i].VariableDeclarator? && ds[i].id.Some? && ds[i].id.value != "undefined" ==>
              ds[i].id.value in BindAll(t, DeclaratorWrites(ds)) &&
              BindAll(t, DeclaratorWrites(ds))[ds[i].id.value] == Binding(false, Some(ds[i].id.value))
  {
    var ws := DeclaratorWrites(ds);
    var r := BindAll(t, ws);
    forall i | 0 <= i < |ds| && ds[i].VariableDeclarator? && ds[i].id.Some? && ds[i].id.value != "undefined"
      ensures ds[i].id.value in r && r[ds[i].id.value] == Binding(false, Some(ds[i].id.value))
    {
      var last := LastOf(ws, i);
      assert ws[last] == DeclaratorWrite(ds[last]);
    }
  }

  lemma SpecifiersWritten(specs: seq<Specifier>, t: ExportTable)
    ensures forall i :: 0 <= i < |specs| &&
                        (forall j :: i < j < |specs| ==> specs[j].exported != specs[i].exported) ==>
              BindAll(t, SpecifierWrites(specs))[specs[i].exported] == Binding(false, Some(specs[i].local))
  {
    var ws := SpecifierWrites(specs);
    var r := BindAll(t, ws);
    forall i | 0 <= i < |specs| && (forall j :: i < j < |specs| ==> specs[j].exported != specs[i].exported)
      ensures r[specs[i].exported] == Binding(false, Some(specs[i].local))
    {
      assert LastWrite(ws, i);
    }
  }

  /**
   * The last write to the name of write `i`; when every write to a name
   * carries the same binding, that binding is the entry.
   */
  lemma LastOf(ws: seq<Write>, i: nat) returns (last: nat)
    requires i < |ws| && ws[i].Some?
    ensures i <= last < |ws| && ws[last].Some? && ws[last].value.0 == ws[i].value.0
    ensures LastWrite(ws, last)
    decreases |ws| - i
  {
    if LastWrite(ws, i) {
      last := i;
    } else {
      var j :| i < j < |ws| && ws[j].Some? && ws[j].value.0 == ws[i].value.0;
      last := LastOf(ws, j);
    }
  }

  // ---------------------------------------------------------------- examples

  /** `export { parse as default, parse }` */
  lemma SpecifierExample()
    ensures ExtractExport(ExportNamedDeclaration(None, [Specifier("parse", "default"), Specifier("parse", "parse")]), map[])
            == map["default" := Binding(false, Some("parse")), "parse" := Binding(false, Some("parse"))]
  {
    var n := ExportNamedDeclaration(None, [Specifier("parse", "default"), Specifier("parse", "parse")]);
    assert Writes(n) == [Some(("default", Binding(false, Some("parse")))), Some(("parse", Binding(false, Some("parse"))))];
  }

  /** `exports.default = parseAST;` marks the entry as the default export. */
  lemma CommonJsDefaultExample()
    ensures ExtractExport(ExpressionStatement(AssignmentExpression(MemberExpression(Identifier("exports"), "default"), Identifier("parseAST"))), map[])
            == map["default" := Binding(true, Some("parseAST"))]
  {
  }

  /** `module.exports = { parseAST, run: () => 0 }` records the second value by its kind. */
  lemma ModuleExportsExample()
    ensures var arrow := FunctionNode(ArrowFunctionExpression, None, [], Other("Literal", []), Span(0, 0, 1));
            var n := ExpressionStatement(AssignmentExpression(MemberExpression(Identifier("module"), "exports"),
                       ObjectExpression([Property(Some("parseAST"), Identifier("parseAST")), Property(Some("run"), arrow)])));
            ExtractExport(n, map[]) == map["parseAST" := Binding(false, Some("parseAST")), "run" := Binding(false, Some("ArrowFunctionExpression"))]
  {
    var arrow := FunctionNode(ArrowFunctionExpression, None, [], Other("Literal", []), Span(0, 0, 1));
    var props := [Property(Some("parseAST"), Identifier("parseAST")), Property(Some("run"), arrow)];
    var n := ExpressionStatement(AssignmentExpression(MemberExpression(Identifier("module"), "exports"), ObjectExpression(props)));
    assert !IsExportsAssignment(n);
    assert IsModuleExportsObject(n);
    var w0 := Some(("parseAST", Binding(false, Some("parseAST"))));
    var w1 := Some(("run", Binding(false, Some("ArrowFunctionExpression"))));
    assert PropertyWrite(props[0]) == w0;
    assert KindName(arrow) == "ArrowFunctionExpression";
    assert PropertyWrite(props[1]) == w1;
    assert Writes(n) == [w0, w1];
    var m1 := map["parseAST" := Binding(false, Some("parseAST"))];
    var m2 := m1["run" := Binding(false, Some("ArrowFunctionExpression"))];
    assert [w0, w1][1..] == [w1] && [w1][1..] == [];
    assert BindAll(m1, [w1]) == BindAll(m2, []) == m2;
    assert BindAll(map[], [w0, w1]) == BindAll(m1, [w1]);
  }
}

=== FILE: extract.dfy ===
/**
 * The scope builder: the worklist scan of a syntax tree (`parseAST`), the
 * function and class handlers it dispatches to, and the walk of a function
 * body that collects its nested declarations and its calls.
 *
 * The builder's module-level state (the top-level `functions` and `classes`
 * objects, the `exported` table and the anonymous-name counter) is threaded
 * through every step: `Sink` says where declarations go, `Ctx` holds the
 * counter and the export table, and `Env` holds what every step reads (the
 * file's path, its content and its comments).
 */
module Extract {
  import opened Wrappers
  import opened Strings
  import opened OrderedMaps
  import opened Ast
  import opened Types
  import opened Utilities
  import opened CallChains
  import opened JsDocs
  import opened Exports

  /** What every step reads: the file's path, its content and its comments. */
  datatype Env = Env(path: string, content: string, comments: seq<Comment>)

  /** The builder's mutable state besides the declaration containers. */
  datatype Ctx = Ctx(counter: nat, exports: ExportTable)

  /** The state only moves forward: the counter never goes back and no export is dropped. */
  predicate Grows(c: Ctx, c': Ctx)
  {
    c'.counter >= c.counter && c.exports.Keys <= c'.exports.Keys
  }

  /**
   * Where the scan puts what it finds: the top-level `functions` and
   * `classes`, or one container that receives both.
   */
  datatype Sink = TopLevel(functions: Members, classes: Members) | Into(members: Members)

  /** The state the walk of one function body carries. */
  datatype WalkState = WalkState(methods: Members, calls: seq<CallRecord>, ctx: Ctx)

  // ---------------------------------------------------------------- names

  function AnonymousFunctionName(k: nat): string
  {
    "anonymous_function_" + Decimal(k)
  }

  function AnonymousClassName(k: nat): string
  {
    "anonymous_class_" + Decimal(k)
  }

  /** Different counter values give different anonymous names, and a function's never equals a class's. */
  lemma AnonymousNamesDistinct(a: nat, b: nat)
    ensures a != b ==> AnonymousFunctionName(a) != AnonymousFunctionName(b)
    ensures a != b ==> AnonymousClassName(a) != AnonymousClassName(b)
    ensures AnonymousFunctionName(a) != AnonymousClassName(b)
  {
    var pf := "anonymous_function_";
    var pc := "anonymous_class_";
    if AnonymousFunctionName(a) == AnonymousFunctionName(b) {
      assert Decimal(a) == AnonymousFunctionName(a)[|pf|..];
      assert Decimal(b) == AnonymousFunctionName(b)[|pf|..];
      DecimalInjective(a, b);
    }
    if AnonymousClassName(a) == AnonymousClassName(b) {
      assert Decimal(a) == AnonymousClassName(a)[|pc|..];
      assert Decimal(b) == AnonymousClassName(b)[|pc|..];
      DecimalInjective(a, b);
    }
    assert AnonymousFunctionName(a)[10] != AnonymousClassName(b)[10];
  }

  /** The key a declaration is stored under: its id, or the next anonymous name. */
  function DeclarationName(id: Option<string>, counter: nat, isClass: bool): string
  {
    if id.Some? then id.value
    else if isClass then AnonymousClassName(counter) else AnonymousFunctionName(counter)
  }

  /** The counter after naming a declaration: it moves only for an anonymous one. */
  function Advance(id: Option<string>, counter: nat): nat
  {
    if id.Some? then counter else counter + 1
  }

  function FunctionName(n: Node, counter: nat): string
    requires n.FunctionNode?
  {
    DeclarationName(n.id, counter, false)
  }

  function ClassName(n: Node, counter: nat): string
    requires n.ClassNode?
  {
    DeclarationName(n.id, counter, true)
  }

  // ---------------------------------------------------------------- counter

  /*
   * How many anonymous names each step of the scan hands out, read off the
   * tree alone. Every handler call on an anonymous declaration takes one;
   * since the walk of a function body enters nested bodies and then hands
   * the nested declaration to its handler, whose own walk enters them
   * again, a declaration nested two deep is counted once per enclosing
   * handler that walks it.
   */

  /** The names `handleFunctionDeclaration` on `n` uses: its own, if anonymous, and its body walk's. */
  function FunctionUses(n: Node): nat
    requires n.FunctionNode?
    decreases Size(n), 1
  {
    (if n.id.None? then 1 else 0) + WalkUses(n.body)
  }

  /** The names `handleClassDeclaration` on `n` uses: its own, if anonymous, and its elements'. */
  function ClassUses(n: Node): nat
    requires n.ClassNode?
    decreases Size(n), 1
  {
    (if n.id.None? then 1 else 0) + ElementsUses(n.elements)
  }

  function ElementsUses(elems: seq<Node>): nat
    decreases SizeOf(elems), 3
  {
    if |elems| == 0 then 0
    else
      assert SizeOf(elems) == Size(elems[0]) + SizeOf(elems[1..]);
      ElementUses(elems[0]) + ElementsUses(elems[1..])
  }

  /** A method's body is scanned by the worklist; a nested class is handled. */
  function ElementUses(e: Node): nat
    decreases Size(e), 2
  {
    if e.MethodDefinition? && e.value.FunctionNode? then
      assert SizeOf([e.value.body]) == Size(e.value.body) by { assert [e.value.body][1..] == []; }
      assert Size(e) == 2 + SizeOf(e.value.params) + Size(e.value.body);
      ScanUses([e.value.body])
    else if e.ClassNode? then ClassUses(e)
    else 0
  }

  /** The names handing `n` to its handler uses. */
  function VisitUses(n: Node): nat
    decreases Size(n), 2
  {
    if n.FunctionNode? then FunctionUses(n) else if n.ClassNode? then ClassUses(n) else 0
  }

  /** The names the worklist loop on `q` uses. */
  function ScanUses(q: seq<Node>): nat
    decreases SizeOf(q), 3
  {
    if |q| == 0 then 0
    else
      assert SizeOf(q) == Size(q[0]) + SizeOf(q[1..]);
      VisitUses(q[0]) + ScanUses(Next(q))
  }

  /** The names the walk of `n` uses: its children's walks first, then `n`'s handler. */
  function WalkUses(n: Node): nat
    decreases Size(n), 3
  {
    ChildrenSize(n);
    WalkUsesSeq(Children(n)) + VisitUses(n)
  }

  function WalkUsesSeq(ns: seq<Node>): nat
    decreases SizeOf(ns), 4
  {
    if |ns| == 0 then 0
    else
      assert SizeOf(ns) == Size(ns[0]) + SizeOf(ns[1..]);
      WalkUses(ns[0]) + WalkUsesSeq(ns[1..])
  }

  // ---------------------------------------------------------------- calls

  /** How `uniqueArrays` renders one path of a call record: `String(path)`. */
  function ShowPath(p: CallPath): string
  {
    Join(",", p)
  }

  function DedupCalls(calls: seq<CallRecord>): seq<CallRecord>
  {
    UniqueArrays(calls, ShowPath)
  }

  /**
   * Every call record the walk of `n` pushes: one per call expression
   * anywhere in `n`, nested functions and classes included, in post-order.
   */
  function WalkCalls(n: Node): seq<CallRecord>
    decreases Size(n), 1
  {
    ChildrenSize(n);
    WalkCallsSeq(Children(n)) + (if n.CallExpression? then [CallChain(n)] else [])
  }

  function WalkCallsSeq(ns: seq<Node>): seq<CallRecord>
    decreases SizeOf(ns), 2
  {
    if |ns| == 0 then []
    else
      assert SizeOf(ns) == Size(ns[0]) + SizeOf(ns[1..]);
      WalkCalls(ns[0]) + WalkCallsSeq(ns[1..])
  }

  /**
   * The names of the named functions and classes anywhere in `n`, `n` itself
   * and nested bodies included: the declarations the walk of `n` hands on.
   */
  function DeclNames(n: Node): set<string>
    decreases Size(n), 1
  {
    ChildrenSize(n);
    DeclNamesSeq(Children(n)) + (if n.IsFunctionOrClass() && n.id.Some? then {n.id.value} else {})
  }

  function DeclNamesSeq(ns: seq<Node>): set<string>
    decreases SizeOf(ns), 2
  {
    if |ns| == 0 then {}
    else
      assert SizeOf(ns) == Size(ns[0]) + SizeOf(ns[1..]);
      DeclNames(ns[0]) + DeclNamesSeq(ns[1..])
  }

  // ---------------------------------------------------------------- records

  /** `d` is the record `handleFunctionDeclaration` leaves for `n` under `name`. */
  predicate DescribesFunction(d: Descriptor, env: Env, n: Node, name: string)
    requires n.FunctionNode?
  {
    && d.Declaration?
    && d.name == name
    && d.path == env.path
    && d.js == ReadCode(env.content, n.span)
    && d.jsdoc == ExtractJsDoc(env.comments, n.span)
    && d.calls == DedupCalls(WalkCalls(n.body))
    && (forall k :: k in DeclNames(n.body) ==> k in Keys(d.methods))
  }

  /** Class element `e` may store under `k`: a method definition with that key, or a nested class. */
  predicate WritesKey(e: Node, k: string)
  {
    (e.MethodDefinition? && e.key == k) || e.ClassNode?
  }

  /** `elems[i]` is a method definition whose key no later element may store under. */
  predicate LastMethodAt(elems: seq<Node>, i: int)
    requires 0 <= i < |elems|
  {
    elems[i].MethodDefinition? && forall j :: i < j < |elems| ==> !WritesKey(elems[j], elems[i].key)
  }

  /** No element of `elems` may store under `k`. */
  predicate Untouched(elems: seq<Node>, k: string)
  {
    forall j :: 0 <= j < |elems| ==> !WritesKey(elems[j], k)
  }

  /** Under the key of each last method definition of `elems`, `m` holds that definition's record. */
  predicate StoresLastMethods(env: Env, elems: seq<Node>, m: Members)
  {
    forall i :: 0 <= i < |elems| && LastMethodAt(elems, i) ==>
      Get(m, elems[i].key).Some? && IsMethodRecordOf(Get(m, elems[i].key).value, env, elems[i])
  }

  /** `m'` agrees with `m` under every key no element of `elems` may store under. */
  ghost predicate KeepsUntouched(elems: seq<Node>, m: Members, m': Members)
  {
    forall k :: Untouched(elems, k) ==> Get(m', k) == Get(m, k)
  }

  /** `d` is the method record the class loop builds for method definition `e`. */
  predicate IsMethodRecordOf(d: Descriptor, env: Env, e: Node)
    requires e.MethodDefinition?
  {
    && d.MethodRecord?
    && d.name == e.key
    && d.path == env.path
    && d.js == ReadCode(env.content, e.span)
    && d.jsdoc == ExtractJsDoc(env.comments, e.span)
    && d.calls == []
  }

  /** `d` is the record `handleClassDeclaration` leaves for `n` under `name`. */
  predicate DescribesClass(d: Descriptor, env: Env, n: Node, name: string)
    requires n.ClassNode?
  {
    && d.Declaration?
    && d.name == name
    && d.path == env.path
    && d.js == ReadCode(env.content, n.span)
    && d.jsdoc == ExtractJsDoc(env.comments, n.span)
    && d.calls == []
    && (forall i :: 0 <= i < |n.elements| && n.elements[i].MethodDefinition? ==> n.elements[i].key in Keys(d.methods))
    // the last definition of a key is the one stored
    && StoresLastMethods(env, n.elements, d.methods)
    // and nothing is stored under a key no element may store under
    && (forall k :: Untouched(n.elements, k) ==> k !in Keys(d.methods))
  }

  /** Every key of `m` is still a key of `m'`. */
  predicate KeepsKeys(m: Members, m': Members)
  {
    forall k :: k in Keys(m) ==> k in Keys(m')
  }

  lemma SetKeepsKeys(m: Members, m': Members, k: string)
    requires Get(m', k).Some?
    requires forall k' :: k' != k ==> Get(m', k') == Get(m, k')
    ensures KeepsKeys(m, m') && k in Keys(m')
  {
    forall k' | k' in Keys(m) ensures k' in Keys(m') {
      if k' != k { assert Get(m', k') == Get(m, k'); }
    }
  }

  lemma PutKeepsKeys(m: Members, k: string, d: Descriptor)
    ensures KeepsKeys(m, Put(m, k, d)) && k in Keys(Put(m, k, d))
  {
    var r := Put(m, k, d);
    forall k' | k' in Keys(m) ensures k' in Keys(r) {
      if k' != k { assert Get(r, k') == Get(m, k'); }
    }
  }

  // ---------------------------------------------------------------- sinks

  function FunctionsOf(s: Sink): Members
  {
    match s
    case TopLevel(f, _) => f
    case Into(m) => m
  }

  function ClassesOf(s: Sink): Members
  {
    match s
    case TopLevel(_, c) => c
    case Into(m) => m
  }

  function WithFunctions(s: Sink, m: Members): (r: Sink)
    ensures r.TopLevel? == s.TopLevel? && FunctionsOf(r) == m
    ensures s.TopLevel? ==> r.classes == s.classes
  {
    match s
    case TopLevel(_, c) => TopLevel(m, c)
    case Into(_) => Into(m)
  }

  function WithClasses(s: Sink, m: Members): (r: Sink)
    ensures r.TopLevel? == s.TopLevel? && ClassesOf(r) == m
    ensures s.TopLevel? ==> r.functions == s.functions
  {
    match s
    case TopLevel(f, _) => TopLevel(f, m)
    case Into(_) => Into(m)
  }

  /** The node kinds `parseAST` hands to `extractExport`. */
  predicate IsExportCandidate(n: Node)
  {
    n.ExportNamedDeclaration? || n.ExportDefaultDeclaration? || n.ExpressionStatement?
  }

  // ---------------------------------------------------------------- handlers

  /**
   * `handleFunctionDeclaration(n, parent)`: stores under the function's name
   * the record of `n`, whose nested declarations and calls come from the walk
   * of its body. No other entry of `parent` changes, and an anonymous function
   * uses up one counter value.
   */
  function HandleFunction(env: Env, n: Node, parent: Members, ctx: Ctx): (r: (Members, Ctx))
    requires n.FunctionNode?
    ensures r.1.counter == ctx.counter + FunctionUses(n) && Grows(ctx, r.1)
    ensures Get(r.0, FunctionName(n, ctx.counter)).Some?
    ensures DescribesFunction(Get(r.0, FunctionName(n, ctx.counter)).value, env, n, FunctionName(n, ctx.counter))
    ensures forall k :: k != FunctionName(n, ctx.counter) ==> Get(r.0, k) == Get(parent, k)
    decreases Size(n), 1
  {
    var name := FunctionName(n, ctx.counter);
    var w := SimpleWalk(env, n.body, WalkState([], [], ctx.(counter := Advance(n.id, ctx.counter))));
    assert w.calls == WalkCalls(n.body) by { assert [] + WalkCalls(n.body) == WalkCalls(n.body); }
    var d := Declaration(name, env.path, ReadCode(env.content, n.span), ExtractJsDoc(env.comments, n.span),
                         w.methods, DedupCalls(w.calls));
    assert DescribesFunction(d, env, n, name);
    var r := Put(parent, name, d);
    assert Get(r, name) == Some(d);
    (r, w.ctx)
  }

  /**
   * `handleClassDeclaration(n, parent)`: stores under the class's name a
   * record with no calls and one method entry per method definition; a class
   * element that is itself a class is scanned into the same table.
   */
  function HandleClass(env: Env, n: Node, parent: Members, ctx: Ctx): (r: (Members, Ctx))
    requires n.ClassNode?
    ensures r.1.counter == ctx.counter + ClassUses(n) && Grows(ctx, r.1)
    ensures Get(r.0, ClassName(n, ctx.counter)).Some?
    ensures DescribesClass(Get(r.0, ClassName(n, ctx.counter)).value, env, n, ClassName(n, ctx.counter))
    ensures forall k :: k != ClassName(n, ctx.counter) ==> Get(r.0, k) == Get(parent, k)
    decreases Size(n), 1
  {
    var name := ClassName(n, ctx.counter);
    var (methods, c) := ClassElements(env, n.elements, [], ctx.(counter := Advance(n.id, ctx.counter)));
    var d := Declaration(name, env.path, ReadCode(env.content, n.span), ExtractJsDoc(env.comments, n.span), methods, []);
    (Put(parent, name, d), c)
  }

  /**
   * The loop over a class body: a method definition stores a method record
   * whose attached declarations come from scanning the method's body; a
   * nested class is handled into the same table; other elements are skipped.
   */
  function ClassElements(env: Env, elems: seq<Node>, methods: Members, ctx: Ctx): (r: (Members, Ctx))
    ensures r.1.counter == ctx.counter + ElementsUses(elems) && Grows(ctx, r.1)
    ensures KeepsKeys(methods, r.0)
    ensures forall i :: 0 <= i < |elems| && elems[i].MethodDefinition? ==> elems[i].key in Keys(r.0)
    ensures StoresLastMethods(env, elems, r.0)
    ensures KeepsUntouched(elems, methods, r.0)
    decreases SizeOf(elems), 3
  {
    if |elems| == 0 then (methods, ctx)
    else
      assert SizeOf(elems) == Size(elems[0]) + SizeOf(elems[1..]);
      var step := ClassElement(env, elems[0], methods, ctx);
      var r := ClassElements(env, elems[1..], step.0, step.1);
      ClassLoopStep(env, elems, methods, step.0, r.0);
      r
  }

  /** The class loop's facts about `elems` from those about its head and its tail. */
  lemma ClassLoopStep(env: Env, elems: seq<Node>, methods: Members, m1: Members, m: Members)
    requires |elems| > 0
    requires elems[0].MethodDefinition? ==> Get(m1, elems[0].key).Some? && IsMethodRecordOf(Get(m1, elems[0].key).value, env, elems[0])
    requires forall k :: !WritesKey(elems[0], k) ==> Get(m1, k) == Get(methods, k)
    requires KeepsKeys(m1, m)
    requires StoresLastMethods(env, elems[1..], m) && KeepsUntouched(elems[1..], m1, m)
    requires forall i :: 0 <= i < |elems[1..]| && elems[1..][i].MethodDefinition? ==> elems[1..][i].key in Keys(m)
    ensures forall i :: 0 <= i < |elems| && elems[i].MethodDefinition? ==> elems[i].key in Keys(m)
    ensures StoresLastMethods(env, elems, m) && KeepsUntouched(elems, methods, m)
  {
    assert forall j :: 0 <= j < |elems| - 1 ==> elems[1..][j] == elems[j + 1];
    forall k | Untouched(elems, k) ensures Get(m, k) == Get(methods, k) {
      assert !WritesKey(elems[0], k);
      assert Untouched(elems[1..], k);
    }
    forall i | 0 <= i < |elems| && LastMethodAt(elems, i)
      ensures Get(m, elems[i].key).Some? && IsMethodRecordOf(Get(m, elems[i].key).value, env, elems[i])
    {
      if i > 0 {
        assert elems[i] == elems[1..][i - 1];
        assert LastMethodAt(elems[1..], i - 1);
      } else {
        assert Untouched(elems[1..], elems[0].key);
      }
    }
    forall i | 0 <= i < |elems| && elems[i].MethodDefinition? ensures elems[i].key in Keys(m) {
      if i > 0 { assert elems[i] == elems[1..][i - 1]; }
    }
  }

  /** One element of a class body. */
  function ClassElement(env: Env, e: Node, methods: Members, ctx: Ctx): (r: (Members, Ctx))
    ensures r.1.counter == ctx.counter + ElementUses(e) && Grows(ctx, r.1)
    ensures KeepsKeys(methods, r.0)
    ensures e.MethodDefinition? ==> e.key in Keys(r.0)
    ensures e.MethodDefinition? ==> Get(r.0, e.key).Some? && IsMethodRecordOf(Get(r.0, e.key).value, env, e)
    ensures forall k :: !WritesKey(e, k) ==> Get(r.0, k) == Get(methods, k)
    decreases Size(e), 2
  {
    if e.MethodDefinition? then
      var (attached, c) :=
        if e.value.FunctionNode? then
          assert SizeOf([e.value.body]) == Size(e.value.body) by { assert [e.value.body][1..] == []; }
          assert Size(e) == 2 + SizeOf(e.value.params) + Size(e.value.body);
          var (s, c) := ParseQueue(env, [e.value.body], Into([]), ctx);
          (s.members, c)
        else ([], ctx);
      var record := MethodRecord(e.key, env.path, ReadCode(env.content, e.span), ExtractJsDoc(env.comments, e.span), [], attached);
      PutKeepsKeys(methods, e.key, record);
      (Put(methods, e.key, record), c)
    else if e.ClassNode? then
      var r := HandleClass(env, e, methods, ctx);
      assert KeepsKeys(methods, r.0) by {
        forall k | k in Keys(methods) ensures k in Keys(r.0) {
          if k != ClassName(e, ctx.counter) { assert Get(r.0, k) == Get(methods, k); }
        }
      }
      r
    else (methods, ctx)
  }

  // ---------------------------------------------------------------- worklist

  /** One step of `parseAST` on node `n`: hand a function or class to its handler, or record exports. */
  function Visit(env: Env, n: Node, sink: Sink, ctx: Ctx): (r: (Sink, Ctx))
    ensures r.0.TopLevel? == sink.TopLevel?
    ensures r.1.counter == ctx.counter + VisitUses(n) && Grows(ctx, r.1)
    ensures !n.IsFunctionOrClass() ==> r.0 == sink && r.1 == ctx.(exports := ExtractExport(n, ctx.exports))
    decreases Size(n), 2
  {
    match n
    case FunctionNode(_, _, _, _, _) =>
      var (m, c) := HandleFunction(env, n, FunctionsOf(sink), ctx);
      (WithFunctions(sink, m), c)
    case ClassNode(_, _, _, _, _) =>
      var (m, c) := HandleClass(env, n, ClassesOf(sink), ctx);
      (WithClasses(sink, m), c)
    case _ =>
      (sink, if IsExportCandidate(n) then ctx.(exports := ExtractExport(n, ctx.exports)) else ctx)
  }

  /** The queue after dequeuing its head: the head's children go to the back unless it was handled. */
  function Next(q: seq<Node>): (r: seq<Node>)
    requires |q| > 0
    ensures SizeOf(r) < SizeOf(q)
  {
    var kids := Enqueued(q[0]);
    ChildrenSize(q[0]);
    SizeOfAppend(q[1..], kids);
    q[1..] + kids
  }

  /** `parseAST`: the breadth-first worklist loop. */
  function ParseQueue(env: Env, q: seq<Node>, sink: Sink, ctx: Ctx): (r: (Sink, Ctx))
    ensures r.0.TopLevel? == sink.TopLevel?
    ensures r.1.counter == ctx.counter + ScanUses(q) && Grows(ctx, r.1)
    decreases SizeOf(q), 3
  {
    if |q| == 0 then (sink, ctx)
    else
      assert SizeOf(q) == Size(q[0]) + SizeOf(q[1..]);
      var (s, c) := Visit(env, q[0], sink, ctx);
      ParseQueue(env, Next(q), s, c)
  }

  // ---------------------------------------------------------------- body walk

  /**
   * The walk of a function body (`walk.simple` with the default walker):
   * post-order over every node, nested functions and classes included, with
   * the handlers putting nested declarations into the function's `methods`
   * and every call expression pushing its chain.
   */
  function SimpleWalk(env: Env, n: Node, st: WalkState): (r: WalkState)
    ensures r.calls == st.calls + WalkCalls(n)
    ensures r.ctx.counter == st.ctx.counter + WalkUses(n) && Grows(st.ctx, r.ctx)
    ensures KeepsKeys(st.methods, r.methods)
    ensures forall k :: k in DeclNames(n) ==> k in Keys(r.methods)
    decreases Size(n), 3
  {
    ChildrenSize(n);
    var s := SimpleWalkSeq(env, Children(n), st);
    // the call record `n` pushes itself, if it is a call
    var own := if n.CallExpression? then [CallChain(n)] else [];
    var calls := s.calls + own;
    WalkCallsUnfold(n);
    CallsAppendAssoc(st.calls, WalkCallsSeq(Children(n)), own, s.calls, calls);
    DeclNamesUnfold(n);
    WalkHandle(env, n, s.(calls := calls))
  }

  /** The walk's visit of `n` itself: a function or class goes to its handler, into the walk's `methods`. */
  function WalkHandle(env: Env, n: Node, s: WalkState): (r: WalkState)
    ensures r.calls == s.calls
    ensures r.ctx.counter == s.ctx.counter + VisitUses(n) && Grows(s.ctx, r.ctx)
    ensures KeepsKeys(s.methods, r.methods)
    ensures n.IsFunctionOrClass() && n.id.Some? ==> n.id.value in Keys(r.methods)
    decreases Size(n), 2
  {
    match n
    case FunctionNode(_, _, _, _, _) =>
      var (m, c) := HandleFunction(env, n, s.methods, s.ctx);
      SetKeepsKeys(s.methods, m, FunctionName(n, s.ctx.counter));
      WalkState(m, s.calls, c)
    case ClassNode(_, _, _, _, _) =>
      var (m, c) := HandleClass(env, n, s.methods, s.ctx);
      SetKeepsKeys(s.methods, m, ClassName(n, s.ctx.counter));
      WalkState(m, s.calls, c)
    case _ => s
  }

  lemma DeclNamesUnfold(n: Node)
    ensures DeclNames(n) == DeclNamesSeq(Children(n)) + (if n.IsFunctionOrClass() && n.id.Some? then {n.id.value} else {})
  {
  }

  lemma WalkCallsUnfold(n: Node)
    ensures WalkCalls(n) == WalkCallsSeq(Children(n)) + (if n.CallExpression? then [CallChain(n)] else [])
  {
  }

  function SimpleWalkSeq(env: Env, ns: seq<Node>, st: WalkState): (r: WalkState)
    ensures r.calls == st.calls + WalkCallsSeq(ns)
    ensures r.ctx.counter == st.ctx.counter + WalkUsesSeq(ns) && Grows(st.ctx, r.ctx)
    ensures KeepsKeys(st.methods, r.methods)
    ensures forall k :: k in DeclNamesSeq(ns) ==> k in Keys(r.methods)
    decreases SizeOf(ns), 4
  {
    if |ns| == 0 then st
    else
      assert SizeOf(ns) == Size(ns[0]) + SizeOf(ns[1..]);
      var w := SimpleWalk(env, ns[0], st);
      var r := SimpleWalkSeq(env, ns[1..], w);
      WalkCallsSeqCons(ns);
      CallsAppendAssoc(st.calls, WalkCalls(ns[0]), WalkCallsSeq(ns[1..]), w.calls, r.calls);
      assert DeclNamesSeq(ns) == DeclNames(ns[0]) + DeclNamesSeq(ns[1..]);
      r
  }

  lemma WalkCallsSeqCons(ns: seq<Node>)
    requires |ns| > 0
    ensures WalkCallsSeq(ns) == WalkCalls(ns[0]) + WalkCallsSeq(ns[1..])
  {
  }

  lemma CallsAppendAssoc(a: seq<CallRecord>, b: seq<CallRecord>, c: seq<CallRecord>, x: seq<CallRecord>, y: seq<CallRecord>)
    requires x == a + b && y == x + c
    ensures y == a + (b + c)
  {
  }

  // ---------------------------------------------------------------- the scan

  /** `() => { stmts }`. */
  function Arrow(stmts: seq<Node>, sp: Span): Node
  {
    FunctionNode(ArrowFunctionExpression, None, [], Other("BlockStatement", stmts), sp)
  }

  /** `function f() { () => { () => {} } }`, its outer arrow and its inner arrow. */
  function NestedArrows(sp: Span): Node
  {
    FunctionNode(FunctionDeclaration, Some("f"), [], Other("BlockStatement", [ExpressionStatement(Outer(sp))]), sp)
  }

  function Outer(sp: Span): Node
  {
    Arrow([ExpressionStatement(Inner(sp))], sp)
  }

  function Inner(sp: Span): Node
  {
    Arrow([], sp)
  }

  /**
   * `function f() { () => { () => {} } }`: two anonymous arrows, three
   * counter values. The walk of `f`'s body meets the inner arrow and then
   * the outer one; the outer arrow's handler walks its body and meets the
   * inner arrow again.
   */
  lemma NestedArrowsExample(env: Env, sp: Span)
    ensures HandleFunction(env, NestedArrows(sp), [], Ctx(0, map[])).1.counter == 3
  {
    NestedArrowsUses(sp);
  }

  lemma NestedArrowsUses(sp: Span)
    ensures FunctionUses(Inner(sp)) == 1 && FunctionUses(Outer(sp)) == 2 && FunctionUses(NestedArrows(sp)) == 3
  {
    var inner := Inner(sp);
    var outer := Outer(sp);
    var f := NestedArrows(sp);
    EmptyUses(inner.body);
    WalkOfFunction(inner);
    PassUses(outer.body);
    PassUses(ExpressionStatement(inner));
    WalkOfFunction(outer);
    PassUses(f.body);
    PassUses(ExpressionStatement(outer));
  }

  /** A node the walk passes through to its one child, with nothing of its own to handle or record. */
  predicate PassesThrough(n: Node)
  {
    |Children(n)| == 1 && !n.CallExpression? && !n.IsFunctionOrClass()
  }

  lemma PassUses(n: Node)
    requires PassesThrough(n)
    ensures WalkUses(n) == WalkUses(Children(n)[0])
  {
    assert Children(n) == [Children(n)[0]];
    WalkUsesSingle(Children(n)[0]);
  }

  lemma EmptyUses(n: Node)
    requires Children(n) == [] && !n.IsFunctionOrClass()
    ensures WalkUses(n) == 0
  {
  }

  lemma WalkOfFunction(n: Node)
    requires n.FunctionNode? && n.params == []
    ensures WalkUses(n) == WalkUses(n.body) + FunctionUses(n)
  {
    assert Children(n) == [n.body];
    WalkUsesSingle(n.body);
  }

  lemma WalkUsesSingle(n: Node)
    ensures WalkUsesSeq([n]) == WalkUses(n)
  {
    assert [n][1..] == [];
  }

  /**
   * The names in the same example: `f`'s method table holds the inner arrow
   * as `anonymous_function_0` and the outer one as `anonymous_function_1`,
   * and the outer arrow's own table holds the inner arrow again, as
   * `anonymous_function_2`.
   */
  lemma NestedArrowsNames(env: Env, sp: Span)
    ensures var fm := TableAt(HandleFunction(env, NestedArrows(sp), [], Ctx(0, map[])).0, "f");
            && Keys(fm) == [AnonymousFunctionName(0), AnonymousFunctionName(1)]
            && Keys(TableAt(fm, AnonymousFunctionName(1))) == [AnonymousFunctionName(2)]
  {
    var st0 := WalkState([], [], Ctx(0, map[]));
    HandleFunctionTable(env, NestedArrows(sp), [], Ctx(0, map[]));
    FunctionBodyWalk(env, sp, st0);
    InnerHandled(env, sp, st0);
    var s1 := WalkHandle(env, Inner(sp), st0);
    OuterAdded(env, sp, s1, 0);
    OuterTable(env, sp, s1);
  }

  /** The method table of the declaration stored under `k`, if there is one. */
  function TableAt(m: Members, k: string): Members
  {
    var d := Get(m, k);
    if d.Some? && d.value.Declaration? then d.value.methods else []
  }

  /** The shape of the example, as the walk lemmas need it. */
  lemma NestedArrowsShape(sp: Span)
    ensures var b := NestedArrows(sp).body; var e := ExpressionStatement(Outer(sp));
            PassesThrough(b) && Children(b)[0] == e && PassesThrough(e) && Children(e)[0] == Outer(sp)
    ensures var b := Outer(sp).body; var e := ExpressionStatement(Inner(sp));
            PassesThrough(b) && Children(b)[0] == e && PassesThrough(e) && Children(e)[0] == Inner(sp)
    ensures Outer(sp).FunctionNode? && Outer(sp).params == [] && Outer(sp).id.None?
    ensures Inner(sp).FunctionNode? && Inner(sp).params == [] && Inner(sp).id.None?
    ensures var b := Inner(sp).body; Children(b) == [] && !b.CallExpression? && !b.IsFunctionOrClass()
  {
  }

  /** The walk of `f`'s body handles the inner arrow, then the outer one. */
  lemma FunctionBodyWalk(env: Env, sp: Span, st: WalkState)
    ensures SimpleWalk(env, NestedArrows(sp).body, st) == WalkHandle(env, Outer(sp), WalkHandle(env, Inner(sp), st))
  {
    NestedArrowsShape(sp);
    WalkOfWrapped(env, NestedArrows(sp).body, ExpressionStatement(Outer(sp)), Outer(sp), st);
    OuterBodyWalk(env, sp, st);
  }

  /** The walk of the outer arrow's body is the handling of the inner arrow. */
  lemma OuterBodyWalk(env: Env, sp: Span, st: WalkState)
    ensures SimpleWalk(env, Outer(sp).body, st) == WalkHandle(env, Inner(sp), st)
  {
    NestedArrowsShape(sp);
    WalkOfWrapped(env, Outer(sp).body, ExpressionStatement(Inner(sp)), Inner(sp), st);
    WalkOfEmpty(env, Inner(sp).body, st);
  }

  /** Handling the inner arrow in an empty table stores it alone, under the counter's name. */
  lemma InnerHandled(env: Env, sp: Span, st: WalkState)
    requires st.methods == []
    ensures Keys(WalkHandle(env, Inner(sp), st).methods) == [AnonymousFunctionName(st.ctx.counter)]
    ensures WalkHandle(env, Inner(sp), st).ctx.counter == st.ctx.counter + 1
  {
    InnerCounter(env, sp, st);
    NestedArrowsShape(sp);
    AnonymousAdded(env, Inner(sp), st);
  }

  lemma InnerCounter(env: Env, sp: Span, st: WalkState)
    ensures WalkHandle(env, Inner(sp), st).ctx.counter == st.ctx.counter + 1
  {
    NestedArrowsUses(sp);
  }

  /** Handling the outer arrow after the inner one adds it under the next name. */
  lemma OuterAdded(env: Env, sp: Span, s1: WalkState, c: nat)
    requires Keys(s1.methods) == [AnonymousFunctionName(c)] && s1.ctx.counter == c + 1
    ensures Keys(WalkHandle(env, Outer(sp), s1).methods) == [AnonymousFunctionName(c), AnonymousFunctionName(c + 1)]
  {
    NestedArrowsShape(sp);
    AnonymousNamesDistinct(c, c + 1);
    AnonymousAdded(env, Outer(sp), s1);
  }

  /** The outer arrow's own table holds the inner arrow, under the name after the outer's. */
  lemma OuterTable(env: Env, sp: Span, s1: WalkState)
    ensures Keys(TableAt(WalkHandle(env, Outer(sp), s1).methods, AnonymousFunctionName(s1.ctx.counter)))
            == [AnonymousFunctionName(s1.ctx.counter + 1)]
  {
    NestedArrowsShape(sp);
    AnonymousTable(env, Outer(sp), s1);
    OuterBodyTable(env, sp, WalkState([], [], s1.ctx.(counter := s1.ctx.counter + 1)));
  }

  /** The walk of the outer arrow's body from an empty table stores the inner arrow alone. */
  lemma OuterBodyTable(env: Env, sp: Span, st: WalkState)
    requires st.methods == []
    ensures Keys(SimpleWalk(env, Outer(sp).body, st).methods) == [AnonymousFunctionName(st.ctx.counter)]
  {
    OuterBodyWalk(env, sp, st);
    InnerHandled(env, sp, st);
  }

  /** A node with one child that is neither a call nor a declaration walks as its child. */
  lemma WalkThrough(env: Env, n: Node, st: WalkState)
    requires PassesThrough(n)
    ensures SimpleWalk(env, n, st) == SimpleWalk(env, Children(n)[0], st)
  {
    var w := SimpleWalk(env, Children(n)[0], st);
    assert SimpleWalkSeq(env, Children(n), st) == SimpleWalkSeq(env, [], w);
    assert w.calls + [] == w.calls;
  }

  lemma WalkOfEmpty(env: Env, n: Node, st: WalkState)
    requires Children(n) == [] && !n.CallExpression? && !n.IsFunctionOrClass()
    ensures SimpleWalk(env, n, st) == st
  {
    assert st.calls + [] == st.calls;
  }

  /** A function without parameters walks its body and is then handled. */
  lemma WalkOfArrow(env: Env, n: Node, st: WalkState)
    requires n.FunctionNode? && n.params == []
    ensures SimpleWalk(env, n, st) == WalkHandle(env, n, SimpleWalk(env, n.body, st))
  {
    var w := SimpleWalk(env, n.body, st);
    assert Children(n) == [n.body];
    assert SimpleWalkSeq(env, Children(n), st) == SimpleWalkSeq(env, [], w);
    assert w.calls + [] == w.calls;
  }

  /** A block holding one statement holding a function without parameters: the function's walk. */
  lemma WalkOfWrapped(env: Env, b: Node, e: Node, g: Node, st: WalkState)
    requires PassesThrough(b) && Children(b)[0] == e && PassesThrough(e) && Children(e)[0] == g
    requires g.FunctionNode? && g.params == []
    ensures SimpleWalk(env, b, st) == WalkHandle(env, g, SimpleWalk(env, g.body, st))
  {
    WalkThrough(env, b, st);
    WalkThrough(env, e, st);
    WalkOfArrow(env, g, st);
  }

  /** The walk meeting an anonymous function appends it under the counter's name, when that name is new. */
  lemma AnonymousAdded(env: Env, n: Node, s: WalkState)
    requires n.FunctionNode? && n.id.None? && AnonymousFunctionName(s.ctx.counter) !in Keys(s.methods)
    ensures Keys(WalkHandle(env, n, s).methods) == Keys(s.methods) + [AnonymousFunctionName(s.ctx.counter)]
  {
    HandleFunctionPut(env, n, s.methods, s.ctx);
  }

  /** The walk meeting an anonymous function stores the table its body's walk builds from the next counter value. */
  lemma AnonymousTable(env: Env, n: Node, s: WalkState)
    requires n.FunctionNode? && n.id.None?
    ensures TableAt(WalkHandle(env, n, s).methods, AnonymousFunctionName(s.ctx.counter))
            == SimpleWalk(env, n.body, WalkState([], [], s.ctx.(counter := s.ctx.counter + 1))).methods
  {
    HandleFunctionTable(env, n, s.methods, s.ctx);
  }

  /** The table a function's record gets is the one the walk of its body builds. */
  lemma HandleFunctionTable(env: Env, n: Node, parent: Members, ctx: Ctx)
    requires n.FunctionNode?
    ensures TableAt(HandleFunction(env, n, parent, ctx).0, FunctionName(n, ctx.counter))
            == SimpleWalk(env, n.body, WalkState([], [], ctx.(counter := Advance(n.id, ctx.counter)))).methods
  {
  }

  /** Handling a function assigns one property of the parent. */
  lemma HandleFunctionPut(env: Env, n: Node, parent: Members, ctx: Ctx)
    requires n.FunctionNode?
    ensures var r := HandleFunction(env, n, parent, ctx).0;
            r == Put(parent, FunctionName(n, ctx.counter), Get(r, FunctionName(n, ctx.counter)).value)
  {
  }

  /** The top-level scan of `program` from a fresh state. */
  function TopScan(env: Env, program: Node): (r: (Sink, Ctx))
    ensures r.0.TopLevel?
    ensures r.1.counter == ScanUses([program])
  {
    ParseQueue(env, [program], TopLevel([], []), Ctx(0, map[]))
  }

  /**
   * Scanning a whole program: every function and class the top-level scan
   * reaches is stored, a named one under its name and an anonymous one under
   * the name the counter gives it at its visit, and every export the reached
   * export statements write is in the export table.
   */
  function RunExtraction(env: Env, program: Node): (r: Scope)
    ensures r.source == env.path
    ensures forall n :: n in Reach(program) && n.IsFunctionOrClass() && n.id.Some? ==>
              n.id.value in Keys(if n.FunctionNode? then r.functions else r.classes)
    ensures AllStored(Dequeued([program]), 0, r.functions, r.classes)
    ensures forall n :: n in Reach(program) ==> n in Dequeued([program])
    ensures forall n :: n in Reach(program) && IsExportCandidate(n) ==> WrittenKeys(Writes(n)) <= r.exported.Keys
  {
    var (sink, ctx) := TopScan(env, program);
    ScanFinds(env, program);
    ScanStores(env, program);
    Scope(env.path, sink.functions, sink.classes, ctx.exports)
  }

  // ---------------------------------------------------------------- properties

  /**
   * `u` deduplicates `calls`: no two records of `u` share a key, and every
   * record of `calls` has a record of `u` with its key.
   */
  ghost predicate DedupedFrom(u: seq<CallRecord>, calls: seq<CallRecord>)
  {
    && (forall a, b :: 0 <= a < b < |u| ==> ArrayKey(u[a], ShowPath) != ArrayKey(u[b], ShowPath))
    && (forall i :: 0 <= i < |calls| ==> exists a :: 0 <= a < |u| && ArrayKey(u[a], ShowPath) == ArrayKey(calls[i], ShowPath))
  }

  /** The calls recorded for a function deduplicate the calls of its body. */
  lemma FunctionCallsDeduplicated(env: Env, n: Node, parent: Members, ctx: Ctx)
    requires n.FunctionNode?
    ensures DedupedFrom(Get(HandleFunction(env, n, parent, ctx).0, FunctionName(n, ctx.counter)).value.calls, WalkCalls(n.body))
  {
    var d := Get(HandleFunction(env, n, parent, ctx).0, FunctionName(n, ctx.counter)).value;
    assert DescribesFunction(d, env, n, FunctionName(n, ctx.counter));
    DedupCallsDistinctAndCovering(WalkCalls(n.body), d.calls);
  }

  lemma DedupCallsDistinctAndCovering(calls: seq<CallRecord>, u: seq<CallRecord>)
    requires u == DedupCalls(calls)
    ensures DedupedFrom(u, calls)
  {
    forall i | 0 <= i < |calls|
      ensures exists a :: 0 <= a < |u| && ArrayKey(u[a], ShowPath) == ArrayKey(calls[i], ShowPath)
    {
      UniqueArraysCovers(calls, ShowPath, i);
    }
  }

  /** The nodes `parseAST` dequeues, in order. */
  function Dequeued(q: seq<Node>): seq<Node>
    decreases SizeOf(q)
  {
    if |q| == 0 then [] else [q[0]] + Dequeued(Next(q))
  }

  /** Visiting the nodes of `ns` one after another. */
  function VisitAll(env: Env, ns: seq<Node>, sink: Sink, ctx: Ctx): (r: (Sink, Ctx))
    ensures Grows(ctx, r.1)
  {
    if |ns| == 0 then (sink, ctx)
    else
      var (s, c) := Visit(env, ns[0], sink, ctx);
      VisitAll(env, ns[1..], s, c)
  }

  lemma VisitAllAppend(env: Env, a: seq<Node>, b: seq<Node>, sink: Sink, ctx: Ctx)
    ensures VisitAll(env, a + b, sink, ctx) == var (s, c) := VisitAll(env, a, sink, ctx); VisitAll(env, b, s, c)
  {
    if |a| > 0 {
      assert (a + b)[1..] == a[1..] + b;
      var (s, c) := Visit(env, a[0], sink, ctx);
      VisitAllAppend(env, a[1..], b, s, c);
    } else {
      assert a + b == b;
    }
  }

  /** The worklist loop is the visit of the dequeued nodes, one after another. */
  lemma {:induction false} ParseQueueVisitsDequeued(env: Env, q: seq<Node>, sink: Sink, ctx: Ctx)
    ensures ParseQueue(env, q, sink, ctx) == VisitAll(env, Dequeued(q), sink, ctx)
    decreases SizeOf(q)
  {
    if |q| > 0 {
      var (s, c) := Visit(env, q[0], sink, ctx);
      ParseQueueVisitsDequeued(env, Next(q), s, c);
      assert Dequeued(q)[0] == q[0] && Dequeued(q)[1..] == Dequeued(Next(q));
    }
  }

  /**
   * The nodes the scan reaches from `n`: `n` itself and, unless `n` is a
   * function or class (which its handler takes over), everything reachable
   * from its children.
   */
  function Reach(n: Node): multiset<Node>
    decreases Size(n), 1
  {
    ChildrenSize(n);
    multiset{n} + (if n.IsFunctionOrClass() then multiset{} else ReachSeq(Children(n)))
  }

  function ReachSeq(ns: seq<Node>): multiset<Node>
    decreases SizeOf(ns), 2
  {
    if |ns| == 0 then multiset{}
    else
      assert SizeOf(ns) == Size(ns[0]) + SizeOf(ns[1..]);
      Reach(ns[0]) + ReachSeq(ns[1..])
  }

  lemma {:induction false} ReachSeqAppend(a: seq<Node>, b: seq<Node>)
    ensures ReachSeq(a + b) == ReachSeq(a) + ReachSeq(b)
    decreases |a|
  {
    if |a| == 0 {
      assert a + b == b;
    } else {
      assert (a + b)[0] == a[0] && (a + b)[1..] == a[1..] + b;
      ReachSeqAppend(a[1..], b);
    }
  }

  /**
   * The worklist dequeues every reachable node occurrence exactly once, and
   * nothing else: the breadth-first order is a permutation of the reachable
   * nodes.
   */
  lemma {:induction false} DequeuedIsReach(q: seq<Node>)
    ensures multiset(Dequeued(q)) == ReachSeq(q)
    decreases SizeOf(q)
  {
    if |q| > 0 {
      var kids := Enqueued(q[0]);
      var rest := Dequeued(Next(q));
      DequeuedIsReach(Next(q));
      assert Next(q) == q[1..] + kids;
      ReachSeqAppend(q[1..], kids);
      ReachSplit(q);
      assert Dequeued(q) == [q[0]] + rest;
      MultisetCons(q[0], rest);
    }
  }

  /** The nodes dequeuing `n` puts at the back of the queue. */
  function Enqueued(n: Node): seq<Node>
  {
    if n.IsFunctionOrClass() then [] else Children(n)
  }

  lemma ReachSplit(q: seq<Node>)
    requires |q| > 0
    ensures ReachSeq(q) == multiset{q[0]} + ReachSeq(Enqueued(q[0])) + ReachSeq(q[1..])
  {
    assert ReachSeq(q) == Reach(q[0]) + ReachSeq(q[1..]);
  }

  lemma MultisetCons(x: Node, s: seq<Node>)
    ensures multiset([x] + s) == multiset{x} + multiset(s)
  {
  }

  /** A scan keeps every key its sink already had. */
  lemma {:induction false} VisitKeepsKeys(env: Env, n: Node, sink: Sink, ctx: Ctx)
    requires sink.TopLevel?
    ensures var r := Visit(env, n, sink, ctx).0;
            KeepsKeys(sink.functions, r.functions) && KeepsKeys(sink.classes, r.classes)
    ensures n.FunctionNode? ==> FunctionName(n, ctx.counter) in Keys(Visit(env, n, sink, ctx).0.functions)
    ensures n.ClassNode? ==> ClassName(n, ctx.counter) in Keys(Visit(env, n, sink, ctx).0.classes)
  {
    var r := Visit(env, n, sink, ctx);
    if n.FunctionNode? {
      var m := HandleFunction(env, n, sink.functions, ctx).0;
      forall k | k in Keys(sink.functions) ensures k in Keys(m) {
        if k != FunctionName(n, ctx.counter) { assert Get(m, k) == Get(sink.functions, k); }
      }
    } else if n.ClassNode? {
      var m := HandleClass(env, n, sink.classes, ctx).0;
      forall k | k in Keys(sink.classes) ensures k in Keys(m) {
        if k != ClassName(n, ctx.counter) { assert Get(m, k) == Get(sink.classes, k); }
      }
    }
  }

  lemma {:induction false} VisitAllKeepsKeys(env: Env, ns: seq<Node>, sink: Sink, ctx: Ctx)
    requires sink.TopLevel?
    ensures var r := VisitAll(env, ns, sink, ctx).0;
            r.TopLevel? && KeepsKeys(sink.functions, r.functions) && KeepsKeys(sink.classes, r.classes)
    ensures forall i :: 0 <= i < |ns| && ns[i].IsFunctionOrClass() && ns[i].id.Some? ==>
              ns[i].id.value in Keys(if ns[i].FunctionNode? then VisitAll(env, ns, sink, ctx).0.functions
                                     else VisitAll(env, ns, sink, ctx).0.classes)
  {
    if |ns| > 0 {
      var (s, c) := Visit(env, ns[0], sink, ctx);
      VisitKeepsKeys(env, ns[0], sink, ctx);
      VisitAllKeepsKeys(env, ns[1..], s, c);
      assert forall i :: 1 <= i < |ns| ==> ns[i] == ns[1..][i - 1];
    }
  }

  /**
   * The counter when the visit of `ns[i]` starts, for visits of `ns` that
   * start at `c0`: each earlier visit moves it by what it hands out.
   */
  function CounterAt(ns: seq<Node>, i: nat, c0: nat): nat
    requires i <= |ns|
    decreases i
  {
    if i == 0 then c0 else CounterAt(ns[1..], i - 1, c0 + VisitUses(ns[0]))
  }

  /** An anonymous declaration visited before position `j` leaves the counter past its own value. */
  lemma {:induction false} CounterAtIncreases(ns: seq<Node>, i: nat, j: nat, c0: nat)
    requires i < j <= |ns|
    ensures CounterAt(ns, i, c0) + (if ns[i].IsFunctionOrClass() && ns[i].id.None? then 1 else 0) <= CounterAt(ns, j, c0)
    decreases i
  {
    if i == 0 {
      assert CounterAt(ns, j, c0) == CounterAt(ns[1..], j - 1, c0 + VisitUses(ns[0]));
      assert ns[0].IsFunctionOrClass() && ns[0].id.None? ==> VisitUses(ns[0]) >= 1;
      CounterAtGrows(ns[1..], j - 1, c0 + VisitUses(ns[0]));
    } else {
      CounterAtIncreases(ns[1..], i - 1, j - 1, c0 + VisitUses(ns[0]));
      assert ns[i] == ns[1..][i - 1];
    }
  }

  lemma {:induction false} CounterAtGrows(ns: seq<Node>, i: nat, c0: nat)
    requires i <= |ns|
    ensures c0 <= CounterAt(ns, i, c0)
    decreases i
  {
    if i > 0 { CounterAtGrows(ns[1..], i - 1, c0 + VisitUses(ns[0])); }
  }

  /** `n`, if it is a function or class, is stored in the table of its kind under the name counter value `c` gives it. */
  predicate StoredAt(n: Node, c: nat, functions: Members, classes: Members)
  {
    n.IsFunctionOrClass() ==> DeclarationName(n.id, c, n.ClassNode?) in Keys(if n.FunctionNode? then functions else classes)
  }

  lemma StoredKept(n: Node, k: nat, f: Members, c: Members, f': Members, c': Members)
    requires StoredAt(n, k, f, c) && KeepsKeys(f, f') && KeepsKeys(c, c')
    ensures StoredAt(n, k, f', c')
  {
  }

  lemma VisitStores(env: Env, n: Node, sink: Sink, ctx: Ctx)
    requires sink.TopLevel?
    ensures var s := Visit(env, n, sink, ctx).0;
            s.TopLevel? && StoredAt(n, ctx.counter, s.functions, s.classes)
  {
    VisitKeepsKeys(env, n, sink, ctx);
  }

  /** Every function and class among `ns` is stored under the name its position's counter value gives it. */
  ghost predicate AllStored(ns: seq<Node>, c0: nat, functions: Members, classes: Members)
  {
    forall i :: 0 <= i < |ns| ==> StoredAt(ns[i], CounterAt(ns, i, c0), functions, classes)
  }

  lemma AllStoredCons(ns: seq<Node>, c0: nat, c1: nat, f: Members, c: Members)
    requires |ns| > 0 && c1 == c0 + VisitUses(ns[0])
    requires StoredAt(ns[0], c0, f, c) && AllStored(ns[1..], c1, f, c)
    ensures AllStored(ns, c0, f, c)
  {
    forall i | 1 <= i < |ns| ensures StoredAt(ns[i], CounterAt(ns, i, c0), f, c) {
      assert ns[i] == ns[1..][i - 1];
      assert CounterAt(ns, i, c0) == CounterAt(ns[1..], i - 1, c1);
    }
  }

  /** Every function and class among `ns` is stored, anonymous ones under the name of the counter at their visit. */
  lemma {:induction false} VisitAllStores(env: Env, ns: seq<Node>, sink: Sink, ctx: Ctx)
    requires sink.TopLevel?
    ensures var r := VisitAll(env, ns, sink, ctx).0;
            r.TopLevel? && AllStored(ns, ctx.counter, r.functions, r.classes)
  {
    if |ns| > 0 {
      var (s, c) := Visit(env, ns[0], sink, ctx);
      VisitStores(env, ns[0], sink, ctx);
      VisitAllKeepsKeys(env, ns[1..], s, c);
      VisitAllStores(env, ns[1..], s, c);
      var r := VisitAll(env, ns[1..], s, c).0;
      assert VisitAll(env, ns, sink, ctx).0 == r;
      StoredKept(ns[0], ctx.counter, s.functions, s.classes, r.functions, r.classes);
      AllStoredCons(ns, ctx.counter, c.counter, r.functions, r.classes);
    }
  }

  /**
   * The top-level scan stores the `i`-th node it dequeues, if it is a
   * function or class, under the name of the counter at its visit; every
   * reached node is dequeued.
   */
  lemma ScanStores(env: Env, program: Node)
    ensures var r := TopScan(env, program).0;
            AllStored(Dequeued([program]), 0, r.functions, r.classes)
    ensures forall n :: n in Reach(program) ==> n in Dequeued([program])
  {
    var start := TopLevel([], []);
    var ctx0 := Ctx(0, map[]);
    ParseQueueVisitsDequeued(env, [program], start, ctx0);
    VisitAllStores(env, Dequeued([program]), start, ctx0);
    forall n | n in Reach(program) ensures n in Dequeued([program]) {
      ReachedIsDequeued(program, n);
    }
  }

  /** Two anonymous declarations of the same kind dequeued at different positions get different keys. */
  lemma AnonymousKeysDistinct(ns: seq<Node>, i: nat, j: nat, c0: nat)
    requires i < j < |ns| && ns[i].IsFunctionOrClass() && ns[i].id.None? && ns[j].IsFunctionOrClass() && ns[j].id.None?
    ensures DeclarationName(ns[i].id, CounterAt(ns, i, c0), ns[i].ClassNode?)
            != DeclarationName(ns[j].id, CounterAt(ns, j, c0), ns[j].ClassNode?)
  {
    CounterAtIncreases(ns, i, j, c0);
    AnonymousNamesDistinct(CounterAt(ns, i, c0), CounterAt(ns, j, c0));
    AnonymousNamesDistinct(CounterAt(ns, j, c0), CounterAt(ns, i, c0));
  }

  /** Every export an export statement among `ns` writes survives the visits. */
  lemma {:induction false} VisitAllExports(env: Env, ns: seq<Node>, sink: Sink, ctx: Ctx)
    ensures forall i :: 0 <= i < |ns| && IsExportCandidate(ns[i]) ==>
              WrittenKeys(Writes(ns[i])) <= VisitAll(env, ns, sink, ctx).1.exports.Keys
  {
    if |ns| > 0 {
      var (s, c) := Visit(env, ns[0], sink, ctx);
      VisitAllExports(env, ns[1..], s, c);
      assert forall i :: 1 <= i < |ns| ==> ns[i] == ns[1..][i - 1];
    }
  }

  /** What the top-level scan finds, node by reached node. */
  lemma ScanFinds(env: Env, program: Node)
    ensures var r := TopScan(env, program);
            && (forall n :: n in Reach(program) && n.IsFunctionOrClass() && n.id.Some? ==>
                  n.id.value in Keys(if n.FunctionNode? then r.0.functions else r.0.classes))
            && (forall n :: n in Reach(program) && IsExportCandidate(n) ==> WrittenKeys(Writes(n)) <= r.1.exports.Keys)
  {
    var start := TopLevel([], []);
    var ctx0 := Ctx(0, map[]);
    var d := Dequeued([program]);
    ParseQueueVisitsDequeued(env, [program], start, ctx0);
    VisitAllKeepsKeys(env, d, start, ctx0);
    VisitAllExports(env, d, start, ctx0);
    forall n | n in Reach(program) ensures n in d {
      ReachedIsDequeued(program, n);
    }
  }

  lemma ReachedIsDequeued(program: Node, n: Node)
    requires n in Reach(program)
    ensures n in Dequeued([program])
  {
    DequeuedIsReach([program]);
    assert ReachSeq([program]) == Reach(program) by { assert [program][1..] == []; }
    assert n in multiset(Dequeued([program]));
  }
}

=== FILE: jsdoc.dfy ===
/**
 * `extractJsDoc`: the documentation comment attached to a declaration is the
 * closest preceding block comment whose text starts with `*`, and only when
 * it ends on the line just above the declaration.
 */
module JsDocs {
  import opened Wrappers
  import opened Ast

  /** A block comment whose text starts with `*`, ending at or before offset `start`. */
  predicate Candidate(c: Comment, start: nat)
  {
    c.isBlock && |c.value| > 0 && c.value[0] == '*' && c.end <= start
  }

  /**
   * `i` is the comment a stable sort by decreasing end offset puts first among
   * the candidates: no candidate ends later, and none before it ends as late.
   */
  ghost predicate IsClosest(cs: seq<Comment>, start: nat, i: nat)
  {
    && i < |cs|
    && Candidate(cs[i], start)
    && (forall j :: 0 <= j < |cs| && Candidate(cs[j], start) ==> cs[j].end <= cs[i].end)
    && (forall j :: 0 <= j < i && Candidate(cs[j], start) ==> cs[j].end < cs[i].end)
  }

  /** The closest candidate among the first `n` comments. */
  function ClosestIn(cs: seq<Comment>, start: nat, n: nat): (r: Option<nat>)
    requires n <= |cs|
    ensures r.None? <==> forall j :: 0 <= j < n ==> !Candidate(cs[j], start)
    ensures r.Some? ==> r.value < n && Candidate(cs[r.value], start)
    ensures r.Some? ==> forall j :: 0 <= j < n && Candidate(cs[j], start) ==> cs[j].end <= cs[r.value].end
    ensures r.Some? ==> forall j :: 0 <= j < r.value && Candidate(cs[j], start) ==> cs[j].end < cs[r.value].end
  {
    if n == 0 then None
    else
      var prev := ClosestIn(cs, start, n - 1);
      if Candidate(cs[n - 1], start) && (prev.None? || cs[n - 1].end > cs[prev.value].end) then Some(n - 1)
      else prev
  }

  /** The closest candidate is unique. */
  lemma ClosestUnique(cs: seq<Comment>, start: nat, i: nat, j: nat)
    requires IsClosest(cs, start, i) && IsClosest(cs, start, j)
    ensures i == j
  {
  }

  /**
   * `extractJsDoc` for a node with span `span`: the closest candidate,
   * re-wrapped in its delimiters, when it ends on the line before the node.
   */
  function ExtractJsDoc(cs: seq<Comment>, span: Span): (r: Option<string>)
    ensures r.Some? ==> exists i: nat :: IsClosest(cs, span.start, i) && cs[i].endLine == span.line - 1
                                    && r.value == "/**" + cs[i].value + "*/"
    ensures r.None? ==> forall i: nat :: IsClosest(cs, span.start, i) ==> cs[i].endLine != span.line - 1
  {
    var c := ClosestIn(cs, span.start, |cs|);
    if c.Some? && cs[c.value].endLine == span.line - 1 then
      assert IsClosest(cs, span.start, c.value);
      Some("/**" + cs[c.value].value + "*/")
    else
      assert forall i: nat :: IsClosest(cs, span.start, i) ==> c == Some(i) by {
        forall i: nat | IsClosest(cs, span.start, i) ensures c == Some(i) {
          assert Candidate(cs[i], span.start);
          ClosestUnique(cs, span.start, i, c.value);
        }
      }
      None
  }

  /** Without a candidate comment ahead of the node there is no documentation. */
  lemma NoCandidateNoDoc(cs: seq<Comment>, span: Span)
    requires forall j :: 0 <= j < |cs| ==> !Candidate(cs[j], span.start)
    ensures ExtractJsDoc(cs, span) == None
  {
  }

  /**
   * Two doc comments above a function on line 5: the later one, ending on
   * line 4, is taken. When the later one ends on line 3 the function gets
   * none, although the earlier one ends on line 4: only the closest counts.
   */
  lemma AdjacentCommentExample()
    ensures ExtractJsDoc([Comment(true, "* a ", 0, 8, 1), Comment(true, "* b ", 20, 28, 4)], Span(30, 50, 5)) == Some("/*** b */")
    ensures ExtractJsDoc([Comment(true, "* a ", 0, 8, 4), Comment(true, "* b ", 20, 28, 3)], Span(30, 50, 5)) == None
  {
    var cs1 := [Comment(true, "* a ", 0, 8, 1), Comment(true, "* b ", 20, 28, 4)];
    assert IsClosest(cs1, 30, 1);
    assert ClosestIn(cs1, 30, 2) == Some(1);
    assert "/**" + "* b " + "*/" == "/*** b */";
    var cs2 := [Comment(true, "* a ", 0, 8, 4), Comment(true, "* b ", 20, 28, 3)];
    assert IsClosest(cs2, 30, 1);
    assert ClosestIn(cs2, 30, 2) == Some(1);
  }
}

=== FILE: lowering.dfy ===
/**
 * The lowering of a scope to the graph store: the folder chain that leads to
 * the file, one query per function, class and method record, the trimming of
 * call paths, and the transaction around all of it. The documentation and
 * source artifacts written beside the graph are here too, because their paths
 * are what the graph's locators point at.
 */
module Lowering {
  import opened Wrappers
  import opened Strings
  import opened OrderedMaps
  import opened Types
  import opened Queries
  import opened Store

  // ---------------------------------------------------------------- the file's place

  /** A directory segment as a folder name: trimmed, with every space removed. */
  function FolderName(seg: string): (r: string)
    ensures r == Without(Trim(seg), ' ')
    ensures Trim(seg) != "" ==> r != ""
    ensures forall x :: x in r ==> x in seg && x != ' '
  {
    var t := Trim(seg);
    SplitJoinEmptyDeletes(t, ' ');
    assert forall x :: x in t ==> x in seg by {
      var a := |seg| - |TrimStart(seg)|;
      forall x | x in t ensures x in seg {
        var k :| 0 <= k < |t| && t[k] == x;
        assert seg[a + k] == x;
      }
    }
    Join("", Split(t, ' '))
  }

  /** A segment that names a folder: no dot in it, and not blank. */
  predicate NamesFolder(seg: string)
  {
    '.' !in seg && Trim(seg) != ""
  }

  /** The folder names of the segments that name folders, in order. */
  function FoldersOf(segs: seq<string>): (r: seq<string>)
    ensures |r| <= |segs|
    ensures forall i :: 0 <= i < |r| ==> r[i] != "" && ' ' !in r[i] && '.' !in r[i]
  {
    if |segs| == 0 then []
    else (if NamesFolder(segs[0]) then [FolderName(segs[0])] else []) + FoldersOf(segs[1..])
  }

  /** A character no segment holds is in no folder name. */
  lemma {:induction false} FoldersOfAvoid(segs: seq<string>, c: char)
    requires forall j :: 0 <= j < |segs| ==> c !in segs[j]
    ensures forall i :: 0 <= i < |FoldersOf(segs)| ==> c !in FoldersOf(segs)[i]
    decreases |segs|
  {
    if |segs| > 0 {
      assert forall j :: 0 <= j < |segs| - 1 ==> segs[1..][j] == segs[j + 1];
      FoldersOfAvoid(segs[1..], c);
    }
  }

  /** Concatenated segment lists give concatenated folder lists. */
  lemma {:induction false} FoldersOfAppend(a: seq<string>, b: seq<string>)
    ensures FoldersOf(a + b) == FoldersOf(a) + FoldersOf(b)
    decreases |a|
  {
    if |a| == 0 {
      assert a + b == b;
    } else {
      assert (a + b)[1..] == a[1..] + b;
      FoldersOfAppend(a[1..], b);
    }
  }

  /** The folders of a source path: one per `/`-separated segment that names a folder. */
  function Folders(source: string): (r: seq<string>)
    ensures forall i :: 0 <= i < |r| ==> r[i] != "" && ' ' !in r[i] && '.' !in r[i] && '/' !in r[i]
  {
    FoldersOfAvoid(Split(source, '/'), '/');
    FoldersOf(Split(source, '/'))
  }

  function Last<T>(s: seq<T>): T
    requires |s| > 0
  {
    s[|s| - 1]
  }

  /** The last `/`-separated segment of a path. */
  function LastSegment(path: string): string
  {
    Last(Split(path, '/'))
  }

  /** The file's name: the last `/`-separated segment, up to its first dot. */
  function Filename(path: string): (r: string)
  {
    Split(LastSegment(path), '.')[0]
  }

  /** The last segment is what follows the last `/`. */
  lemma LastSegmentIsSuffix(path: string) returns (k: nat)
    ensures k <= |path| && LastSegment(path) == path[k..]
    ensures k == 0 || path[k - 1] == '/'
    ensures '/' !in path[k..]
  {
    k := SplitLast(path, '/');
  }

  /**
   * `Filename` is the text that starts after the last `/` of the path and
   * runs up to the first dot after it, or to the end.
   */
  lemma FilenameIsStem(path: string) returns (k: nat)
    ensures k + |Filename(path)| <= |path|
    ensures path[k..k + |Filename(path)|] == Filename(path)
    ensures k == 0 || path[k - 1] == '/'
    ensures '/' !in path[k..]
    ensures '.' !in Filename(path)
    ensures k + |Filename(path)| == |path| || path[k + |Filename(path)|] == '.'
  {
    k := LastSegmentIsSuffix(path);
    var last := LastSegment(path);
    var j := SplitFirst(last, '.');
    var r := Filename(path);
    assert r == last[..j];
    assert path[k..k + j] == last[..j];
    assert k + j == |path| || path[k + j] == last[j];
  }

  /** The `MERGE` clauses of the folder chain: the first folder alone, then each folder under the previous one. */
  function FolderMerges(fs: seq<string>): (r: seq<Clause>)
    ensures |r| == |fs|
  {
    seq(|fs|, i requires 0 <= i < |fs| =>
      if i == 0 then MergeNode(FolderNode(fs[0])) else MergeEdge(FolderNode(fs[i - 1]), FolderEdge, FolderNode(fs[i])))
  }

  /**
   * `parseRootScope`'s query: the folder chain, and the file contained in the
   * innermost folder (or in an unconstrained node when there is no folder);
   * no query at all when the file name is empty.
   */
  function RootChain(source: string): (r: Option<Query>)
    ensures r.None? <==> Filename(source) == ""
    ensures r.Some? ==> var fs := Folders(source);
              && r.value.matched.None?
              && |r.value.merges| == |fs| + 1
              && (|fs| > 0 ==> r.value.merges[0] == MergeNode(FolderNode(fs[0])))
              && (forall i :: 0 < i < |fs| ==> r.value.merges[i] == MergeEdge(FolderNode(fs[i - 1]), FolderEdge, FolderNode(fs[i])))
              && r.value.merges[|fs|] == MergeEdge(if |fs| == 0 then AnyNode else FolderNode(fs[|fs| - 1]), ContainsEdge, FileNode(Filename(source)))
  {
    var fs := Folders(source);
    var name := Filename(source);
    if name == "" then None
    else
      var parent := if |fs| == 0 then AnyNode else FolderNode(fs[|fs| - 1]);
      Some(Query(None, FolderMerges(fs) + [MergeEdge(parent, ContainsEdge, FileNode(name))]))
  }

  /** A segment without a `/` is its own split, and names a folder or nothing. */
  lemma FoldersOfSegment(seg: string)
    requires '/' !in seg
    ensures Folders(seg) == if NamesFolder(seg) then [FolderName(seg)] else []
    ensures LastSegment(seg) == seg
  {
    assert Split(seg, '/') == [seg];
    assert [seg][1..] == [];
  }

  /**
   * Below a directory, the folders are the directory's folders followed by
   * those of the rest, and the file's name depends on the rest alone.
   */
  lemma SourceUnder(dir: string, rest: string)
    ensures Folders(dir + "/" + rest) == Folders(dir) + Folders(rest)
    ensures Filename(dir + "/" + rest) == Filename(rest)
  {
    var src := dir + "/" + rest;
    assert src == dir + ['/'] + rest;
    SplitConcat(dir, rest, '/');
    FoldersOfAppend(Split(dir, '/'), Split(rest, '/'));
    LastOfAppend(Split(src, '/'), Split(dir, '/'), Split(rest, '/'));
  }

  lemma LastOfAppend<T>(all: seq<T>, p: seq<T>, q: seq<T>)
    requires all == p + q && |q| > 0
    ensures Last(all) == Last(q)
  {
  }

  /** The name of `stem.ext` is `stem`. */
  lemma FilenameOfStem(stem: string, ext: string)
    requires '/' !in stem && '/' !in ext && '.' !in stem
    ensures Filename(stem + "." + ext) == stem
  {
    var base := stem + "." + ext;
    assert '/' !in base;
    FoldersOfSegment(base);
    var j := SplitFirst(base, '.');
    assert base[|stem|] == '.';
    assert base[..|stem|] == stem;
  }

  /**
   * A file `stem.ext` in a folder: the folder alone, then the file under
   * it, named by its stem.
   */
  lemma FileInFolder(folder: string, stem: string, ext: string)
    requires NamesFolder(folder) && '/' !in folder
    requires stem != "" && '/' !in stem && '.' !in stem && '/' !in ext
    ensures RootChain(folder + "/" + stem + "." + ext)
            == Some(Query(None, [MergeNode(FolderNode(FolderName(folder))),
                                 MergeEdge(FolderNode(FolderName(folder)), ContainsEdge, FileNode(stem))]))
  {
    var base := stem + "." + ext;
    var src := folder + "/" + base;
    assert folder + "/" + stem + "." + ext == src;
    assert Folders(src) == [FolderName(folder)] by {
      SourceUnder(folder, base);
      FoldersOfSegment(folder);
      assert '/' !in base;
      FoldersOfSegment(base);
      assert base[|stem|] == '.';
    }
    assert Filename(src) == stem by {
      SourceUnder(folder, base);
      FilenameOfStem(stem, ext);
    }
    var f := FolderName(folder);
    assert FolderMerges([f]) == [MergeNode(FolderNode(f))];
    var edge := MergeEdge(FolderNode(f), ContainsEdge, FileNode(stem));
    assert RootChain(src) == Some(Query(None, FolderMerges([f]) + [edge]));
    assert FolderMerges([f]) + [edge] == [MergeNode(FolderNode(f)), edge];
  }

  /**
   * A last segment without a dot is taken for a folder as well: the file is
   * put inside a folder of its own name.
   */
  lemma DotlessFileIsFolder(dir: string, base: string)
    requires '/' !in base && NamesFolder(base) && Filename(base) != ""
    ensures Folders(dir + "/" + base) == Folders(dir) + [FolderName(base)]
    ensures Filename(dir + "/" + base) == base
    ensures var r := RootChain(dir + "/" + base);
            r.Some? && r.value.merges[|r.value.merges| - 1] == MergeEdge(FolderNode(FolderName(base)), ContainsEdge, FileNode(base))
  {
    SourceUnder(dir, base);
    FoldersOfSegment(base);
    var j := SplitFirst(base, '.');
    assert base[..j] == base;
  }

  /** A path without a directory hangs the file from an unconstrained node. */
  lemma BareFile(stem: string, ext: string)
    requires stem != "" && '/' !in stem && '.' !in stem && '/' !in ext
    ensures RootChain(stem + "." + ext) == Some(Query(None, [MergeEdge(AnyNode, ContainsEdge, FileNode(stem))]))
  {
    var src := stem + "." + ext;
    assert '/' !in src;
    assert '.' in src by { assert src[|stem|] == '.'; }
    FoldersOfSegment(src);
    FilenameOfStem(stem, ext);
    var edge := MergeEdge(AnyNode, ContainsEdge, FileNode(stem));
    assert RootChain(src) == Some(Query(None, FolderMerges([]) + [edge]));
    assert FolderMerges([]) + [edge] == [edge];
  }

  /** `main.js` is contained in an unconstrained node. */
  lemma BareFileExample()
    ensures RootChain("main.js") == Some(Query(None, [MergeEdge(AnyNode, ContainsEdge, FileNode("main"))]))
  {
    assert "main.js" == "main" + "." + "js";
    BareFile("main", "js");
  }

  /** A file whose last segment starts with a dot has an empty name, so no query is made for it. */
  lemma DotFileHasNoQuery(dir: string, base: string)
    requires '/' !in base && |base| > 0 && base[0] == '.'
    ensures RootChain(dir + "/" + base) == None
  {
    SourceUnder(dir, base);
    FoldersOfSegment(base);
    assert '.' in base;
    assert IndexOf(base, '.') == 0;
    assert Split(base, '.')[0] == base[..0];
  }

  /** `lib/.eslintrc` has an empty file name, and no query is made for it. */
  lemma DotFileExample()
    ensures RootChain("lib/.eslintrc") == None
  {
    assert "lib/.eslintrc" == "lib" + "/" + ".eslintrc";
    DotFileHasNoQuery("lib", ".eslintrc");
  }

  // ---------------------------------------------------------------- declarations

  /** Where the graph says a declaration's source text lives: `/output/<path>:<name><ext>`. */
  function Locator(d: Descriptor, ext: string): string
  {
    "/output/" + d.path + ":" + d.name + ext
  }

  /** The node for a declaration: its kind, its file's name, and its properties. */
  function Vertex(kind: Label, d: Descriptor): GraphNode
  {
    DeclNode(kind, Filename(d.path), d.name, d.path, d.calls, Locator(d, ".js"), Locator(d, ".jsdoc"))
  }

  /** The query of a top-level function or class: find its file, hang the declaration from it. */
  function TopQuery(kind: Label, d: Descriptor): Query
  {
    var file := FileNode(Filename(d.path));
    Query(Some(file), [MergeEdge(file, ContainsEdge, Vertex(kind, d))])
  }

  /** The query of a method record: find the parent by name and path, hang the method from it. */
  function MemberQuery(parent: Descriptor, d: Descriptor): Query
  {
    var p := NodeByKey(parent.name, parent.path);
    Query(Some(p), [MergeEdge(Vertex(MethodLabel, d), ParentEdge, p)])
  }

  /** A query that finds an existing node and merges one edge from a new method node into it. */
  predicate IsMemberQuery(q: Query)
  {
    && q.matched.Some? && q.matched.value.NodeByKey?
    && |q.merges| == 1 && q.merges[0].MergeEdge?
    && q.merges[0].edge == ParentEdge && q.merges[0].dst == q.matched.value
    && q.merges[0].src.DeclNode? && q.merges[0].src.kind == MethodLabel
  }

  /** A query that finds a file node and merges one `kind` node contained in it. */
  predicate IsTopQuery(kind: Label, q: Query)
  {
    && q.matched.Some? && q.matched.value.FileNode?
    && |q.merges| == 1 && q.merges[0].MergeEdge?
    && q.merges[0].edge == ContainsEdge && q.merges[0].src == q.matched.value
    && q.merges[0].dst.DeclNode? && q.merges[0].dst.kind == kind
    && q.merges[0].dst.fileLabel == q.matched.value.name
  }

  /** The records of a method table, counting every record below a function or class record too. */
  function Records(ms: Members): nat
    decreases ms
  {
    if |ms| == 0 then 0
    else
      var d := ms[0].value;
      1 + (if d.Declaration? then Records(d.methods) else 0) + Records(ms[1..])
  }

  /**
   * `parseMethods(ms, parent)`: for each record, in order, its own query and
   * then, for a function or class record, the queries of its methods. A
   * method record has no method table, so what is attached to it is not
   * lowered.
   */
  function MethodQueries(ms: Members, parent: Descriptor): (r: seq<Query>)
    ensures |r| == Records(ms) >= |ms|
    ensures forall q :: q in r ==> IsMemberQuery(q)
    decreases ms
  {
    if |ms| == 0 then []
    else
      var d := ms[0].value;
      var below := if d.Declaration? then MethodQueries(d.methods, d) else [];
      [MemberQuery(parent, d)] + below + MethodQueries(ms[1..], parent)
  }

  /** The queries of a method table's subtree: the subtree's own queries come first. */
  function Below(d: Descriptor): (r: seq<Query>)
    ensures d.MethodRecord? ==> r == []
    ensures |r| == if d.Declaration? then Records(d.methods) else 0
    ensures forall q :: q in r ==> IsMemberQuery(q)
  {
    if d.Declaration? then MethodQueries(d.methods, d) else []
  }

  /** `parseFunctions` and `parseClasses`: each record's query, then its methods' queries. */
  function TopQueries(kind: Label, ms: Members): (r: seq<Query>)
    ensures |r| == Records(ms) >= |ms|
    ensures forall q :: q in r ==> IsTopQuery(kind, q) || IsMemberQuery(q)
  {
    if |ms| == 0 then []
    else [TopQuery(kind, ms[0].value)] + Below(ms[0].value) + TopQueries(kind, ms[1..])
  }

  /** Every query the declarations of a scope produce: the functions', then the classes'. */
  function DeclQueries(s: Scope): seq<Query>
  {
    TopQueries(FunctionLabel, s.functions) + TopQueries(ClassLabel, s.classes)
  }

  /** Every record of a method table gets its query. */
  lemma {:induction false} MethodQueriesComplete(ms: Members, parent: Descriptor, i: nat)
    requires i < |ms|
    ensures MemberQuery(parent, ms[i].value) in MethodQueries(ms, parent)
    decreases i
  {
    if i > 0 {
      MethodQueriesComplete(ms[1..], parent, i - 1);
    }
  }

  /** The queries of a nested method table are among the queries of the enclosing one. */
  lemma {:induction false} MethodQueriesNested(ms: Members, parent: Descriptor, i: nat)
    requires i < |ms|
    ensures forall q :: q in Below(ms[i].value) ==> q in MethodQueries(ms, parent)
    decreases i
  {
    if i > 0 {
      MethodQueriesNested(ms[1..], parent, i - 1);
    }
  }

  /** Every top-level record gets its query, and so does each record of its method table. */
  lemma {:induction false} TopQueriesComplete(kind: Label, ms: Members, i: nat)
    requires i < |ms|
    ensures TopQuery(kind, ms[i].value) in TopQueries(kind, ms)
    ensures forall q :: q in Below(ms[i].value) ==> q in TopQueries(kind, ms)
    decreases i
  {
    if i > 0 {
      TopQueriesComplete(kind, ms[1..], i - 1);
    }
  }

  /**
   * A class with one method whose body declares a function: two queries, the
   * class's and the method's; the function attached to the method record
   * never reaches the graph.
   */
  lemma AttachedNotLoweredExample()
    ensures var g := Declaration("g", "a.js", "function g() {}", None, [], []);
            var m := MethodRecord("m", "a.js", "m() { function g() {} }", None, [], [Entry("g", g)]);
            var c := Declaration("C", "a.js", "class C { m() { function g() {} } }", None, [Entry("m", m)], []);
            DeclQueries(Scope("a.js", [], [Entry("C", c)], map[])) == [TopQuery(ClassLabel, c), MemberQuery(c, m)]
  {
  }

  // ---------------------------------------------------------------- artifacts

  /** Where the driver writes a top-level function's source text: `./output/<path>.<name><ext>`. */
  function ArtifactPath(d: Descriptor, ext: string): string
  {
    "./output/" + d.path + "." + d.name + ext
  }

  /**
   * The files the driver writes for the top-level functions: the source text
   * when it is not empty, and the documentation comment when there is a
   * non-empty one, each as (path, contents).
   */
  function Artifacts(fs: Members): (r: seq<(string, string)>)
    ensures |r| <= 2 * |fs|
    ensures forall a :: a in r ==> a.1 != "" && |a.0| >= 9 && a.0[..9] == "./output/"
  {
    if |fs| == 0 then []
    else
      var d := fs[0].value;
      (if d.js != "" then [(ArtifactPath(d, ".js"), d.js)] else [])
      + (if d.jsdoc.Some? && d.jsdoc.value != "" then [(ArtifactPath(d, ".jsdoc"), d.jsdoc.value)] else [])
      + Artifacts(fs[1..])
  }

  /** Every function with source text gets its file, and so does every non-empty documentation comment. */
  lemma {:induction false} ArtifactsComplete(fs: Members, i: nat)
    requires i < |fs|
    ensures fs[i].value.js != "" ==> (ArtifactPath(fs[i].value, ".js"), fs[i].value.js) in Artifacts(fs)
    ensures fs[i].value.jsdoc.Some? && fs[i].value.jsdoc.value != "" ==>
              (ArtifactPath(fs[i].value, ".jsdoc"), fs[i].value.jsdoc.value) in Artifacts(fs)
    decreases i
  {
    if i > 0 {
      ArtifactsComplete(fs[1..], i - 1);
    }
  }

  /**
   * The locator the graph stores for a declaration never names the file the
   * driver writes for it, whether read relative to the working directory or
   * not: the two differ right after the path, `:` against `.`.
   */
  lemma LocatorMissesArtifact(d: Descriptor, ext: string)
    ensures ArtifactPath(d, ext) != "." + Locator(d, ext)
    ensures ArtifactPath(d, ext)[1..] != Locator(d, ext)
  {
    var n := 9 + |d.path|;
    assert ArtifactPath(d, ext)[n] == '.';
    assert ("." + Locator(d, ext))[n] == ':';
    assert ArtifactPath(d, ext)[1..][n - 1] == '.';
    assert Locator(d, ext)[n - 1] == ':';
  }

  // ---------------------------------------------------------------- call paths

  /** `chain.pop()` on a path: the path without its last name. */
  function DropLast(p: CallPath): (r: CallPath)
    ensures |p| > 0 ==> r + [p[|p| - 1]] == p
    ensures |p| == 0 ==> r == []
  {
    if |p| == 0 then [] else p[..|p| - 1]
  }

  function PopRecord(d: Descriptor): Descriptor
  {
    d.(calls := seq(|d.calls|, j requires 0 <= j < |d.calls| =>
                  seq(|d.calls[j]|, k requires 0 <= k < |d.calls[j]| => DropLast(d.calls[j][k]))))
  }

  function PopAll(ms: Members): Members
  {
    seq(|ms|, i requires 0 <= i < |ms| => Entry(ms[i].key, PopRecord(ms[i].value)))
  }

  /**
   * `parseCalls`: every call path of the top-level functions and classes
   * loses its last name; method records, keys, and everything else are kept.
   */
  function ParseCalls(s: Scope): (r: Scope)
    ensures r.source == s.source && r.exported == s.exported
    ensures Keys(r.functions) == Keys(s.functions) && Keys(r.classes) == Keys(s.classes)
  {
    s.(functions := PopAll(s.functions), classes := PopAll(s.classes))
  }

  /** What `parseCalls` does to one record: the same record, each call path one name shorter. */
  lemma ParseCallsRecord(s: Scope, i: nat, j: nat, k: nat)
    requires i < |s.functions| && j < |s.functions[i].value.calls| && k < |s.functions[i].value.calls[j]|
    ensures var d := s.functions[i].value; var e := ParseCalls(s).functions[i].value;
            && e.name == d.name && e.path == d.path && e.js == d.js && e.jsdoc == d.jsdoc
            && (d.Declaration? ==> e.Declaration? && e.methods == d.methods)
            && |e.calls| == |d.calls| && |e.calls[j]| == |d.calls[j]|
            && (|d.calls[j][k]| > 0 ==> e.calls[j][k] + [d.calls[j][k][|d.calls[j][k]| - 1]] == d.calls[j][k])
  {
  }

  // ---------------------------------------------------------------- the transaction

  /** `parseRootScope`'s queries: the folder chain, when there is one. */
  function RootQueries(source: string): (r: seq<Query>)
    ensures |r| <= 1
    ensures |r| == 1 <==> Filename(source) != ""
  {
    match RootChain(source)
    case None => []
    case Some(q) => [q]
  }

  /** Everything the lowering sends, in the order it is sent. */
  function Lowered(s: Scope): seq<Query>
  {
    RootQueries(s.source) + DeclQueries(s)
  }

  /**
   * The `catch` of `processScope`: roll back, then close; when the rollback
   * itself fails, the failure escapes and the connection is not closed.
   */
  function Recover(c: Conn, s: Scope, fails: Call -> bool): (r: (Conn, Scope, Outcome))
    ensures r.1 == s
    // with no transaction the rollback only warns, and the connection is closed
    ensures !c.open && fails(CloseSession) ==>
              r == (Conn(false, c.log + [Warned(NoTransactionToRollBack), Did(CloseSession, false)]), s, Ok)
    ensures !c.open && !fails(CloseSession) ==>
              r == (Conn(false, c.log + [Warned(NoTransactionToRollBack), Did(CloseSession, true), Did(CloseDriver, !fails(CloseDriver))]), s, Ok)
    // a failed rollback escapes, with the transaction still set and nothing closed
    ensures c.open && fails(RollbackTx) ==> r == (Conn(true, c.log + [Did(RollbackTx, false)]), s, Threw)
    // after a successful one the session and then the driver are closed
    ensures c.open && !fails(RollbackTx) && fails(CloseSession) ==>
              r == (Conn(false, c.log + [Did(RollbackTx, true), Did(CloseSession, false)]), s, Ok)
    ensures c.open && !fails(RollbackTx) && !fails(CloseSession) ==>
              r == (Conn(false, c.log + [Did(RollbackTx, true), Did(CloseSession, true), Did(CloseDriver, !fails(CloseDriver))]), s, Ok)
    ensures Consistent(c) ==> Consistent(r.0)
  {
    var (c1, o1) := Rollback(c, fails);
    if o1 == Threw then (c1, s, Threw)
    else
      var c2 := Close(c1, fails);
      assert !c1.open;
      assert c1.log == c.log + [if c.open then Did(RollbackTx, true) else Warned(NoTransactionToRollBack)];
      RecoverCloses(c1.log, c.log, if c.open then Did(RollbackTx, true) else Warned(NoTransactionToRollBack), fails);
      (c2, s, Ok)
  }

  /** The events of closing after `before` and `e`, regrouped. */
  lemma RecoverCloses(log: seq<Event>, before: seq<Event>, e: Event, fails: Call -> bool)
    requires log == before + [e]
    ensures log + [Did(CloseSession, false)] == before + [e, Did(CloseSession, false)]
    ensures log + [Did(CloseSession, true), Did(CloseDriver, !fails(CloseDriver))]
            == before + [e, Did(CloseSession, true), Did(CloseDriver, !fails(CloseDriver))]
  {
  }

  /**
   * The transaction around the queries `qs` on a new connection: open it,
   * send `qs`, replace the scope `before` by `after`, commit, close.
   */
  function Transact(qs: seq<Query>, before: Scope, after: Scope, fails: Call -> bool): (r: (Conn, Scope, Outcome))
  {
    var (c1, o1) := Begin(Fresh(), fails);
    if o1 == Threw then Recover(c1, before, fails)
    else
      var c2 := RunAll(c1, qs, fails);
      var (c3, o3) := Commit(c2, fails);
      if o3 == Threw then Recover(c3, after, fails) else (Close(c3, fails), after, Ok)
  }

  /**
   * `processScope` on a new connection: open a transaction, send every query,
   * trim the call paths, commit, close. A failing query is not seen here:
   * the folder chain's failure is caught where it is sent, and the other
   * queries are not awaited.
   */
  function ProcessScope(s: Scope, fails: Call -> bool): (r: (Conn, Scope, Outcome))
  {
    Transact(Lowered(s), s, ParseCalls(s), fails)
  }

  /** The calls other than queries fail alike under `f` and `g`. */
  predicate SameControlFailures(f: Call -> bool, g: Call -> bool)
  {
    && f(BeginTx) == g(BeginTx) && f(CommitTx) == g(CommitTx) && f(RollbackTx) == g(RollbackTx)
    && f(CloseSession) == g(CloseSession) && f(CloseDriver) == g(CloseDriver)
  }

  lemma TransactSucceeds(qs: seq<Query>, before: Scope, after: Scope, fails: Call -> bool)
    requires !fails(BeginTx) && !fails(CommitTx) && !fails(CloseSession)
    ensures var r := Transact(qs, before, after, fails);
            && r.2 == Ok && !r.0.open && r.1 == after
            && |r.0.log| == |qs| + 4
            && r.0.log[0] == Did(BeginTx, true)
            && (forall i :: 0 <= i < |qs| ==> r.0.log[1 + i] == Did(RunOnTx(qs[i]), !fails(RunOnTx(qs[i]))))
            && r.0.log[|qs| + 1..] == [Did(CommitTx, true), Did(CloseSession, true), Did(CloseDriver, !fails(CloseDriver))]
  {
    var (c1, o1) := Begin(Fresh(), fails);
    assert c1 == Conn(true, [Did(BeginTx, true)]);
    var c2 := RunAll(c1, qs, fails);
    var (c3, o3) := Commit(c2, fails);
    assert c3.log == c2.log + [Did(CommitTx, true)] && !c3.open;
    var c4 := Close(c3, fails);
    assert c4.log == c3.log + [Did(CloseSession, true), Did(CloseDriver, !fails(CloseDriver))];
    assert c4.log[|qs| + 1..] == [Did(CommitTx, true), Did(CloseSession, true), Did(CloseDriver, !fails(CloseDriver))];
  }

  /** When nothing but queries may fail: begin, every query on the transaction, commit, close. */
  lemma ProcessScopeSucceeds(s: Scope, fails: Call -> bool)
    requires !fails(BeginTx) && !fails(CommitTx) && !fails(CloseSession)
    ensures var qs := Lowered(s); var r := ProcessScope(s, fails);
            && r.2 == Ok && !r.0.open && r.1 == ParseCalls(s)
            && |r.0.log| == |qs| + 4
            && r.0.log[0] == Did(BeginTx, true)
            && (forall i :: 0 <= i < |qs| ==> r.0.log[1 + i] == Did(RunOnTx(qs[i]), !fails(RunOnTx(qs[i]))))
            && r.0.log[|qs| + 1..] == [Did(CommitTx, true), Did(CloseSession, true), Did(CloseDriver, !fails(CloseDriver))]
  {
    TransactSucceeds(Lowered(s), s, ParseCalls(s), fails);
  }

  /**
   * When the transaction cannot be opened no query is sent, the call paths
   * are left alone, the rollback only warns, and the connection is closed.
   */
  lemma ProcessScopeBeginFails(s: Scope, fails: Call -> bool)
    requires fails(BeginTx) && !fails(CloseSession)
    ensures ProcessScope(s, fails) ==
            (Conn(false, [Did(BeginTx, false), Warned(NoTransactionToRollBack), Did(CloseSession, true), Did(CloseDriver, !fails(CloseDriver))]), s, Ok)
  {
    TransactBeginFails(Lowered(s), s, ParseCalls(s), fails);
  }

  lemma TransactBeginFails(qs: seq<Query>, before: Scope, after: Scope, fails: Call -> bool)
    requires fails(BeginTx) && !fails(CloseSession)
    ensures Transact(qs, before, after, fails) ==
            (Conn(false, [Did(BeginTx, false), Warned(NoTransactionToRollBack), Did(CloseSession, true), Did(CloseDriver, !fails(CloseDriver))]), before, Ok)
  {
    var (c1, o1) := Begin(Fresh(), fails);
    assert c1 == Conn(false, [Did(BeginTx, false)]) && o1 == Threw;
    assert Transact(qs, before, after, fails) == Recover(c1, before, fails);
    assert c1.log + [Warned(NoTransactionToRollBack), Did(CloseSession, true), Did(CloseDriver, !fails(CloseDriver))]
        == [Did(BeginTx, false), Warned(NoTransactionToRollBack), Did(CloseSession, true), Did(CloseDriver, !fails(CloseDriver))];
  }

  lemma TransactCommitFails(qs: seq<Query>, before: Scope, after: Scope, fails: Call -> bool)
    requires !fails(BeginTx) && fails(CommitTx)
    ensures var r := Transact(qs, before, after, fails);
            && r.1 == after
            && |r.0.log| >= |qs| + 3
            && r.0.log[|qs| + 1..|qs| + 3] == [Did(CommitTx, false), Did(RollbackTx, !fails(RollbackTx))]
            && (fails(RollbackTx) ==> r.2 == Threw && r.0.open && |r.0.log| == |qs| + 3)
            && (!fails(RollbackTx) ==> r.2 == Ok && !r.0.open)
            && (!fails(RollbackTx) && fails(CloseSession) ==>
                  r.0.log[|qs| + 1..] == [Did(CommitTx, false), Did(RollbackTx, true), Did(CloseSession, false)])
            && (!fails(RollbackTx) && !fails(CloseSession) ==>
                  r.0.log[|qs| + 1..] == [Did(CommitTx, false), Did(RollbackTx, true), Did(CloseSession, true), Did(CloseDriver, !fails(CloseDriver))])
  {
    var (c1, o1) := Begin(Fresh(), fails);
    var c2 := RunAll(c1, qs, fails);
    assert |c2.log| == |qs| + 1 && c2.open;
    var (c3, o3) := Commit(c2, fails);
    assert c3.open && o3 == Threw && c3.log == c2.log + [Did(CommitTx, false)];
    var r := Recover(c3, after, fails);
    assert r.0.log[..|c3.log| + 1] == c3.log + [Did(RollbackTx, !fails(RollbackTx))];
    assert r.0.log[|qs| + 1..|qs| + 3] == r.0.log[..|c3.log| + 1][|qs| + 1..];
    assert c3.log[|qs| + 1..] == [Did(CommitTx, false)];
  }

  /**
   * A failed commit is rolled back. When the rollback fails as well, the
   * failure escapes `processScope`, the transaction stays set, and the session
   * and driver are never closed; otherwise they are closed in turn.
   */
  lemma ProcessScopeCommitFails(s: Scope, fails: Call -> bool)
    requires !fails(BeginTx) && fails(CommitTx)
    ensures var qs := Lowered(s); var r := ProcessScope(s, fails);
            && r.1 == ParseCalls(s)
            && |r.0.log| >= |qs| + 3
            && r.0.log[|qs| + 1..|qs| + 3] == [Did(CommitTx, false), Did(RollbackTx, !fails(RollbackTx))]
            && (fails(RollbackTx) ==> r.2 == Threw && r.0.open && |r.0.log| == |qs| + 3)
            && (!fails(RollbackTx) ==> r.2 == Ok && !r.0.open)
            && (!fails(RollbackTx) && fails(CloseSession) ==>
                  r.0.log[|qs| + 1..] == [Did(CommitTx, false), Did(RollbackTx, true), Did(CloseSession, false)])
            && (!fails(RollbackTx) && !fails(CloseSession) ==>
                  r.0.log[|qs| + 1..] == [Did(CommitTx, false), Did(RollbackTx, true), Did(CloseSession, true), Did(CloseDriver, !fails(CloseDriver))])
  {
    TransactCommitFails(Lowered(s), s, ParseCalls(s), fails);
  }

  /** Whatever fails, the transaction flag `processScope` leaves agrees with the calls it made. */
  lemma ProcessScopeConsistent(s: Scope, fails: Call -> bool)
    ensures Consistent(ProcessScope(s, fails).0)
  {
  }

  /** Two connections in the same state with logs of the same length. */
  predicate Alike(c: Conn, d: Conn)
  {
    c.open == d.open && |c.log| == |d.log|
  }

  lemma CloseAlike(c: Conn, d: Conn, f: Call -> bool, g: Call -> bool)
    requires Alike(c, d) && SameControlFailures(f, g)
    ensures Alike(Close(c, f), Close(d, g))
  {
    if c.open {
      assert Alike(Rollback(c, f).0, Rollback(d, g).0) && Rollback(c, f).1 == Rollback(d, g).1;
    }
  }

  lemma RecoverAlike(c: Conn, d: Conn, s: Scope, f: Call -> bool, g: Call -> bool)
    requires Alike(c, d) && SameControlFailures(f, g)
    ensures Alike(Recover(c, s, f).0, Recover(d, s, g).0) && Recover(c, s, f).2 == Recover(d, s, g).2
  {
    var (c1, o1) := Rollback(c, f);
    var (d1, p1) := Rollback(d, g);
    assert Alike(c1, d1) && o1 == p1;
    if o1 == Ok {
      CloseAlike(c1, d1, f, g);
    }
  }

  /** Two runs of a transaction whose control calls fail alike end alike. */
  lemma TransactAlike(qs: seq<Query>, before: Scope, after: Scope, f: Call -> bool, g: Call -> bool)
    requires SameControlFailures(f, g)
    ensures var r, q := Transact(qs, before, after, f), Transact(qs, before, after, g);
            r.1 == q.1 && r.2 == q.2 && Alike(r.0, q.0)
  {
    var (c1, o1) := Begin(Fresh(), f);
    var (d1, p1) := Begin(Fresh(), g);
    assert Alike(c1, d1) && o1 == p1;
    if o1 == Threw {
      RecoverAlike(c1, d1, before, f, g);
    } else {
      var c2 := RunAll(c1, qs, f);
      var d2 := RunAll(d1, qs, g);
      var (c3, o3) := Commit(c2, f);
      var (d3, p3) := Commit(d2, g);
      assert Alike(c3, d3) && o3 == p3;
      if o3 == Threw {
        RecoverAlike(c3, d3, after, f, g);
      } else {
        CloseAlike(c3, d3, f, g);
      }
    }
  }

  /**
   * A query failure changes nothing about how `processScope` ends: two runs
   * whose control calls fail alike end with the same outcome, the same
   * scope, the same transaction state and logs of the same length.
   */
  lemma QueryFailuresIgnored(s: Scope, f: Call -> bool, g: Call -> bool)
    requires SameControlFailures(f, g)
    ensures ProcessScope(s, f).1 == ProcessScope(s, g).1
    ensures ProcessScope(s, f).2 == ProcessScope(s, g).2
    ensures ProcessScope(s, f).0.open == ProcessScope(s, g).0.open
    ensures |ProcessScope(s, f).0.log| == |ProcessScope(s, g).0.log|
  {
    TransactAlike(Lowered(s), s, ParseCalls(s), f, g);
  }
}

=== FILE: orderedmaps.dfy ===
/**
 * A JavaScript object used as a dictionary with identifier-like keys: entries
 * keep the position of their first insertion, and assigning to an existing
 * key replaces its value in place (`Object.values` then lists values in that
 * order).
 */
module OrderedMaps {
  import opened Wrappers

  datatype Entry<V> = Entry(key: string, value: V)

  function Keys<V>(m: seq<Entry<V>>): (r: seq<string>)
    ensures |r| == |m|
    ensures forall i :: 0 <= i < |m| ==> r[i] == m[i].key
  {
    seq(|m|, i requires 0 <= i < |m| => m[i].key)
  }

  /** No key occurs twice, as in any JavaScript object. */
  predicate UniqueKeys<V>(m: seq<Entry<V>>)
  {
    forall i, j :: 0 <= i < j < |m| ==> m[i].key != m[j].key
  }

  /** The position of the first entry stored under `k`. */
  function Position<V>(m: seq<Entry<V>>, k: string): (i: nat)
    requires k in Keys(m)
    ensures i < |m| && m[i].key == k
    ensures forall j :: 0 <= j < i ==> m[j].key != k
  {
    if m[0].key == k then 0
    else
      assert k in Keys(m[1..]) by {
        var j :| 0 <= j < |m| && Keys(m)[j] == k;
        assert Keys(m[1..])[j - 1] == k;
      }
      1 + Position(m[1..], k)
  }

  lemma PositionUnique<V>(m: seq<Entry<V>>, k: string, i: nat)
    requires i < |m| && m[i].key == k
    requires forall j :: 0 <= j < i ==> m[j].key != k
    ensures k in Keys(m) && Position(m, k) == i
  {
    assert Keys(m)[i] == k;
  }

  /** `obj[k]`: the value stored under `k`, if any. */
  function Get<V>(m: seq<Entry<V>>, k: string): (r: Option<V>)
    ensures r.None? <==> k !in Keys(m)
    ensures r.Some? ==> exists i :: 0 <= i < |m| && m[i] == Entry(k, r.value)
  {
    if k in Keys(m) then Some(m[Position(m, k)].value) else None
  }

  /** `obj[k] = v`: replace in place when `k` is present, append otherwise. */
  function Put<V>(m: seq<Entry<V>>, k: string, v: V): (r: seq<Entry<V>>)
    ensures Get(r, k) == Some(v)
    ensures forall k' :: k' != k ==> Get(r, k') == Get(m, k')
    ensures k in Keys(m) ==> Keys(r) == Keys(m)
    ensures k !in Keys(m) ==> r == m + [Entry(k, v)]
  {
    if k in Keys(m) then
      var i := Position(m, k);
      var r := m[i := Entry(k, v)];
      PositionUnique(r, k, i);
      assert Keys(r) == Keys(m);
      assert forall k' :: k' != k ==> Get(r, k') == Get(m, k') by {
        forall k' | k' != k ensures Get(r, k') == Get(m, k') {
          if k' in Keys(m) { PositionUnique(r, k', Position(m, k')); }
        }
      }
      r
    else
      var r := m + [Entry(k, v)];
      assert Keys(r) == Keys(m) + [k];
      PositionUnique(r, k, |m|);
      assert forall k' :: k' != k ==> Get(r, k') == Get(m, k') by {
        forall k' | k' != k ensures Get(r, k') == Get(m, k') {
          if k' in Keys(m) { PositionUnique(r, k', Position(m, k')); }
        }
      }
      r
  }

  /** Writing keeps keys unique: the source's objects never hold a key twice. */
  lemma PutUnique<V>(m: seq<Entry<V>>, k: string, v: V)
    requires UniqueKeys(m)
    ensures UniqueKeys(Put(m, k, v))
  {
    var r := Put(m, k, v);
    if k in Keys(m) {
      assert Keys(r) == Keys(m);
      forall i, j | 0 <= i < j < |r| ensures r[i].key != r[j].key {
        assert Keys(r)[i] == Keys(m)[i] && Keys(r)[j] == Keys(m)[j];
      }
    } else {
      forall i, j | 0 <= i < j < |r| ensures r[i].key != r[j].key {
        if j == |m| { assert Keys(m)[i] == m[i].key; }
      }
    }
  }

  /** Two writes to one key leave only the second, in the first one's place. */
  lemma PutPut<V>(m: seq<Entry<V>>, k: string, v1: V, v2: V)
    ensures Put(Put(m, k, v1), k, v2) == Put(m, k, v2)
  {
    var m1 := Put(m, k, v1);
    if k in Keys(m) {
      var i := Position(m, k);
      assert m1 == m[i := Entry(k, v1)];
      PositionUnique(m1, k, i);
      assert Put(m1, k, v2) == m1[i := Entry(k, v2)];
      assert m1[i := Entry(k, v2)] == m[i := Entry(k, v2)];
    } else {
      assert m1 == m + [Entry(k, v1)];
      assert m1[..|m|] == m;
      PositionUnique(m1, k, |m|);
      assert Put(m1, k, v2) == m1[|m| := Entry(k, v2)];
      assert m1[|m| := Entry(k, v2)] == m + [Entry(k, v2)];
    }
  }
}

=== FILE: queries.dfy ===
/**
 * The graph queries the lowering issues, as structure rather than Cypher
 * text: an optional `MATCH` of one node, then `MERGE` clauses of single nodes
 * or single edges.
 */
module Queries {
  import opened Wrappers
  import opened Types

  datatype Label = FunctionLabel | ClassLabel | MethodLabel

  datatype GraphNode =
      /** `()`: a pattern matching any node */
    | AnyNode
    | FolderNode(name: string)
    | FileNode(name: string)
      /** `({name, path})`: the node selected by its name and path properties */
    | NodeByKey(key: string, keyPath: string)
      /** a declaration node, labelled with its kind and the file's name */
    | DeclNode(kind: Label, fileLabel: string, name: string, path: string,
               calls: seq<CallRecord>, js: string, jsdoc: string)

  datatype Edge = FolderEdge | ContainsEdge | ParentEdge

  datatype Clause =
    | MergeNode(node: GraphNode)
      /** `MERGE (src)-[:edge]->(dst)` */
    | MergeEdge(src: GraphNode, edge: Edge, dst: GraphNode)

  datatype Query = Query(matched: Option<GraphNode>, merges: seq<Clause>)
}

=== FILE: store.dfy ===
/**
 * The graph-store connection: a session with at most one open transaction.
 * Every call the connection makes on the driver is logged with whether it
 * succeeded; which calls fail is a parameter (`fails`), since it depends on
 * the database.
 */
module Store {
  import opened Wrappers
  import opened Queries

  datatype Call = BeginTx | RunOnTx(q: Query) | RunOnSession(q: Query) | CommitTx | RollbackTx | CloseSession | CloseDriver

  datatype Warning = AlreadyOpen | NoTransactionToCommit | NoTransactionToRollBack

  datatype Event = Did(call: Call, ok: bool) | Warned(warning: Warning)

  /** Whether a transaction is open, and everything done so far. */
  datatype Conn = Conn(open: bool, log: seq<Event>)

  datatype Outcome = Ok | Threw

  /** A new connection: no transaction, nothing done. */
  function Fresh(): Conn
  {
    Conn(false, [])
  }

  /** Make one driver call. */
  function Perform(c: Conn, k: Call, fails: Call -> bool): (r: (Conn, Outcome))
  {
    (c.(log := c.log + [Did(k, !fails(k))]), if fails(k) then Threw else Ok)
  }

  /**
   * Whether a transaction is open after the events `log`, read off the log
   * alone: a successful begin opens one, a successful commit or rollback
   * clears it, and nothing else changes it.
   */
  function OpenAfter(log: seq<Event>): bool
  {
    if |log| == 0 then false
    else
      match log[|log| - 1]
      case Did(BeginTx, true) => true
      case Did(CommitTx, true) => false
      case Did(RollbackTx, true) => false
      case _ => OpenAfter(log[..|log| - 1])
  }

  /** The connection's flag agrees with its log. */
  predicate Consistent(c: Conn)
  {
    c.open == OpenAfter(c.log)
  }

  lemma OpenAfterAppend(log: seq<Event>, e: Event)
    ensures OpenAfter(log + [e]) == match e
                                    case Did(BeginTx, true) => true
                                    case Did(CommitTx, true) => false
                                    case Did(RollbackTx, true) => false
                                    case _ => OpenAfter(log)
  {
    assert (log + [e])[..|log|] == log;
  }

  /** `runQuery`: on the open transaction if there is one, else on the session; a failure is passed on. */
  function RunQuery(c: Conn, q: Query, fails: Call -> bool): (r: (Conn, Outcome))
    ensures r.0.open == c.open
    ensures c.open ==> r.0.log == c.log + [Did(RunOnTx(q), !fails(RunOnTx(q)))]
    ensures !c.open ==> r.0.log == c.log + [Did(RunOnSession(q), !fails(RunOnSession(q)))]
    ensures r.1 == Threw <==> fails(if c.open then RunOnTx(q) else RunOnSession(q))
    ensures Consistent(c) ==> Consistent(r.0)
  {
    var k := if c.open then RunOnTx(q) else RunOnSession(q);
    OpenAfterAppend(c.log, Did(k, !fails(k)));
    Perform(c, k, fails)
  }

  /** `beginTransaction`: opens a transaction, or only warns when one is open. */
  function Begin(c: Conn, fails: Call -> bool): (r: (Conn, Outcome))
    ensures c.open ==> r == (c.(log := c.log + [Warned(AlreadyOpen)]), Ok)
    ensures !c.open ==> r.0.log == c.log + [Did(BeginTx, !fails(BeginTx))]
    ensures !c.open ==> (r.0.open <==> !fails(BeginTx)) && (r.1 == Threw <==> fails(BeginTx))
    ensures Consistent(c) ==> Consistent(r.0)
  {
    if c.open then
      OpenAfterAppend(c.log, Warned(AlreadyOpen));
      (c.(log := c.log + [Warned(AlreadyOpen)]), Ok)
    else
      OpenAfterAppend(c.log, Did(BeginTx, !fails(BeginTx)));
      var (c1, o) := Perform(c, BeginTx, fails);
      (c1.(open := o == Ok), o)
  }

  /**
   * Ending the open transaction with `k` (commit or roll back): the
   * transaction is cleared only when the call succeeds; without one, only a
   * warning.
   */
  function EndTransaction(c: Conn, k: Call, none: Warning, fails: Call -> bool): (r: (Conn, Outcome))
    ensures !c.open ==> r == (c.(log := c.log + [Warned(none)]), Ok)
    ensures c.open ==> r.0.log == c.log + [Did(k, !fails(k))] && (r.0.open <==> fails(k)) && (r.1 == Threw <==> fails(k))
  {
    if !c.open then (c.(log := c.log + [Warned(none)]), Ok)
    else
      var (c1, o) := Perform(c, k, fails);
      (c1.(open := o == Threw), o)
  }

  function Commit(c: Conn, fails: Call -> bool): (r: (Conn, Outcome))
    ensures Consistent(c) ==> Consistent(r.0)
  {
    OpenAfterAppend(c.log, if c.open then Did(CommitTx, !fails(CommitTx)) else Warned(NoTransactionToCommit));
    EndTransaction(c, CommitTx, NoTransactionToCommit, fails)
  }

  function Rollback(c: Conn, fails: Call -> bool): (r: (Conn, Outcome))
    ensures Consistent(c) ==> Consistent(r.0)
  {
    OpenAfterAppend(c.log, if c.open then Did(RollbackTx, !fails(RollbackTx)) else Warned(NoTransactionToRollBack));
    EndTransaction(c, RollbackTx, NoTransactionToRollBack, fails)
  }

  /**
   * `close`: roll back an open transaction, close the session, close the
   * driver; the first failure stops the sequence and is swallowed.
   */
  function Close(c: Conn, fails: Call -> bool): (r: Conn)
    // with no transaction: the session, then the driver unless the session failed to close
    ensures !c.open && fails(CloseSession) ==> r.log == c.log + [Did(CloseSession, false)]
    ensures !c.open && !fails(CloseSession) ==>
              r.log == c.log + [Did(CloseSession, true), Did(CloseDriver, !fails(CloseDriver))]
    // with one: the rollback first, and nothing after it if it fails
    ensures c.open ==> |r.log| > |c.log| && r.log[..|c.log| + 1] == c.log + [Did(RollbackTx, !fails(RollbackTx))]
    ensures c.open && fails(RollbackTx) ==> r.log == c.log + [Did(RollbackTx, false)]
    ensures c.open && !fails(RollbackTx) && fails(CloseSession) ==>
              r.log == c.log + [Did(RollbackTx, true), Did(CloseSession, false)]
    ensures c.open && !fails(RollbackTx) && !fails(CloseSession) ==>
              r.log == c.log + [Did(RollbackTx, true), Did(CloseSession, true), Did(CloseDriver, !fails(CloseDriver))]
    ensures !r.open <==> !c.open || !fails(RollbackTx)
    ensures Consistent(c) ==> Consistent(r)
  {
    var (c1, o1) := if c.open then Rollback(c, fails) else (c, Ok);
    OpenAfterAppend(c1.log, Did(CloseSession, !fails(CloseSession)));
    OpenAfterAppend(c1.log + [Did(CloseSession, !fails(CloseSession))], Did(CloseDriver, !fails(CloseDriver)));
    if o1 == Threw then c1
    else
      var (c2, o2) := Perform(c1, CloseSession, fails);
      if o2 == Threw then c2 else Perform(c2, CloseDriver, fails).0
  }

  /** The events of running `qs` one after another. */
  function RunAll(c: Conn, qs: seq<Query>, fails: Call -> bool): (r: Conn)
    ensures r.open == c.open
    ensures |r.log| == |c.log| + |qs|
    ensures r.log[..|c.log|] == c.log
    ensures Consistent(c) ==> Consistent(r)
    ensures forall i :: 0 <= i < |qs| ==>
              r.log[|c.log| + i] == Did(if c.open then RunOnTx(qs[i]) else RunOnSession(qs[i]),
                                        !fails(if c.open then RunOnTx(qs[i]) else RunOnSession(qs[i])))
    decreases |qs|
  {
    if |qs| == 0 then c
    else
      var c1 := RunQuery(c, qs[0], fails).0;
      var r := RunAll(c1, qs[1..], fails);
      assert forall i :: 1 <= i < |qs| ==> qs[i] == qs[1..][i - 1];
      r
  }
}

=== FILE: strings.dfy ===
/**
 * The handful of JavaScript string operations the scope builder and the graph
 * lowering rely on: `split`, `join`, `trim`, the default ordering that
 * `Array.prototype.sort` applies to strings, and the decimal rendering of a
 * counter inside a template literal.
 */
module Strings {

  // ---------------------------------------------------------------- join / split

  /** `parts.join(sep)`: the parts with `sep` between consecutive ones. */
  function Join(sep: string, parts: seq<string>): (r: string)
    ensures |parts| == 1 ==> r == parts[0]
    ensures |parts| == 0 ==> r == ""
  {
    if |parts| == 0 then ""
    else if |parts| == 1 then parts[0]
    else parts[0] + sep + Join(sep, parts[1..])
  }

  /** The first position of `c` in `s`. */
  function IndexOf(s: string, c: char): (i: nat)
    requires c in s
    ensures i < |s| && s[i] == c
    ensures c !in s[..i]
  {
    if s[0] == c then 0
    else
      assert c in s[1..] by { var k :| 0 <= k < |s| && s[k] == c; assert s[1..][k - 1] == c; }
      var j := IndexOf(s[1..], c);
      assert s[..j + 1] == [s[0]] + s[1..][..j];
      j + 1
  }

  /**
   * `s.split(sep)` for a one-character separator: the maximal separator-free
   * pieces of `s`, in order, including empty ones at either end and between
   * adjacent separators.
   */
  function Split(s: string, sep: char): (r: seq<string>)
    ensures |r| >= 1
    ensures forall i :: 0 <= i < |r| ==> sep !in r[i]
    decreases |s|
  {
    if sep !in s then [s]
    else
      var i := IndexOf(s, sep);
      [s[..i]] + Split(s[i + 1..], sep)
  }

  /** Joining the pieces of a split with the separator gives back the input. */
  lemma {:induction false} SplitJoinsBack(s: string, sep: char)
    ensures Join([sep], Split(s, sep)) == s
    decreases |s|
  {
    if sep in s {
      var i := IndexOf(s, sep);
      SplitJoinsBack(s[i + 1..], sep);
      JoinCons(s, sep, i, Split(s, sep), Split(s[i + 1..], sep));
    }
  }

  /** The step of `SplitJoinsBack`, stated without `Split`. */
  lemma JoinCons(s: string, sep: char, i: nat, r: seq<string>, rest: seq<string>)
    requires i < |s| && s[i] == sep
    requires r == [s[..i]] + rest && |rest| >= 1 && Join([sep], rest) == s[i + 1..]
    ensures Join([sep], r) == s
  {
    assert r[1..] == rest;
    assert s == s[..i] + [sep] + s[i + 1..];
  }

  /** Splitting a separator-free piece, a separator and a tail. */
  lemma SplitCons(p: string, sep: char, tail: string)
    requires sep !in p
    ensures Split(p + [sep] + tail, sep) == [p] + Split(tail, sep)
  {
    var s := p + [sep] + tail;
    assert s[|p|] == sep;
    assert s[..|p|] == p;
    assert s[|p| + 1..] == tail;
    assert IndexOf(s, sep) == |p|;
  }

  /** The last of the joined parts starts right after the last separator. */
  lemma LastOfJoin(sep: char, r: seq<string>, s: string) returns (k: nat)
    requires |r| >= 1 && Join([sep], r) == s
    ensures k <= |s| && r[|r| - 1] == s[k..]
    ensures k == 0 || s[k - 1] == sep
  {
    if |r| == 1 {
      k := 0;
    } else {
      var p := r[..|r| - 1];
      JoinAppend([sep], p, [r[|r| - 1]]);
      assert p + [r[|r| - 1]] == r;
      k := |Join([sep], p)| + 1;
      assert s == Join([sep], p) + [sep] + r[|r| - 1];
    }
  }

  /** The last piece of a split starts right after the last separator. */
  lemma SplitLast(s: string, sep: char) returns (k: nat)
    ensures k <= |s|
    ensures var r := Split(s, sep); r[|r| - 1] == s[k..]
    ensures k == 0 || s[k - 1] == sep
  {
    var r := Split(s, sep);
    SplitJoinsBack(s, sep);
    k := LastOfJoin(sep, r, s);
  }

  /** The first piece of a split ends right before the first separator. */
  lemma SplitFirst(s: string, sep: char) returns (j: nat)
    ensures j <= |s| && Split(s, sep)[0] == s[..j]
    ensures sep !in s[..j]
    ensures j == |s| || s[j] == sep
  {
    if sep in s {
      j := IndexOf(s, sep);
    } else {
      j := |s|;
      assert s[..j] == s;
    }
  }

  /** Splitting undoes joining, when no part contains the separator. */
  lemma {:induction false} SplitJoin(parts: seq<string>, sep: char)
    requires |parts| >= 1
    requires forall i :: 0 <= i < |parts| ==> sep !in parts[i]
    ensures Split(Join([sep], parts), sep) == parts
  {
    if |parts| > 1 {
      var tail := Join([sep], parts[1..]);
      assert Join([sep], parts) == parts[0] + [sep] + tail;
      SplitCons(parts[0], sep, tail);
      SplitJoin(parts[1..], sep);
      assert parts == [parts[0]] + parts[1..];
    }
  }

  /** Joining two non-empty lists of parts puts one separator between their joins. */
  lemma {:induction false} JoinAppend(sep: string, p: seq<string>, q: seq<string>)
    requires |p| >= 1 && |q| >= 1
    ensures Join(sep, p + q) == Join(sep, p) + sep + Join(sep, q)
    decreases |p|
  {
    if |p| > 1 {
      assert (p + q)[1..] == p[1..] + q;
      JoinAppend(sep, p[1..], q);
    } else {
      assert (p + q)[1..] == q;
    }
  }

  /** Splitting at a separator between two strings splits each of them. */
  lemma SplitConcat(a: string, b: string, sep: char)
    ensures Split(a + [sep] + b, sep) == Split(a, sep) + Split(b, sep)
  {
    var p := Split(a, sep);
    var q := Split(b, sep);
    SplitJoinsBack(a, sep);
    SplitJoinsBack(b, sep);
    JoinAppend([sep], p, q);
    SplitJoin(p + q, sep);
  }

  /** `s` with every occurrence of `c` deleted. */
  function Without(s: string, c: char): (r: string)
    ensures c !in r
    ensures |r| <= |s|
    ensures forall x :: x in r ==> x in s
    ensures |s| > 0 && s[0] != c ==> |r| > 0 && r[0] == s[0]
  {
    if |s| == 0 then ""
    else (if s[0] == c then "" else [s[0]]) + Without(s[1..], c)
  }

  lemma WithoutAppend(a: string, b: string, c: char)
    ensures Without(a + b, c) == Without(a, c) + Without(b, c)
  {
    if |a| > 0 {
      assert (a + b)[1..] == a[1..] + b;
      WithoutAppend(a[1..], b, c);
    } else {
      assert a + b == b;
    }
  }

  lemma WithoutAbsent(s: string, c: char)
    requires c !in s
    ensures Without(s, c) == s
  {
    if |s| > 0 {
      assert c !in s[1..];
      WithoutAbsent(s[1..], c);
    }
  }

  lemma JoinEmptyCons(x: string, rest: seq<string>)
    requires |rest| >= 1
    ensures Join("", [x] + rest) == x + Join("", rest)
  {
    var l := [x] + rest;
    assert |l| > 1 && l[0] == x && l[1..] == rest;
    assert Join("", l) == x + "" + Join("", rest);
    assert x + "" == x;
  }

  lemma WithoutCons(c: char, s: string)
    ensures Without([c] + s, c) == Without(s, c)
  {
    assert ([c] + s)[1..] == s;
  }

  /** The step of `SplitJoinEmptyDeletes`, stated without `Split`. */
  lemma DeleteAtSeparator(s: string, c: char, i: nat, r: seq<string>, rest: seq<string>)
    requires i < |s| && s[i] == c && c !in s[..i]
    requires r == [s[..i]] + rest && |rest| >= 1
    requires Join("", rest) == Without(s[i + 1..], c)
    ensures Join("", r) == Without(s, c)
  {
    var pre, post := s[..i], s[i + 1..];
    assert s == pre + ([c] + post);
    calc {
      Without(s, c);
    == { WithoutAppend(pre, [c] + post, c); }
      Without(pre, c) + Without([c] + post, c);
    == { WithoutAbsent(pre, c); WithoutCons(c, post); }
      pre + Without(post, c);
    == { JoinEmptyCons(pre, rest); }
      Join("", r);
    }
  }

  /**
   * `s.split(c).join("")`, the source's idiom for deleting a character,
   * deletes exactly the occurrences of `c` and keeps everything else in order.
   */
  lemma {:induction false} SplitJoinEmptyDeletes(s: string, c: char)
    ensures Join("", Split(s, c)) == Without(s, c)
    decreases |s|
  {
    if c in s {
      var i := IndexOf(s, c);
      SplitJoinEmptyDeletes(s[i + 1..], c);
      DeleteAtSeparator(s, c, i, Split(s, c), Split(s[i + 1..], c));
    } else {
      WithoutAbsent(s, c);
    }
  }

  // ---------------------------------------------------------------- trim

  /** The characters `String.prototype.trim` removes: WhiteSpace and LineTerminator. */
  predicate IsJsSpace(c: char)
  {
    c == '\t' || c == '\n' || c == '\U{B}' || c == '\U{C}' || c == '\r' || c == ' '
    || c == '\U{A0}' || c == '\U{1680}' || ('\U{2000}' <= c <= '\U{200A}')
    || c == '\U{2028}' || c == '\U{2029}' || c == '\U{202F}' || c == '\U{205F}'
    || c == '\U{3000}' || c == '\U{FEFF}'
  }

  function TrimStart(s: string): (r: string)
    ensures |r| <= |s|
    ensures r == s[|s| - |r|..]
    ensures |r| > 0 ==> !IsJsSpace(r[0])
    ensures forall i :: 0 <= i < |s| - |r| ==> IsJsSpace(s[i])
  {
    if |s| > 0 && IsJsSpace(s[0]) then TrimStart(s[1..]) else s
  }

  function TrimEnd(s: string): (r: string)
    ensures |r| <= |s|
    ensures r == s[..|r|]
    ensures |r| > 0 ==> !IsJsSpace(r[|r| - 1])
    ensures forall i :: |r| <= i < |s| ==> IsJsSpace(s[i])
  {
    if |s| > 0 && IsJsSpace(s[|s| - 1]) then TrimEnd(s[..|s| - 1]) else s
  }

  /**
   * `r` is the piece of `s` starting at `a` with only white space around it,
   * and it neither starts nor ends with white space.
   */
  ghost predicate TrimmedAt(s: string, r: string, a: nat)
  {
    && a + |r| <= |s| && r == s[a..a + |r|]
    && (forall i :: 0 <= i < a ==> IsJsSpace(s[i]))
    && (forall i :: a + |r| <= i < |s| ==> IsJsSpace(s[i]))
    && (|r| > 0 ==> !IsJsSpace(r[0]) && !IsJsSpace(r[|r| - 1]))
  }

  /** `s.trim()`: `s` without its leading and trailing white space. */
  function Trim(s: string): (r: string)
    ensures |r| <= |s|
    ensures var a := |s| - |TrimStart(s)|; a + |r| <= |s| && r == s[a..a + |r|]
  {
    TrimEnd(TrimStart(s))
  }

  /**
   * `s.trim()` is the piece of `s` left after removing a prefix and a suffix
   * of white space, it neither starts nor ends with white space, and it is
   * empty exactly when `s` is all white space.
   */
  lemma TrimSpec(s: string)
    ensures TrimmedAt(s, Trim(s), |s| - |TrimStart(s)|)
    ensures (forall i :: 0 <= i < |s| ==> IsJsSpace(s[i])) <==> |Trim(s)| == 0
  {
    var t := TrimStart(s);
    TrimPieces(s, t, TrimEnd(t), |s| - |t|);
  }

  /** The step of `Trim`, stated without `TrimStart` and `TrimEnd`. */
  lemma TrimPieces(s: string, t: string, r: string, a: nat)
    requires a <= |s| && t == s[a..] && (forall i :: 0 <= i < a ==> IsJsSpace(s[i]))
    requires |t| > 0 ==> !IsJsSpace(t[0])
    requires |r| <= |t| && r == t[..|r|] && (forall i :: |r| <= i < |t| ==> IsJsSpace(t[i]))
    requires |r| > 0 ==> !IsJsSpace(r[|r| - 1])
    ensures TrimmedAt(s, r, a)
    ensures (forall i :: 0 <= i < |s| ==> IsJsSpace(s[i])) <==> |r| == 0
  {
    forall i | a + |r| <= i < |s| ensures IsJsSpace(s[i]) {
      assert s[i] == t[i - a];
    }
    assert r == s[a..a + |r|];
    if |r| > 0 {
      assert r[0] == t[0] && s[a] == t[0];
    } else {
      assert |t| == 0 && a == |s|;
    }
  }

  /** Only one piece of `s` is trimmed: whatever piece has only white space around it is `s.trim()`. */
  lemma TrimUnique(s: string, r: string, a: nat)
    requires TrimmedAt(s, r, a)
    ensures r == Trim(s)
  {
    var t := Trim(s);
    var b := |s| - |TrimStart(s)|;
    TrimSpec(s);
    if |r| > 0 {
      assert s[a] == r[0] && s[a + |r| - 1] == r[|r| - 1];
      assert !IsJsSpace(s[a]);
      assert s[b] == t[0] && s[b + |t| - 1] == t[|t| - 1];
      assert !IsJsSpace(s[b]) && !IsJsSpace(s[b + |t| - 1]);
      assert a == b;
      assert |r| == |t|;
    } else {
      forall i | 0 <= i < |s| ensures IsJsSpace(s[i]) {
        if i >= a { assert a + |r| <= i; }
      }
    }
  }

  // ---------------------------------------------------------------- ordering

  /**
   * The order `Array.prototype.sort` uses when no comparator is given:
   * lexicographic on characters, a proper prefix first.
   */
  predicate StrLe(a: string, b: string)
  {
    if |a| == 0 then true
    else if |b| == 0 then false
    else if a[0] != b[0] then a[0] < b[0]
    else StrLe(a[1..], b[1..])
  }

  lemma StrLeRefl(a: string)
    ensures StrLe(a, a)
  {
  }

  lemma StrLeTotal(a: string, b: string)
    ensures StrLe(a, b) || StrLe(b, a)
  {
  }

  lemma StrLeAntisym(a: string, b: string)
    requires StrLe(a, b) && StrLe(b, a)
    ensures a == b
  {
    if |a| > 0 && |b| > 0 {
      StrLeAntisym(a[1..], b[1..]);
      assert a == [a[0]] + a[1..] && b == [b[0]] + b[1..];
    }
  }

  lemma StrLeTrans(a: string, b: string, c: string)
    requires StrLe(a, b) && StrLe(b, c)
    ensures StrLe(a, c)
  {
    if |a| > 0 && |b| > 0 && |c| > 0 && a[0] == b[0] && b[0] == c[0] {
      StrLeTrans(a[1..], b[1..], c[1..]);
    }
  }

  predicate Sorted(s: seq<string>)
  {
    forall i, j :: 0 <= i < j < |s| ==> StrLe(s[i], s[j])
  }

  /** `y` is at or below every element of `s`. */
  predicate LowerBound(y: string, s: seq<string>)
  {
    forall j :: 0 <= j < |s| ==> StrLe(y, s[j])
  }

  lemma ConsSorted(y: string, s: seq<string>)
    requires Sorted(s) && LowerBound(y, s)
    ensures Sorted([y] + s)
  {
    var r := [y] + s;
    forall i, j | 0 <= i < j < |r| ensures StrLe(r[i], r[j]) {
      if i > 0 { assert r[i] == s[i - 1] && r[j] == s[j - 1]; }
      else { assert r[j] == s[j - 1]; }
    }
  }

  lemma LowerBoundOfSorted(y: string, s: seq<string>)
    requires Sorted(s) && |s| > 0 && StrLe(y, s[0])
    ensures LowerBound(y, s)
  {
    forall j | 0 <= j < |s| ensures StrLe(y, s[j]) {
      if j > 0 { StrLeTrans(y, s[0], s[j]); }
    }
  }

  /** A lower bound of `s` and of `x` bounds any permutation of `s` with `x` added. */
  lemma LowerBoundOfPermutation(y: string, x: string, s: seq<string>, t: seq<string>)
    requires LowerBound(y, s) && StrLe(y, x)
    requires multiset(t) == multiset(s) + multiset{x}
    ensures LowerBound(y, t)
  {
    forall j | 0 <= j < |t| ensures StrLe(y, t[j]) {
      assert t[j] in multiset(t);
      if t[j] != x {
        assert t[j] in multiset(s);
        var k :| 0 <= k < |s| && s[k] == t[j];
      }
    }
  }

  function Insert(x: string, s: seq<string>): (r: seq<string>)
    requires Sorted(s)
    ensures Sorted(r)
    ensures multiset(r) == multiset(s) + multiset{x}
  {
    if |s| == 0 then [x]
    else if StrLe(x, s[0]) then
      LowerBoundOfSorted(x, s);
      ConsSorted(x, s);
      [x] + s
    else
      StrLeTotal(x, s[0]);
      var tail := s[1..];
      SortedTail(s);
      var t := Insert(x, tail);
      StrLeRefl(s[0]);
      LowerBoundOfSorted(s[0], s);
      assert LowerBound(s[0], tail) by {
        forall j | 0 <= j < |tail| ensures StrLe(s[0], tail[j]) { assert tail[j] == s[j + 1]; }
      }
      LowerBoundOfPermutation(s[0], x, tail, t);
      ConsSorted(s[0], t);
      [s[0]] + t
  }

  /** `arr.slice().sort()` on strings: an ordered permutation of the input. */
  function Sort(s: seq<string>): (r: seq<string>)
    ensures Sorted(r)
    ensures multiset(r) == multiset(s)
  {
    if |s| == 0 then []
    else
      assert s == [s[0]] + s[1..];
      Insert(s[0], Sort(s[1..]))
  }

  lemma SortedHeadLeast(a: seq<string>, x: string)
    requires Sorted(a) && x in multiset(a)
    ensures StrLe(a[0], x)
  {
    var j :| 0 <= j < |a| && a[j] == x;
    if j == 0 { StrLeRefl(x); }
  }

  /** An ordered permutation is unique: sorting depends only on the multiset. */
  lemma {:induction false} SortedUnique(a: seq<string>, b: seq<string>)
    requires Sorted(a) && Sorted(b)
    requires multiset(a) == multiset(b)
    ensures a == b
  {
    assert |a| == |multiset(a)| == |multiset(b)| == |b|;
    if |a| > 0 {
      assert a[0] == b[0] by {
        assert a[0] in multiset(a) && b[0] in multiset(b);
        SortedHeadLeast(a, b[0]);
        SortedHeadLeast(b, a[0]);
        StrLeAntisym(a[0], b[0]);
      }
      SortedTail(a);
      SortedTail(b);
      SortedUnique(a[1..], b[1..]);
      SameHeadSameTail(a, b);
    }
  }

  lemma SameHeadSameTail<T>(a: seq<T>, b: seq<T>)
    requires |a| > 0 && |b| > 0 && a[0] == b[0] && a[1..] == b[1..]
    ensures a == b
  {
    assert a == [a[0]] + a[1..] && b == [b[0]] + b[1..];
  }

  lemma SortedTail(a: seq<string>)
    requires Sorted(a) && |a| > 0
    ensures Sorted(a[1..])
    ensures multiset(a[1..]) == multiset(a) - multiset{a[0]}
    ensures multiset(a) == multiset(a[1..]) + multiset{a[0]}
  {
    assert a == [a[0]] + a[1..];
  }

  // ---------------------------------------------------------------- numbers

  function Digit(d: nat): (c: char)
    requires d < 10
    ensures '0' <= c <= '9'
  {
    (48 + d) as char
  }

  /** The decimal rendering `${n}` gives a non-negative integer. */
  function Decimal(n: nat): (r: string)
    ensures |r| >= 1
    ensures forall i :: 0 <= i < |r| ==> '0' <= r[i] <= '9'
    ensures r[|r| - 1] == Digit(n % 10)
    ensures n >= 10 <==> |r| >= 2
  {
    if n < 10 then [Digit(n)] else Decimal(n / 10) + [Digit(n % 10)]
  }

  /** Distinct counters render as distinct strings. */
  lemma {:induction false} DecimalInjective(a: nat, b: nat)
    requires Decimal(a) == Decimal(b)
    ensures a == b
  {
    assert Digit(a % 10) == Digit(b % 10);
    if a >= 10 && b >= 10 {
      var da := Decimal(a);
      assert Decimal(a / 10) == da[..|da| - 1];
      assert Decimal(b / 10) == da[..|da| - 1];
      DecimalInjective(a / 10, b / 10);
    }
  }
}

=== FILE: types.dfy ===
/** The records the scope builder produces and the graph lowering consumes. */
module Types {
  import opened Wrappers
  import opened OrderedMaps

  /** The callee path of one call expression, outermost name first (`["$", "ajax"]`). */
  type CallPath = seq<string>

  /**
   * What one call expression contributes to its function's `calls`: the paths
   * of every call inside that expression, the expression's own first.
   */
  type CallRecord = seq<CallPath>

  /**
   * A function, class or method record. Functions and classes carry a
   * `methods` table; method records have none, and the declarations found in
   * a method body are stored as extra properties of the method record itself
   * (`attached`).
   */
  datatype Descriptor =
    | Declaration(name: string, path: string, js: string, jsdoc: Option<string>,
                  methods: seq<Entry<Descriptor>>, calls: seq<CallRecord>)
    | MethodRecord(name: string, path: string, js: string, jsdoc: Option<string>,
                   calls: seq<CallRecord>, attached: seq<Entry<Descriptor>>)

  /** An object of descriptors keyed by name, in first-insertion order. */
  type Members = seq<Entry<Descriptor>>

  /** One entry of the export table: `{ default, identifier }`. */
  datatype Binding = Binding(isDefault: bool, identifier: Option<string>)

  type ExportTable = map<string, Binding>

  /** The result of scanning one file. */
  datatype Scope = Scope(source: string, functions: Members, classes: Members, exported: ExportTable)
}

=== FILE: utilities.dfy ===
/**
 * `uniqueArrays`, which drops arrays whose sorted-and-joined rendering was
 * already seen, and `readCodeFromFile`, with the file read replaced by its
 * content.
 */
module Utilities {
  import opened Strings
  import opened Ast

  function MapSeq<T>(arr: seq<T>, show: T -> string): (r: seq<string>)
    ensures |r| == |arr|
  {
    if |arr| == 0 then [] else [show(arr[0])] + MapSeq(arr[1..], show)
  }

  /**
   * `arr.slice().sort().join(',')`, where `show` is how one element of `arr`
   * turns into a string (`String(x)`; for a nested array, its own `join(',')`).
   */
  function ArrayKey<T>(arr: seq<T>, show: T -> string): string
  {
    Join(",", Sort(MapSeq(arr, show)))
  }

  lemma MapSeqAppend<T>(a: seq<T>, b: seq<T>, show: T -> string)
    ensures MapSeq(a + b, show) == MapSeq(a, show) + MapSeq(b, show)
  {
    if |a| == 0 {
      assert a + b == b;
    } else {
      assert (a + b)[1..] == a[1..] + b;
      MapSeqAppend(a[1..], b, show);
    }
  }

  /** Taking `x` out from between `pre` and `post`, of a sequence and of its rendering. */
  lemma MapSeqRemove<T>(pre: seq<T>, x: T, post: seq<T>, show: T -> string)
    ensures multiset(pre + post) == multiset(pre + [x] + post) - multiset{x}
    ensures multiset(MapSeq(pre + [x] + post, show)) == multiset(MapSeq(pre + post, show)) + multiset{show(x)}
  {
    MultisetMiddle(pre, x, post);
    MapSeqAppend(pre + [x], post, show);
    MapSeqAppend(pre, [x], show);
    MapSeqAppend(pre, post, show);
    assert MapSeq([x], show) == [show(x)];
    MultisetMiddle(MapSeq(pre, show), show(x), MapSeq(post, show));
  }

  lemma MultisetMiddle<T>(pre: seq<T>, x: T, post: seq<T>)
    ensures multiset(pre + post) == multiset(pre + [x] + post) - multiset{x}
    ensures multiset(pre + [x] + post) == multiset(pre + post) + multiset{x}
  {
  }

  lemma {:induction false} MapSeqPermutation<T>(a: seq<T>, b: seq<T>, show: T -> string)
    requires multiset(a) == multiset(b)
    ensures multiset(MapSeq(a, show)) == multiset(MapSeq(b, show))
  {
    if |a| == 0 {
      assert |b| == |multiset(b)| == 0;
    } else {
      assert a[0] in multiset(b);
      var j :| 0 <= j < |b| && b[j] == a[0];
      var ra, rb := a[1..], b[..j] + b[j + 1..];
      assert b == b[..j] + [b[j]] + b[j + 1..];
      MapSeqRemove(b[..j], b[j], b[j + 1..], show);
      MapSeqHead(a, show);
      assert multiset(ra) == multiset(rb);
      MapSeqPermutation(ra, rb, show);
      calc {
        multiset(MapSeq(a, show));
        multiset(MapSeq(ra, show)) + multiset{show(a[0])};
        multiset(MapSeq(rb, show)) + multiset{show(b[j])};
        multiset(MapSeq(b, show));
      }
    }
  }

  lemma MapSeqHead<T>(a: seq<T>, show: T -> string)
    requires |a| > 0
    ensures multiset(a[1..]) == multiset(a) - multiset{a[0]}
    ensures multiset(MapSeq(a, show)) == multiset(MapSeq(a[1..], show)) + multiset{show(a[0])}
  {
    MultisetOfTail(a);
    assert MapSeq(a, show) == [show(a[0])] + MapSeq(a[1..], show);
  }

  lemma MultisetOfTail<T>(a: seq<T>)
    requires |a| > 0
    ensures multiset(a[1..]) == multiset(a) - multiset{a[0]}
  {
    assert a == [a[0]] + a[1..];
  }

  /** Reordering an array does not change its key: permutations collapse. */
  lemma ArrayKeyPermutation<T>(a: seq<T>, b: seq<T>, show: T -> string)
    requires multiset(a) == multiset(b)
    ensures ArrayKey(a, show) == ArrayKey(b, show)
  {
    MapSeqPermutation(a, b, show);
    SortedUnique(Sort(MapSeq(a, show)), Sort(MapSeq(b, show)));
  }

  /** The key of every array of `xs`, in order. */
  function KeysOf<T>(xs: seq<seq<T>>, show: T -> string): (keys: seq<string>)
    ensures |keys| == |xs|
    ensures forall i :: 0 <= i < |xs| ==> keys[i] == ArrayKey(xs[i], show)
  {
    seq(|xs|, i requires 0 <= i < |xs| => ArrayKey(xs[i], show))
  }

  /** No earlier position holds the same key as position `i`. */
  predicate FirstOfKey(keys: seq<string>, i: nat)
    requires i < |keys|
  {
    forall j :: 0 <= j < i ==> keys[j] != keys[i]
  }

  /**
   * The loop of `uniqueArrays` over the first `n` keys: the positions it
   * keeps, and its `seen` set.
   */
  function FirstIndices(keys: seq<string>, n: nat): (res: (seq<nat>, set<string>))
    requires n <= |keys|
    ensures res.1 == set j | 0 <= j < n :: keys[j]
    ensures |res.0| <= n
    ensures forall a :: 0 <= a < |res.0| ==> res.0[a] < n
    ensures forall a, b :: 0 <= a < b < |res.0| ==> res.0[a] < res.0[b]
    ensures forall i :: 0 <= i < n ==> (i in res.0 <==> FirstOfKey(keys, i))
  {
    if n == 0 then ([], {})
    else
      var (kept, seen) := FirstIndices(keys, n - 1);
      if keys[n - 1] in seen then (kept, seen) else (kept + [n - 1], seen + {keys[n - 1]})
  }

  /** `r` picks the elements of `xs` at the increasing positions `idx`. */
  ghost predicate PicksAt<T>(r: seq<T>, xs: seq<T>, idx: seq<nat>)
  {
    && |idx| == |r|
    && (forall a :: 0 <= a < |idx| ==> idx[a] < |xs| && r[a] == xs[idx[a]])
    && (forall a, b :: 0 <= a < b < |idx| ==> idx[a] < idx[b])
  }

  /** `r` picks, in input order, exactly the positions of `xs` that hold the first of their key. */
  ghost predicate KeepsFirsts<T>(r: seq<seq<T>>, xs: seq<seq<T>>, show: T -> string)
  {
    exists idx :: PicksAt(r, xs, idx) && forall i :: 0 <= i < |xs| ==> (i in idx <==> FirstOfKey(KeysOf(xs, show), i))
  }

  /**
   * `uniqueArrays`: keeps, in input order, the first array of every key. The
   * result picks exactly the input positions that are the first of their key,
   * so no two of its arrays share a key.
   */
  function UniqueArrays<T>(xs: seq<seq<T>>, show: T -> string): (r: seq<seq<T>>)
    ensures |r| <= |xs|
    ensures KeepsFirsts(r, xs, show)
    ensures forall a, b :: 0 <= a < b < |r| ==> ArrayKey(r[a], show) != ArrayKey(r[b], show)
    ensures forall i :: 0 <= i < |xs| && FirstOfKey(KeysOf(xs, show), i) ==> xs[i] in r
  {
    var keys := KeysOf(xs, show);
    var idx := FirstIndices(keys, |xs|).0;
    var r := seq(|idx|, a requires 0 <= a < |idx| => xs[idx[a]]);
    assert PicksAt(r, xs, idx);
    FirstsKept(xs, keys, idx, r);
    FirstsDistinct(keys, idx);
    r
  }

  /** Every position the loop keeps holds the first of its key. */
  lemma FirstsKept<T>(xs: seq<T>, keys: seq<string>, idx: seq<nat>, r: seq<T>)
    requires |keys| == |xs| && PicksAt(r, xs, idx)
    requires forall i :: 0 <= i < |xs| ==> (i in idx <==> FirstOfKey(keys, i))
    ensures forall i :: 0 <= i < |xs| && FirstOfKey(keys, i) ==> xs[i] in r
  {
    forall i | 0 <= i < |xs| && FirstOfKey(keys, i) ensures xs[i] in r {
      var a :| 0 <= a < |idx| && idx[a] == i;
      assert r[a] == xs[i];
    }
  }

  /** The kept positions hold pairwise distinct keys. */
  lemma FirstsDistinct(keys: seq<string>, idx: seq<nat>)
    requires forall a :: 0 <= a < |idx| ==> idx[a] < |keys|
    requires forall a, b :: 0 <= a < b < |idx| ==> idx[a] < idx[b]
    requires forall i :: 0 <= i < |keys| ==> (i in idx <==> FirstOfKey(keys, i))
    ensures forall a, b :: 0 <= a < b < |idx| ==> keys[idx[a]] != keys[idx[b]]
  {
    forall a, b | 0 <= a < b < |idx| ensures keys[idx[a]] != keys[idx[b]] {
      assert idx[b] in idx;
      assert FirstOfKey(keys, idx[b]);
    }
  }

  /** Every key of the input is represented in the result. */
  lemma UniqueArraysCovers<T>(xs: seq<seq<T>>, show: T -> string, i: nat)
    requires i < |xs|
    ensures exists a :: 0 <= a < |UniqueArrays(xs, show)| && ArrayKey(UniqueArrays(xs, show)[a], show) == ArrayKey(xs[i], show)
  {
    var keys := KeysOf(xs, show);
    var first := FirstWithKey(keys, i);
    var r := UniqueArrays(xs, show);
    assert xs[first] in r;
  }

  /** The smallest position up to `i` holding the key at `i`. */
  lemma FirstWithKey(keys: seq<string>, i: nat) returns (first: nat)
    requires i < |keys|
    ensures first <= i && keys[first] == keys[i]
    ensures FirstOfKey(keys, first)
  {
    first := i;
    if !FirstOfKey(keys, i) {
      var j :| 0 <= j < i && keys[j] == keys[i];
      first := FirstWithKey(keys, j);
    }
  }

  /** On keys that are already distinct, the loop keeps every position. */
  lemma {:induction false} FirstIndicesDistinct(keys: seq<string>, n: nat)
    requires n <= |keys|
    requires forall a, b :: 0 <= a < b < |keys| ==> keys[a] != keys[b]
    ensures FirstIndices(keys, n).0 == seq(n, i => i)
  {
    if n > 0 {
      FirstIndicesDistinct(keys, n - 1);
      assert keys[n - 1] !in FirstIndices(keys, n - 1).1;
      assert seq(n - 1, i => i) + [n - 1] == seq(n, i => i);
    }
  }

  /** Deduplicating twice is deduplicating once. */
  lemma UniqueArraysIdempotent<T>(xs: seq<seq<T>>, show: T -> string)
    ensures UniqueArrays(UniqueArrays(xs, show), show) == UniqueArrays(xs, show)
  {
    var r := UniqueArrays(xs, show);
    var keys := KeysOf(r, show);
    FirstIndicesDistinct(keys, |r|);
    var idx := FirstIndices(keys, |r|).0;
    assert idx == seq(|r|, i => i);
    assert seq(|idx|, a requires 0 <= a < |idx| => r[idx[a]]) == r;
  }

  /**
   * `readCodeFromFile`: `content.slice(start, end)` for the node's offsets,
   * with `slice`'s clamping to the content's length.
   */
  function ReadCode(content: string, span: Span): (r: string)
    ensures span.start <= span.end <= |content| ==> r == content[span.start..span.end]
    ensures span.start <= |content| <= span.end ==> r == content[span.start..]
    ensures span.end <= span.start || |content| <= span.start ==> r == ""
  {
    var e := if span.end < |content| then span.end else |content|;
    var s := if span.start < e then span.start else e;
    content[s..e]
  }
}

=== FILE: wrappers.dfy ===
/** Optional values, standing in for the source's `null` / `undefined`. */
module Wrappers {

  datatype Option<+T> = None | Some(value: T) {

    /** The wrapped value, or `default` when there is none. */
    function GetOr(default: T): (r: T)
      ensures Some? ==> r == value
      ensures None? ==> r == default
    {
      match this
      case Some(v) => v
      case None => default
    }
  }
}
